=== FILE: README.md ===
# connections-service in Dafny

A model of the decision logic of connections-service. This Node.js service
keeps one "connection" row per (tenant, end user, provider) authorization. It
runs the OAuth flow through the Nango token vault, and it hands provider
access tokens to callers that present a delegation token. The model covers:

- the delegation-token claim validator and scope authorizer (`DelegationToken`);
- the access-issuance pipeline `createAccessToken`, with its ordered checks,
  lifetime arithmetic, vendor block and message-based status classification
  (`AccessIssuance`);
- the `Connection` record and its lifecycle methods (`ConnectionModel`);
- the store operations over an in-memory sequence of rows (`ConnectionStore`);
- the connection endpoints: list, get, create-or-reuse, reconnect, and
  delete-then-revoke (`ConnectionsController`);
- webhook-driven activation, webhook validation and dispatch, and the webhook
  endpoint's reply mapping (`WebhookAuth`, `WebhookService`,
  `WebhookController`);
- the Base58 encoder and the connection helpers (`Base58`, `ConnectionUtils`);
- the error classes (`Errors`);
- the vault client's error classification and result mapping (`Nango`);
- the mTLS and webhook-signature gates (`Middleware`);
- the connection-token service (`ConnectionTokenService`).

`Wrappers` holds `Option`/`Result`. `Js` holds the JavaScript values the
service handles (truthiness, property access, `String()`, `Array.join`,
`String.includes`, ASCII `toLowerCase`).

Everything outside the process is an input:

- the clock, in whole seconds;
- what `jwt.decode` produced;
- the random bytes, the `jti` and the event id;
- the answer of every Nango SDK call (`Ok` with its result, or `Err` with the
  thrown message);
- the peer certificate and the environment variables.

Error messages are exact strings, because `createAccessToken` picks the HTTP
status by searching the thrown message for keywords.

Where the code departs from its evident intent, the model follows the code:

- scope checks compare strings exactly, so they are case-sensitive;
- a token counts as expired only when `exp < now`;
- a missing claim is answered with 500, not 401;
- vault failures are mapped to statuses by substring;
- webhook activation ignores the prior status, so a revoked row becomes active
  again;
- revoking never sets `revokedAt`;
- there is no token refresh and no JTI store;
- the validator's rewrites of `TokenExpiredError`/`JsonWebTokenError` never
  fire, because every error it throws is a plain `Error`;
- the duplicate check sees only the newest row;
- `createTokenForConnection` has no tenant check;
- the reconnect endpoint neither checks the tenant nor writes a row;
- the webhook gate's 500 branch is unreachable.

The constants of src/utils/nango.js are taken to be `auth`, `forward` and
`creation`; src/utils/nango.js is not part of this model.

## Model

| member | source | states |
|---|---|---|
| DelegationToken.FirstFalsy | src/services/delegation-token-service.js:77-81 | the index found is the first claim, in the fixed order, whose value is falsy; None means every claim is truthy |
| DelegationToken.ValidateJWTClaims | src/services/delegation-token-service.js:64-123 | success implies the claims are well formed: all present, fixed identities, bound to the path, `scp` an array |
| DelegationToken.Message | src/services/delegation-token-service.js:18-134 | the thrown texts carry the keyword their caller classifies by: `expired` for expiry; `Invalid` without `expired` for a bad format, audience, party or issuer; `scopes` for a scope violation; none for a missing token, a missing claim or a non-array `scp`; a missing claim and a mismatch name the claim or path id |
| DelegationToken.VerifyToken | src/services/delegation-token-service.js:39-62 | an undecodable token is "Invalid token format"; the only other failure is expiry; success returns the decoded payload, which is unexpired |
| DelegationToken.ValidateDelegationToken | src/services/delegation-token-service.js:15-37 | a falsy token fails before decoding; success returns the decoded payload unchanged, with well-formed claims |
| DelegationToken.Unauthorized | src/services/delegation-token-service.js:126-128 | the listed scopes are requested ones that are not authorized; the list is empty iff every requested scope is authorized |
| DelegationToken.ValidateScopes | src/services/delegation-token-service.js:125-138 | fails iff some requested scope is not authorized, naming the unauthorized ones; success returns the requested list itself |
| DelegationToken.CheckJTI | src/services/delegation-token-service.js:140-145 | the JTI check accepts every token id |
| DelegationToken.ClaimsAcceptExactlyWellFormed | src/services/delegation-token-service.js:64-123 | the claim check succeeds exactly for well-formed claim sets |
| DelegationToken.PresenceOrder | src/services/delegation-token-service.js:65-81 | "Missing required claim: X" is reported iff X is falsy and every earlier claim in aud, azp, iss, exp, jti, tid, cid, sub, scp is truthy |
| DelegationToken.PresenceBeforeValues | src/services/delegation-token-service.js:77-93 | some missing-claim error is reported iff some claim is falsy, whatever the values; an empty `scp` array is present |
| DelegationToken.IdentityOrder | src/services/delegation-token-service.js:83-93 | with all claims present, aud, azp and iss are checked in that order, each with its own error |
| DelegationToken.PathBinding | src/services/delegation-token-service.js:95-109 | a tid or cid mismatch fails even when all else is valid; after that, success iff `scp` is an array |
| DelegationToken.IsExpired | src/services/delegation-token-service.js:52-55 | an expired `exp` is a number below now; a non-zero number expires iff it is below now; a zero `exp` never expires |
| DelegationToken.ExpiryMonotone | src/services/delegation-token-service.js:52-55 | a token expired at one moment is expired at every later moment |
| DelegationToken.ExpiryBoundary | src/services/delegation-token-service.js:52-55 | rejected as expired iff `exp` is a non-zero number below now; `exp == now` is accepted |
| DelegationToken.ValidationSucceedsExactly | src/services/delegation-token-service.js:15-62 | validation succeeds iff the token is truthy and decodable, is unexpired and has well-formed claims; it returns the payload |
| DelegationToken.UnauthorizedInOrder | src/services/delegation-token-service.js:126-133 | the unauthorized list of a concatenation is the concatenation of the lists, so request order is kept |
| DelegationToken.UnauthorizedComplete | src/services/delegation-token-service.js:126-128 | each unauthorized scope is listed exactly as often as it was requested |
| DelegationToken.ScopesAreCaseSensitive | src/services/delegation-token-service.js:126-127 | a single requested scope passes iff the identical string is stored; any other spelling, including one differing only in case, is refused with that scope named |
| AccessIssuance.Decide | src/controllers/connection-token.js:13-83 | a grant names a stored row with the path's id and tenant, and that row is active |
| AccessIssuance.ExpiresIn | src/controllers/connection-token.js:85-91 | 3600 without a vault expiry; otherwise the floored whole seconds left, never negative |
| AccessIssuance.Vendor | src/controllers/connection-token.js:106-110 | `accountId`/`displayName` fall back to null, then every stored account field overrides them |
| AccessIssuance.Classify | src/controllers/connection-token.js:116-134 | each rule applies exactly when its keyword occurs and no earlier one does, in the order `expired` (401, fixed text), `Invalid` (401, echo), `not found` (404), `not active` (400), `scopes` (403, echo); 500 with the generic text iff none occurs |
| AccessIssuance.ClassifyByTable | src/controllers/connection-token.js:116-134 | for every message, the answer is the table entry of the first keyword group that occurs, or the 500 default: first match wins |
| AccessIssuance.Respond | src/controllers/connection-token.js:15-83 | a token is issued iff the outcome is a grant, with the granted scopes and token; each check has its status (404/403/400); the status is carried only by "not active" |
| AccessIssuance.CreateAccessToken | src/controllers/connection-token.js:6-142 | any issued token belongs to an active stored row in the path tenant, with that row's vendor block |
| AccessIssuance.GrantedExactly | src/controllers/connection-token.js:13-83 | issuance succeeds iff every check passes in turn; the granted scopes are the requested `scp` |
| AccessIssuance.TenantRecheckUnreachable | src/controllers/connection-token.js:39-45 | the second tenant check never decides a request |
| AccessIssuance.VersionSnapshot | src/controllers/connection-token.js:56-62 | an absent or zero `cver` never gives a version mismatch; a differing non-zero one does, once the earlier checks pass |
| AccessIssuance.VersionConflict | src/controllers/connection-token.js:56 | a falsy `cver` never conflicts; a non-zero number conflicts iff it differs from the version; any non-empty string conflicts, even the version spelled as text |
| AccessIssuance.RevokedNeverIssued | src/controllers/connection-token.js:47-54 | a revoked row is never issued a token; once token and subject pass, the answer is 400 carrying `revoked` |
| AccessIssuance.MinTtlOnlyLogs | src/controllers/connection-token.js:93-99 | the answer does not depend on `minTtlSeconds` |
| AccessIssuance.MissingClaimIsServerError | src/controllers/connection-token.js:116-134 | "Missing required claim: X" contains no keyword, so it becomes 500 "Failed to get access token" |
| AccessIssuance.UnkeyedFailuresServerError | src/controllers/connection-token.js:116-134 | a missing token, a non-array `scp` and a missing required claim carry no keyword, so each is answered 500 "Failed to get access token" |
| AccessIssuance.TokenFailuresUnauthorized | src/controllers/connection-token.js:119-124 | an expired token is answered 401 "Delegation token has expired"; a bad format, audience, party or issuer is 401 echoing its own message |
| AccessIssuance.ThrownServerError | src/controllers/connection-token.js:116-134 | a message with no keyword becomes 500 |
| AccessIssuance.ThrownForbidden | src/controllers/connection-token.js:131-133 | a message whose only keyword is `scopes` becomes 403 echoing the message |
| AccessIssuance.ScopeViolationForbidden | src/controllers/connection-token.js:131-133 | a scope violation is 403 echoing the message whenever the joined scope names contain none of `expired`, `Invalid`, `not found`, `not active`; the prefix holds only `scopes`, and no keyword can straddle its `on: ` tail |
| AccessIssuance.DriveScopeViolationForbidden | src/controllers/connection-token.js:116-134 | refusing the default Google Drive scope is answered 403 naming it |
| AccessIssuance.ScopeNamedExpired | src/controllers/connection-token.js:119-121 | an unauthorized scope named `expired` is reported as an expired delegation token (401) |
| AccessIssuance.VaultClientErrors | src/controllers/connection-token.js:122-127 | a vault 404 reads as "Connection not found" (404); a vault 400 is echoed as 401 |
| AccessIssuance.VaultOtherErrors | src/controllers/connection-token.js:116-134 | vault authentication, rate-limit, server and unknown failures all become 500 |
| AccessIssuance.IssuanceScenario | src/controllers/connection-token.js:6-111 | an active row with scope `repo`, asked for `repo` with a vault token ten minutes from expiry, is issued that token with `expires_in` 600 |
| AccessIssuance.ScopeViolationScenario | src/controllers/connection-token.js:64-133 | the same row authorized only for `repo:read` refuses `repo` with 403, naming `repo` |
| ConnectionModel.ParseStatus | database/models/connection.js:61-68 | exactly the three names pending, active and revoked parse |
| ConnectionModel.StatusName | database/models/connection.js:61-68 | the stored name of every status parses back to that status under the column's `isIn` list (see `StatusNameRoundTrip`) |
| ConnectionModel.StatusNameRoundTrip | database/models/connection.js:61-68 | every status survives a round trip through its stored name |
| ConnectionModel.NewConnection | database/models/connection.js:32-107 | a new row holds the given columns, status pending, version 1, null optional columns and the creation time |
| ConnectionModel.Saved | database/models/connection.js:100-107 | a save under timestamps stamps `updatedAt` with the save time when some column changed, and leaves the row untouched when none did |
| ConnectionModel.IncrementVersion | database/models/connection.js:8-11 | the version rises by exactly one and `updatedAt` becomes the save time; no other column changes |
| ConnectionModel.Revoke | database/models/connection.js:13-16 | status becomes revoked from any status; `updatedAt` moves to the save time iff the status changed; nothing else changes (`revokedAt` included) |
| ConnectionModel.Activate | database/models/connection.js:18-24 | succeeds iff pending, then the status becomes active and `updatedAt` the save time, nothing else; otherwise "Can only activate pending connections" |
| ConnectionModel.UpdateLastAccessed | database/models/connection.js:26-29 | `lastAccessedAt` becomes now; `updatedAt` moves to now unless `lastAccessedAt` already held it; nothing else changes |
| ConnectionModel.IncrementTwice | database/models/connection.js:8-11 | two increments add two and leave `updatedAt` at the second save's time; nothing else changes |
| ConnectionModel.RevokeIdempotent | database/models/connection.js:13-16 | a second revoke, at any time, changes nothing, not even `updatedAt`; version and `revokedAt` are untouched |
| ConnectionModel.ActivateOnce | database/models/connection.js:18-24 | an activated row cannot be activated again |
| ConnectionStore.MergeOverrides | src/services/connections.js:78-94 | a merged query matches iff the filters match and the base keys the filters leave open match |
| ConnectionStore.ApplyPatch | src/services/connections.js:59 | only status and provider connection id change, each only when the patch carries it; `updatedAt` becomes the save time iff one of them actually changed |
| ConnectionStore.FirstMatch | src/services/connections.js:47-50 | the index found is the first matching row; None iff no row matches |
| ConnectionStore.FirstMatchUniqueById | src/services/connections.js:74-76 | with unique ids, the row a lookup by id finds is the only row with that id, so the choice among matches never shows there |
| ConnectionStore.CreateConnection | src/services/connections.js:4-30 | exactly one row is appended, carrying the given columns and defaults, and it is returned |
| ConnectionStore.UpdateConnection | src/services/connections.js:39-72 | null and no change iff nothing matches; otherwise only the first matching row is patched (and stamped when it changed) and returned |
| ConnectionStore.GetConnectionById | src/services/connections.js:74-76 | None iff no row has the id; otherwise a stored row with that id |
| ConnectionStore.UpdateConnectionStatus | src/services/connections.js:103-109 | only the status of the first row with the id changes, with `updatedAt` stamped iff the status differed; no row, no change |
| ConnectionStore.Filter | src/services/connections.js:80-84 | the result holds each matching row as often as it is stored, and nothing else |
| ConnectionStore.Insert | src/services/connections.js:82 | insertion keeps a list newest first and adds exactly the one row |
| ConnectionStore.SortNewestFirst | src/services/connections.js:80-92 | the result is a permutation of the input, ordered by `createdAt` descending |
| ConnectionStore.FindAllNewestFirst | src/services/connections.js:80-84 | exactly the matching rows, with multiplicity, newest first |
| ConnectionStore.FoundExactly | src/services/connections.js:80-84 | a row is in a query result iff it is stored and matches |
| ConnectionStore.HeadIsNewest | src/services/connections.js:80-84 | the head of a non-empty result is at least as new as every matching row |
| ConnectionStore.GetConnectionsByTenant | src/services/connections.js:78-85 | exactly the rows matching `{tenantId, ...filters}`, newest first |
| ConnectionStore.GetConnectionsByUser | src/services/connections.js:87-94 | exactly the rows matching `{sub, ...filters}`, newest first |
| ConnectionStore.UniqueIdsPreserved | src/services/connections.js:4-72 | creating with a fresh id, and updating, both keep ids unique |
| ConnectionsController.ListedRows | src/controllers/connections.js:22-31 | with a user: that user's rows in the tenant; otherwise all the tenant's rows; newest first either way |
| ConnectionsController.GetConnections | src/controllers/connections.js:9-48 | 400 iff no tenant; otherwise the public view of each listed row in order, with `count` the length |
| ConnectionsController.ListedExactly | src/controllers/connections.js:22-34 | a row is listed iff it is stored in the tenant (and belongs to the user, when one is named) |
| ConnectionsController.GetConnection | src/controllers/connections.js:50-87 | 400 without an id; found iff some row has the id, answered with that row's public view; otherwise 404 echoing the id |
| ConnectionsController.UserRowsHead | src/controllers/connections.js:97-100 | the query is empty iff no row has the key; otherwise its head is the newest row with the key |
| ConnectionsController.CreateConnection | src/controllers/connections.js:89-149 | the store stays the same or gains one pending row with lower-cased scopes and `oauth`; a refusal (400 duplicate, 500 failure) changes nothing; a failed session is refused |
| ConnectionsController.DuplicateMeansNewestActive | src/controllers/connections.js:97-108 | 400 iff the newest row for (sub, tenant, provider) is active |
| ConnectionsController.ReuseNewestInactive | src/controllers/connections.js:110-121 | an inactive newest row is reused as it stands and named in the answer |
| ConnectionsController.StrictlyNewestActiveRefused | src/controllers/connections.js:102-108 | an active row strictly newer than every other row with the key makes creation fail with 400 |
| ConnectionsController.OlderActiveUndetected | src/controllers/connections.js:102-110 | an older active row behind a newer pending one goes undetected; the pending one is reused |
| ConnectionsController.FreshUserGetsOnePendingRow | src/controllers/connections.js:112-121 | with no row for the key, exactly one pending version-1 row with lower-cased scopes is added and named |
| ConnectionsController.CreateConnectSessionAsWritten | src/services/nango-service.js:67-108 | as written, the session call always fails with "Failed to create connect session: An unexpected error occurred" |
| ConnectionsController.ReferenceErrorUnclassified | src/services/nango-service.js:34-90 | the reference error's message names no status code, so it is UNKNOWN_ERROR |
| ConnectionsController.CreateConnectSession | src/services/nango-service.js:78-107 | as intended: the SDK's token, or its failure rethrown with the category message |
| ConnectionsController.CreateNeverSucceedsAsWritten | src/controllers/connections.js:123-148 | with the session call as written, creation never keeps a row and never succeeds |
| ConnectionsController.CreateSucceedsAsIntended | src/controllers/connections.js:112-140 | with the intended session call, a fresh user gets one row and an answer naming it |
| ConnectionsController.UpdateConnection | src/controllers/connections.js:151-188 | 404 iff no row has the id; otherwise the reconnect token, or 500 when reconnecting fails; never writes |
| ConnectionsController.DeleteConnection | src/controllers/connections.js:190-231 | 404 iff absent; deleted iff the vault answers 200; 400/500 leave the store alone; only a confirmed deletion revokes the row, saved at the request time |
| ConnectionsController.DeleteKeepsRevokedAt | src/controllers/connections.js:215-218 | deletion moves only the status and `updatedAt` (to the request time): `revokedAt` and the version are kept |
| WebhookAuth.Correlation | src/services/webhook/auth.js:17-23 | the `connectId` tag selects by id when truthy; otherwise the (user, provider, tenant) triple selects |
| WebhookAuth.Process | src/services/webhook/auth.js:9-42 | a missing `endUser` throws; other operations change nothing; creation fails iff no row matches, else activates the first match, stamping it when it changed, and reports it |
| WebhookAuth.RevokedRowReactivated | src/services/webhook/auth.js:25-31 | a revoked row named by the tag becomes active, although `activate` would refuse it |
| WebhookAuth.TagOverridesIdentity | src/services/webhook/auth.js:17-23 | the tagged row is activated even when another row matches the identity triple |
| WebhookService.ValidateWebhookPayload | src/services/webhook/index.js:31-41 | valid iff a type is present and either it is `forward` or a connection id is present; errors are the two WebhookErrors |
| WebhookService.CreatePayload | src/services/webhook/index.js:48-58 | only `auth` is dispatched to activation; every other type yields null and changes nothing |
| WebhookService.ProcessWebhook | src/services/webhook/index.js:13-29 | succeeds iff validation and dispatch succeed, reporting processed with the input's id and operation |
| WebhookService.ForwardAcceptedUntouched | src/services/webhook/index.js:31-58 | a `forward` notification needs no id and touches no row |
| WebhookService.WebhookErrorsComeFromValidation | src/services/webhook/index.js:13-41 | every WebhookError comes from validation; the activation handler throws only runtime errors |
| WebhookService.AuthNotificationActivates | src/services/webhook/index.js:13-58 | an auth creation tagged with a stored id activates exactly that row |
| WebhookController.HandleNangoWebhook | src/controllers/webhooks/index.js:4-45 | missing body or type gives 400; 200 received iff processing succeeds; a WebhookError is 400 echoing its fields; other failures are swallowed with no change |
| WebhookController.StatusTable | src/controllers/webhooks/index.js:8-43 | 400 iff the type is missing or a WebhookError is refused; every other reply is 200; the body carries an `error` text iff the notification was not processed |
| WebhookController.StatusOf | src/controllers/webhooks/index.js:8-43 | every reply is 200 or 400, and 400 exactly for a missing type or a refused WebhookError |
| WebhookController.ErrorText | src/controllers/webhooks/index.js:8-43 | only the success body lacks an `error` text, and a refusal echoes the WebhookError's message |
| WebhookController.RefusalIsMissingConnectionId | src/controllers/webhooks/index.js:26-34 | the only refusal is a missing connection id, echoing the type and id |
| WebhookController.MissingRowSwallowed | src/controllers/webhooks/index.js:37-43 | a creation whose row is missing is acknowledged with 200 and changes nothing |
| Base58.CharDigit | src/utils/connections.js:3-4 | every alphabet character maps back to the digit it renders |
| Base58.DigitCharRoundTrip | src/utils/connections.js:3-4 | each digit renders to an alphabet character that reads back as that digit |
| Base58.AlphabetTable | src/utils/connections.js:3-4 | the 58-character alphabet string is the digit table |
| Base58.AlphabetExcludesLookAlikes | src/utils/connections.js:3-4 | `0`, `O`, `I` and `l` are not in the alphabet |
| Base58.EncodeBase58 | src/utils/connections.js:11-28 | the loops compute the encoding: empty for the empty buffer, otherwise only alphabet characters |
| Base58.DigitString | src/utils/connections.js:17-21 | the division loop writes the value's base-58 digits, most significant first |
| Base58.PadZeros | src/utils/connections.js:23-25 | the zero loop puts one `1` in front per leading zero byte |
| Base58.EncodingInAlphabet | src/utils/connections.js:17-25 | every output character is in the alphabet |
| Base58.LeadingOnesMatchLeadingZeros | src/utils/connections.js:14-25 | leading `1`s equal leading zero bytes; the rest is the value's digits, with no leading zero digit |
| Base58.DecodeEncode | src/utils/connections.js:11-28 | decoding the encoding gives the buffer back |
| Base58.EncodingInjective | src/utils/connections.js:11-28 | distinct buffers have distinct encodings |
| ConnectionUtils.NormalizeScopes | src/utils/connections.js:36-38 | length and element lengths are kept; every character is lower case; lower-case characters are unchanged |
| ConnectionUtils.NormalizeIdempotent | src/utils/connections.js:36-38 | normalising twice equals normalising once |
| ConnectionUtils.NormalizeEqualIffSameUpToCase | src/utils/connections.js:36-38 | two lists normalise alike iff they agree element by element up to case |
| ConnectionUtils.UppercaseNeverAuthorized | src/controllers/connections.js:95 | a requested scope with an upper-case letter never matches scopes stored at creation |
| ConnectionUtils.FilterConnectionData | src/utils/connections.js:45-62 | the public view is null iff the row is; what it holds is stated by FilterRestore and FilterHidesExactlyConfidential |
| ConnectionUtils.FilterRestore | src/utils/connections.js:50-61 | the public view plus the four confidential columns rebuild the row |
| ConnectionUtils.FilterHidesExactlyConfidential | src/utils/connections.js:50-61 | two rows look alike iff they differ only in `connectionId`, `providerAccount`, `connectionVersion` and `revokedAt` |
| ConnectionUtils.ConnectionIdRoundTrip | src/utils/connections.js:30-34 | an id parses back to its random bytes |
| ConnectionUtils.ConnectionIdInjective | src/utils/connections.js:30-34 | distinct random draws give distinct ids |
| ConnectionUtils.GenerateConnectionId | src/utils/connections.js:30-34 | the id is `conn_` followed by a non-empty alphabet string that decodes to the twelve bytes |
| Errors.Status | src/utils/errors.js:3-65 | every subclass has a fixed status between 400 and 504; `AppError` carries the one it is given |
| Errors.Name | src/utils/errors.js:3-65 | every class name ends in `Error`, and only the base class is named `AppError` |
| Errors.NameDeterminesStatus | src/utils/errors.js:3-65 | two errors of the same subclass have the same status and code |
| Errors.Message | src/utils/errors.js:3-65 | the message-taking classes keep their message verbatim; not-found, external-service and timeout messages begin with the resource or service; an external-service message ends with the detail and a timeout message with `ms` |
| Errors.Code | src/utils/errors.js:3-65 | every subclass has a code; only `AppError` may have none |
| Errors.CodeDeterminesStatus | src/utils/errors.js:13-65 | each subclass's status agrees with a status-per-code table |
| Errors.ClientOrUpstream | src/utils/errors.js:13-65 | only the external-service (502) and timeout (504) classes report a server status |
| Errors.Defaults | src/utils/errors.js:3-65 | the defaults: 500 and null code; "Resource not found"; "Unauthorized"; "Forbidden"; null type and id |
| Errors.NotFoundMessage | src/utils/errors.js:20-25 | the message starts with the resource and contains "not found" |
| Errors.ExternalServiceMessage | src/utils/errors.js:39-49 | the message is the service, " service error: ", then the detail verbatim |
| Nango.Classify | src/services/nango-service.js:34-52 | each category holds exactly when its code occurs and no earlier code does, in the order 404, 401 or 403, 400, 429, 500; UNKNOWN iff none occurs |
| Nango.ClassifyByTable | src/services/nango-service.js:34-52 | for every message, the category is the table entry of the first code group that occurs, or UNKNOWN_ERROR: first match wins |
| Nango.TypeName | src/services/nango-service.js:34-52 | every category name is non-empty upper-case snake case (distinct per category, see `UserMessagesDistinct`) |
| Nango.Rethrown | src/services/nango-service.js:155-195 | a rethrown message is the operation prefix followed by a digit-free text: the SDK's message, and any status code in it, is dropped |
| Nango.RethrownForgetsCode | src/services/nango-service.js:34-52 | classifying a rethrown message again finds no status code and reads UNKNOWN_ERROR |
| Nango.GetConnection | src/services/nango-service.js:147-162 | null iff the failure is NOT_FOUND; every other failure is rethrown with its category message |
| Nango.DeleteConnection | src/services/nango-service.js:167-182 | deleted iff the response status is exactly 200; failures are rethrown |
| Nango.GetAccessToken | src/services/nango-service.js:188-196 | the SDK's token, or its failure rethrown with the category message |
| Nango.VerifyWebhookSignature | src/services/nango-service.js:313-321 | valid iff the SDK check returns true; a throwing check is invalid |
| Nango.ValidateWebhookPayload | src/services/nango-service.js:327-342 | valid iff the payload is an object with a type and either the type is `forward` or it has a connection id |
| Nango.UserMessage | src/services/nango-service.js:34-52 | every user message is non-empty and holds no digit, so none names a status code of its own |
| Nango.UserMessagesDistinct | src/services/nango-service.js:34-52 | distinct categories have distinct user messages and type names |
| Nango.FirstCodeWins | src/services/nango-service.js:34-52 | earlier checks win: "404 then 500" is NOT_FOUND; "400 or 403" is an authentication error; "timeout" is UNKNOWN |
| Nango.ForwardNeedsNoConnectionId | src/services/nango-service.js:336-341 | `forward` needs no connection id; `auth` without one fails |
| Middleware.RequireMTLSAuth | src/middleware/auth.js:7-40 | development admits without a certificate; otherwise admits iff the CN is `wuwei-api`, attaching the certificate; 401 for a missing or wrong certificate, 500 iff reading it throws |
| Middleware.VerifyNangoWebhook | src/middleware/auth.js:42-87 | a missing signature is 401; verified iff a signature is present and either the skip applies or the SDK accepts it |
| Middleware.SkipNeedsSignatureAndBothFlags | src/middleware/auth.js:44-60 | the skip never excuses a missing signature and needs both variables |
| Middleware.WebhookGateNeverServerError | src/middleware/auth.js:63-86 | every refusal is 401, because an SDK exception reads as an invalid signature |
| ConnectionTokenService.GenerateConnectionToken | src/services/connection-token-service.js:25-53 | keys are the payload's plus the reserved ones; payload fields survive; type, jti, iat, exp, issuer and audience are set; `expiresIn` is the ttl |
| ConnectionTokenService.VerifyConnectionToken | src/services/connection-token-service.js:55-75 | accepted iff verified with type `connection_token`; the verifier's failures are renamed |
| ConnectionTokenService.GeneratedTokensVerify | src/services/connection-token-service.js:25-75 | every generated token passes the type check, whatever type the payload carried |
| ConnectionTokenService.ValidateConnection | src/services/connection-token-service.js:77-98 | succeeds iff the row exists in the tenant and is active; failures in the order not found, tenant, not active |
| ConnectionTokenService.ValidatedIsActiveInTenant | src/services/connection-token-service.js:77-98 | a validated row is stored, in the tenant and active |
| ConnectionTokenService.ConnectionPayload | src/services/connection-token-service.js:112-118 | the payload has exactly the five fields naming the row, none of them reserved by the signer, with `[]` as scopes when the row stores none |
| ConnectionTokenService.ScopeArray | src/services/connection-token-service.js:117 | the stored scopes as a string array, element for element |
| ConnectionTokenService.CreateTokenForConnection | src/services/connection-token-service.js:100-125 | succeeds iff the row exists and is active; the token names the row, its tenant, user, provider and scopes (`[]` when none) |
| ConnectionTokenService.PayloadSurvivesSigning | src/services/connection-token-service.js:112-120 | signing keeps all five payload fields |
| ConnectionTokenService.CreateTokenIgnoresTenant | src/services/connection-token-service.js:100-111 | creation skips the tenant check that validation makes |
| ConnectionTokenService.CreatedTokenVerifies | src/services/connection-token-service.js:55-125 | a created token verifies and names its connection |

## Left out

- Nango SDK calls: each call's result or thrown message is an input. The reconnect wrapper `update` is represented by its outcome in `ConnectionsController.UpdateConnection`, whose answer does not depend on the rethrown text. `listConnections`, `triggerSync`, `getSyncStatus`, the metadata calls and `testConnection` are not used by the modelled paths.
- JWT and crypto: `jwt.decode`, `jwt.sign` and `jwt.verify` are replaced by their outcomes, and a signed token is represented by its claims. The signer's own refusals and the "Failed to generate connection token" path are left out. `jti`, event ids and random bytes are parameters.
- OIDC verification (`verifyOIDCToken`, the JWKS fetch) is an external key fetch and is left out.
- Sequelize persistence: transactions, commit and rollback, row locking and the migration are left out. A handler's store result is what a committed transaction would leave. The `lastAccessedAt` write in `createAccessToken` goes through a transaction that is never committed, so that handler has no store result.
- Store failures: the 500 answers "Failed to retrieve connections" and "Failed to retrieve connection" come from database errors, which the in-memory store does not have.
- `updateLastUsed`: it filters on a `userId` column that the row does not have.
- `getConnection` passes an object where `getConnectionById` takes an id; the model looks up by id.
- HTTP wiring, routes, `sendWebhook` (commented out at its only call site), `buildAuthUrl` (the session token stands for the URL), console logging and ISO timestamps in response bodies.
- Time: `expires_at` is parsed to integer milliseconds, not floating-point seconds. The connection-token TTL is a number of seconds, not a string such as '15m'.
- Text: `toLowerCase` covers ASCII letters only. Scopes are strings; non-string scope values are not modelled.
- Token refresh and a JTI replay store: the source only logs or stubs them, so they are no-ops here.
- AccessIssuance.ExpiresIn: states the floored result for integer milliseconds and does not model fractional seconds from a parsed date string.
- DelegationToken.IsExpired compares only numeric `exp` values; JavaScript's coercion of string or boolean `exp` in `<` is not modelled.
- AccessIssuance.VersionConflict and DelegationToken.IsExpired: JSON numbers are integers here. A fractional or NaN `cver` or `exp` is not modelled, though a NumericDate claim (section 2 of RFC 7519) may be fractional; both are stated for integer claims only.
- ConnectionStore.FirstMatch: `findOne` without an ordering may return any matching row; the model fixes the first in store order. The choice is invisible for lookups by primary key (`ConnectionStore.FirstMatchUniqueById`), but not when several rows share a (user, provider, tenant) triple.
- ConnectionStore.UpdateConnection patches that first matching row, for the same reason.
- WebhookAuth.Process: when it correlates by the (user, provider, tenant) triple rather than a tag, it patches the first matching row in store order, for the same reason.
- ConnectionsController.CreateConnection, ConnectionsController.UpdateConnection and ConnectionsController.DeleteConnection: the 500 bodies carry their text under the key `message`, the other refusals under `error`; the model keeps the text in one field and does not model the body key.
- ConnectionStore.SortNewestFirst: the database leaves the order of rows with equal `createdAt` open; the model puts the earlier-stored row first.

## Findings

| source | as written | input that shows it | evidently intended | confidence | as-written member | corrected member |
|---|---|---|---|---|---|---|
| src/services/nango-service.js:90 | `createConnectSession` builds its request with `[integrationKey]`, a name that is not declared in that method. The ReferenceError is caught, classified UNKNOWN_ERROR and rethrown, so `createConnection` always answers 500 and rolls back the staged row. | any create request, e.g. tenant `t1`, user `u1`, provider `github` with no existing row | the provider is used as the integration key, as `update` does at line 131 | not executed | ConnectionsController.CreateConnectSessionAsWritten | ConnectionsController.CreateConnectSession |

=== FILE: base58.dfy ===
/** Base58 encoding with the Bitcoin alphabet (src/utils/connections.js,
    `encodeBase58`): the buffer is read as one big-endian number, written in
    base 58, and every leading zero byte contributes one leading '1'.

    `Decode` is not part of the service; it is the inverse used to state that
    the encoding loses nothing. */
module Base58 {
  import opened Wrappers

  type byte = x: int | 0 <= x < 256

  /** The Bitcoin alphabet: digits and letters without '0', 'O', 'I' and 'l'. */
  const ALPHABET: string := "123456789" + "ABCDEFGH" + "JKLMN" + "PQRSTUVWXYZ" + "abcdefghijk" + "mnopqrstuvwxyz"

  /** The character for base-58 digit `d`, computed from the alphabet's six runs. */
  function DigitChar(d: nat): char
    requires d < 58
  {
    if d < 9 then (('1' as int) + d) as char
    else if d < 17 then (('A' as int) + d - 9) as char
    else if d < 22 then (('J' as int) + d - 17) as char
    else if d < 33 then (('P' as int) + d - 22) as char
    else if d < 44 then (('a' as int) + d - 33) as char
    else (('m' as int) + d - 44) as char
  }

  predicate IsDigitChar(c: char) {
    || '1' <= c <= '9'
    || 'A' <= c <= 'H'
    || 'J' <= c <= 'N'
    || 'P' <= c <= 'Z'
    || 'a' <= c <= 'k'
    || 'm' <= c <= 'z'
  }

  /** The digit a character of the alphabet stands for. */
  function CharDigit(c: char): (d: nat)
    requires IsDigitChar(c)
    ensures d < 58 && DigitChar(d) == c
  {
    if '1' <= c <= '9' then (c as int) - ('1' as int)
    else if 'A' <= c <= 'H' then (c as int) - ('A' as int) + 9
    else if 'J' <= c <= 'N' then (c as int) - ('J' as int) + 17
    else if 'P' <= c <= 'Z' then (c as int) - ('P' as int) + 22
    else if 'a' <= c <= 'k' then (c as int) - ('a' as int) + 33
    else (c as int) - ('m' as int) + 44
  }

  lemma DigitCharRoundTrip(d: nat)
    requires d < 58
    ensures IsDigitChar(DigitChar(d)) && CharDigit(DigitChar(d)) == d
  {
  }

  /** The alphabet string is exactly the digit table. */
  lemma AlphabetTable()
    ensures |ALPHABET| == 58
    ensures forall d :: 0 <= d < 58 ==> ALPHABET[d] == DigitChar(d)
  {
    forall d | 0 <= d < 58
      ensures ALPHABET[d] == DigitChar(d)
    {
      var p1, p2, p3 := "123456789", "ABCDEFGH", "JKLMN";
      var p4, p5, p6 := "PQRSTUVWXYZ", "abcdefghijk", "mnopqrstuvwxyz";
      assert ALPHABET == p1 + p2 + p3 + p4 + p5 + p6;
      if d < 9 { assert ALPHABET[d] == p1[d]; }
      else if d < 17 { assert ALPHABET[d] == p2[d - 9]; }
      else if d < 22 { assert ALPHABET[d] == p3[d - 17]; }
      else if d < 33 { assert ALPHABET[d] == p4[d - 22]; }
      else if d < 44 { assert ALPHABET[d] == p5[d - 33]; }
      else { assert ALPHABET[d] == p6[d - 44]; }
    }
  }

  /** Every alphabet character is a digit character, and the four look-alikes
      '0', 'O', 'I' and 'l' are not in the alphabet. */
  lemma AlphabetExcludesLookAlikes()
    ensures forall c :: c in ALPHABET ==> IsDigitChar(c)
    ensures '0' !in ALPHABET && 'O' !in ALPHABET && 'I' !in ALPHABET && 'l' !in ALPHABET
  {
    AlphabetTable();
    forall c | c in ALPHABET
      ensures IsDigitChar(c)
    {
      var d :| 0 <= d < 58 && ALPHABET[d] == c;
      DigitCharRoundTrip(d);
    }
  }

  /** The buffer as a big-endian unsigned number (`BigInt('0x' + hex)`). */
  function Value(b: seq<byte>): nat {
    if |b| == 0 then 0 else Value(b[..|b| - 1]) * 256 + b[|b| - 1]
  }

  /** The minimal big-endian byte string of `n` (no leading zero byte). */
  function ToBytes(n: nat): seq<byte>
    decreases n
  {
    if n == 0 then [] else ToBytes(n / 256) + [(n % 256) as byte]
  }

  /** Base-58 digits of `n`, most significant first; empty for 0. */
  function Digits(n: nat): (r: seq<nat>)
    ensures forall i :: 0 <= i < |r| ==> r[i] < 58
    decreases n
  {
    if n == 0 then [] else Digits(n / 58) + [n % 58]
  }

  /** The number a base-58 digit string denotes. */
  function FromDigits(d: seq<nat>): nat {
    if |d| == 0 then 0 else FromDigits(d[..|d| - 1]) * 58 + d[|d| - 1]
  }

  /** Digits rendered through the alphabet. */
  function Chars(d: seq<nat>): (s: string)
    requires forall i :: 0 <= i < |d| ==> d[i] < 58
    ensures |s| == |d|
  {
    seq(|d|, i requires 0 <= i < |d| => DigitChar(d[i]))
  }

  /** Characters read back as digits. */
  function CharDigits(s: string): (d: seq<nat>)
    requires forall i :: 0 <= i < |s| ==> IsDigitChar(s[i])
    ensures |d| == |s|
  {
    seq(|s|, i requires 0 <= i < |s| => CharDigit(s[i]))
  }

  function Zeros(n: nat): seq<byte> {
    seq(n, _ => 0 as byte)
  }

  function Ones(n: nat): string {
    seq(n, _ => '1')
  }

  /** Number of leading zero bytes. */
  function LeadingZeros(b: seq<byte>): (n: nat)
    ensures n <= |b|
  {
    if |b| > 0 && b[0] == 0 then 1 + LeadingZeros(b[1..]) else 0
  }

  /** Number of leading '1' characters. */
  function LeadingOnes(s: string): (n: nat)
    ensures n <= |s|
  {
    if |s| > 0 && s[0] == '1' then 1 + LeadingOnes(s[1..]) else 0
  }

  /** What the encoder produces: one '1' per leading zero byte, then the
      base-58 digits of the buffer's value. */
  function Encoding(b: seq<byte>): string {
    Ones(LeadingZeros(b)) + Chars(Digits(Value(b)))
  }

  /** Inverse of the encoding: leading '1's become zero bytes and the rest is
      read as a base-58 number; a character outside the alphabet is rejected. */
  function Decode(s: string): Option<seq<byte>> {
    var z := LeadingOnes(s);
    var rest := s[z..];
    if forall i :: 0 <= i < |rest| ==> IsDigitChar(rest[i]) then
      Some(Zeros(z) + ToBytes(FromDigits(CharDigits(rest))))
    else
      None
  }

  /** `encodeBase58`: the value's base-58 digits, then one '1' per leading
      zero byte in front. */
  method EncodeBase58(buffer: seq<byte>) returns (result: string)
    ensures result == Encoding(buffer)
    ensures buffer == [] ==> result == ""
    ensures forall i :: 0 <= i < |result| ==> result[i] in ALPHABET
  {
    if |buffer| == 0 {
      return "";
    }
    var digits := DigitString(Value(buffer));
    result := PadZeros(buffer, digits);
    EncodingInAlphabet(buffer);
  }

  /** The `while (num > 0)` loop: repeated division by 58, each remainder's
      character put in front. */
  method DigitString(n: nat) returns (s: string)
    ensures s == Chars(Digits(n))
  {
    var num := n;
    s := "";
    while num > 0
      invariant Chars(Digits(num)) + s == Chars(Digits(n))
      decreases num
    {
      var remainder := num % 58;
      PeelDigit(num, s, Chars(Digits(n)));
      s := [ALPHABET[remainder]] + s;
      num := num / 58;
    }
    assert Chars(Digits(num)) == "";
  }

  /** The leading-zero loop: one '1' in front per leading zero byte. */
  method PadZeros(buffer: seq<byte>, digits: string) returns (result: string)
    ensures result == Ones(LeadingZeros(buffer)) + digits
  {
    result := digits;
    var i := 0;
    while i < |buffer| && buffer[i] == 0
      invariant 0 <= i <= |buffer|
      invariant LeadingZeros(buffer) == i + LeadingZeros(buffer[i..])
      invariant result == Ones(i) + digits
    {
      SkipZero(buffer, i);
      PrependOne(i);
      result := [ALPHABET[0]] + result;
      i := i + 1;
    }
    NoMoreZeros(buffer, i);
  }

  /** The digit loop's step: the character for the last digit of `n`, put
      in front of what is already written, extends the digits of `n / 58`. */
  lemma PeelDigit(n: nat, written: string, target: string)
    requires n > 0 && Chars(Digits(n)) + written == target
    ensures |ALPHABET| == 58
    ensures Chars(Digits(n / 58)) + ([ALPHABET[n % 58]] + written) == target
  {
    AlphabetTable();
    ChainDigit(n);
  }

  /** Passing one more zero byte. */
  lemma SkipZero(b: seq<byte>, i: nat)
    requires i < |b| && b[i] == 0
    ensures LeadingZeros(b[i..]) == 1 + LeadingZeros(b[i + 1..])
  {
    assert b[i..][1..] == b[i + 1..];
  }

  /** The zero run ends at the end of the buffer or at a non-zero byte. */
  lemma NoMoreZeros(b: seq<byte>, i: nat)
    requires i <= |b| && (i == |b| || b[i] != 0)
    ensures LeadingZeros(b[i..]) == 0
  {
  }

  /** The zero-byte loop's step. */
  lemma PrependOne(i: nat)
    ensures |ALPHABET| > 0 && Ones(i + 1) == [ALPHABET[0]] + Ones(i)
  {
    assert ALPHABET[0] == '1';
  }

  /** One step of the digit loop: peeling the last digit off `n`. */
  lemma ChainDigit(n: nat)
    requires n > 0
    ensures Chars(Digits(n)) == Chars(Digits(n / 58)) + [DigitChar(n % 58)]
  {
    assert Digits(n) == Digits(n / 58) + [n % 58];
  }

  lemma EncodingInAlphabet(b: seq<byte>)
    ensures forall i :: 0 <= i < |Encoding(b)| ==> Encoding(b)[i] in ALPHABET
  {
    AlphabetTable();
    var e := Encoding(b);
    var z := LeadingZeros(b);
    var d := Digits(Value(b));
    forall i | 0 <= i < |e|
      ensures e[i] in ALPHABET
    {
      if i < z {
        assert e[i] == ALPHABET[0];
      } else {
        assert e[i] == DigitChar(d[i - z]) == ALPHABET[d[i - z]];
      }
    }
  }

  lemma {:induction false} ValueOfZeros(n: nat)
    ensures Value(Zeros(n)) == 0
  {
    if n > 0 {
      assert Zeros(n)[..n - 1] == Zeros(n - 1);
      ValueOfZeros(n - 1);
    }
  }

  /** Leading zero bytes do not change the value. */
  lemma {:induction false} ValueIgnoresZeros(n: nat, b: seq<byte>)
    ensures Value(Zeros(n) + b) == Value(b)
    decreases |b|
  {
    if |b| == 0 {
      assert Zeros(n) + b == Zeros(n);
      ValueOfZeros(n);
    } else {
      var p := b[..|b| - 1];
      assert (Zeros(n) + b)[..|Zeros(n) + b| - 1] == Zeros(n) + p;
      ValueIgnoresZeros(n, p);
    }
  }

  lemma {:induction false} ValuePositive(b: seq<byte>)
    requires |b| > 0 && b[0] != 0
    ensures Value(b) > 0
    decreases |b|
  {
    if |b| > 1 {
      ValuePositive(b[..|b| - 1]);
    }
  }

  /** A buffer without leading zero bytes is the minimal byte string of its value. */
  lemma {:induction false} ToBytesValue(b: seq<byte>)
    requires |b| == 0 || b[0] != 0
    ensures ToBytes(Value(b)) == b
    decreases |b|
  {
    if |b| > 0 {
      var p := b[..|b| - 1];
      var x := b[|b| - 1];
      ValuePositive(b);
      assert Value(b) / 256 == Value(p) && Value(b) % 256 == x;
      ToBytesValue(p);
      assert b == p + [x];
    }
  }

  lemma {:induction false} FromDigitsDigits(n: nat)
    ensures FromDigits(Digits(n)) == n
    decreases n
  {
    if n > 0 {
      var d := Digits(n);
      assert d[..|d| - 1] == Digits(n / 58);
      FromDigitsDigits(n / 58);
    }
  }

  /** Base-58 digits never start with a zero digit. */
  lemma {:induction false} DigitsNoLeadingZero(n: nat)
    requires n > 0
    ensures |Digits(n)| > 0 && Digits(n)[0] != 0
    decreases n
  {
    if n / 58 > 0 {
      DigitsNoLeadingZero(n / 58);
    }
  }

  /** A buffer splits into its leading zeros and a zero-free-headed rest. */
  lemma {:induction false} LeadingZerosSplit(b: seq<byte>)
    ensures b == Zeros(LeadingZeros(b)) + b[LeadingZeros(b)..]
    ensures LeadingZeros(b) == |b| || b[LeadingZeros(b)] != 0
  {
    if |b| > 0 && b[0] == 0 {
      LeadingZerosSplit(b[1..]);
      assert Zeros(LeadingZeros(b)) == [0 as byte] + Zeros(LeadingZeros(b[1..]));
    }
  }

  lemma {:induction false} LeadingOnesOf(z: nat, rest: string)
    requires |rest| == 0 || rest[0] != '1'
    ensures LeadingOnes(Ones(z) + rest) == z
  {
    if z > 0 {
      assert (Ones(z) + rest)[1..] == Ones(z - 1) + rest;
      LeadingOnesOf(z - 1, rest);
    } else {
      assert Ones(z) + rest == rest;
    }
  }

  /** The encoding opens with exactly one '1' per leading zero byte; what
      follows is the base-58 digit string of the buffer's value, without a
      leading zero digit. */
  lemma LeadingOnesMatchLeadingZeros(b: seq<byte>)
    ensures LeadingOnes(Encoding(b)) == LeadingZeros(b)
    ensures Encoding(b)[LeadingZeros(b)..] == Chars(Digits(Value(b)))
    ensures Value(b) > 0 ==> Digits(Value(b))[0] != 0
  {
    var d := Digits(Value(b));
    if Value(b) > 0 {
      DigitsNoLeadingZero(Value(b));
      assert Chars(d)[0] == DigitChar(d[0]);
    }
    LeadingOnesOf(LeadingZeros(b), Chars(d));
  }

  /** Decoding the encoding gives the buffer back. */
  lemma DecodeEncode(b: seq<byte>)
    ensures Decode(Encoding(b)) == Some(b)
  {
    var z := LeadingZeros(b);
    var d := Digits(Value(b));
    var e := Encoding(b);
    LeadingOnesMatchLeadingZeros(b);
    var rest := e[z..];
    assert rest == Chars(d);
    forall i | 0 <= i < |rest|
      ensures IsDigitChar(rest[i])
    {
      DigitCharRoundTrip(d[i]);
    }
    assert CharDigits(rest) == d by {
      forall i | 0 <= i < |d|
        ensures CharDigits(rest)[i] == d[i]
      {
        DigitCharRoundTrip(d[i]);
      }
    }
    FromDigitsDigits(Value(b));
    LeadingZerosSplit(b);
    var tail := b[z..];
    ValueIgnoresZeros(z, tail);
    ToBytesValue(tail);
  }

  /** Distinct buffers have distinct encodings. */
  lemma EncodingInjective(a: seq<byte>, b: seq<byte>)
    requires Encoding(a) == Encoding(b)
    ensures a == b
  {
    DecodeEncode(a);
    DecodeEncode(b);
  }
}

=== FILE: connection.dfy ===
/** The Connection record (database/models/connection.js): one end user's
    authorization of one provider inside one tenant, and the record methods
    that move it through its lifecycle. Each method sets the field it names
    and saves; the model is declared with timestamps, so a save that changes a
    column also stamps `updatedAt` with the time of the save, and a save that
    changes nothing writes nothing. */
module ConnectionModel {
  import opened Wrappers
  import Js

  /** The `status` column; the ENUM admits exactly these three values. */
  datatype Status = Pending | Active | Revoked

  /** Timestamps are integers (milliseconds or seconds, as the caller uses them). */
  datatype Connection = Connection(
    id: string,
    connectionId: Option<string>,                      // provider-side id, set on activation
    tenantId: string,
    sub: string,
    provider: string,
    providerAccount: Option<map<string, Js.JsValue>>,  // JSONB metadata bag
    status: Status,
    connectionVersion: int,
    authorizedScopes: Option<seq<string>>,             // JSONB, nullable
    authMode: Option<string>,
    lastAccessedAt: Option<int>,
    revokedAt: Option<string>,
    createdAt: int,
    updatedAt: int)

  /** The stored spelling of a status. */
  function StatusName(s: Status): (name: string)
    ensures ParseStatus(name) == Some(s)
  {
    match s
    case Pending => "pending"
    case Active => "active"
    case Revoked => "revoked"
  }

  /** The `isIn` validator on the status column: only the three names parse. */
  function ParseStatus(name: string): (r: Option<Status>)
    ensures r.Some? <==> name in {"pending", "active", "revoked"}
  {
    if name == "pending" then Some(Pending)
    else if name == "active" then Some(Active)
    else if name == "revoked" then Some(Revoked)
    else None
  }

  /** Every status survives a round trip through its stored name, so the
      names are pairwise distinct. */
  lemma StatusNameRoundTrip(s: Status)
    ensures ParseStatus(StatusName(s)) == Some(s)
  {
  }

  /** A row as `Connection.create` inserts it: the given columns, everything
      else at its column default (status pending, version 1, nullable columns
      null). */
  function NewConnection(id: string, tenantId: string, sub: string, provider: string,
                         authMode: Option<string>, authorizedScopes: Option<seq<string>>,
                         now: int): (c: Connection)
    ensures c.status == Pending && c.connectionVersion == 1
    ensures c.id == id && c.tenantId == tenantId && c.sub == sub && c.provider == provider
    ensures c.authMode == authMode && c.authorizedScopes == authorizedScopes
    ensures c.connectionId.None? && c.providerAccount.None?
    ensures c.lastAccessedAt.None? && c.revokedAt.None?
    ensures c.createdAt == now && c.updatedAt == now
  {
    Connection(id, None, tenantId, sub, provider, None, Pending, 1,
               authorizedScopes, authMode, None, None, now, now)
  }

  /** What a save leaves: the edited row stamped with `now` when some column
      differs from the stored one, the stored row itself otherwise. */
  function Saved(stored: Connection, edited: Connection, now: int): (r: Connection)
    requires edited.updatedAt == stored.updatedAt
    ensures r.(updatedAt := stored.updatedAt) == edited
    ensures r.updatedAt == (if edited == stored then stored.updatedAt else now)
  {
    if edited == stored then stored else edited.(updatedAt := now)
  }

  /** `incrementVersion`: the version goes up by exactly one and the save
      stamps `updatedAt`; no other column moves. */
  function IncrementVersion(c: Connection, now: int): (r: Connection)
    ensures r.connectionVersion == c.connectionVersion + 1 && r.updatedAt == now
    ensures r.(connectionVersion := c.connectionVersion, updatedAt := c.updatedAt) == c
  {
    Saved(c, c.(connectionVersion := c.connectionVersion + 1), now)
  }

  /** `revoke`: allowed from every status; `revokedAt` is left as it was, and
      `updatedAt` moves only when the status did. */
  function Revoke(c: Connection, now: int): (r: Connection)
    ensures r.status == Revoked
    ensures r.updatedAt == (if c.status == Revoked then c.updatedAt else now)
    ensures r.(status := c.status, updatedAt := c.updatedAt) == c
  {
    Saved(c, c.(status := Revoked), now)
  }

  /** `activate`: pending becomes active and is stamped; any other status
      throws and the record stays as it was. */
  function Activate(c: Connection, now: int): (r: Result<Connection, string>)
    ensures r.Ok? <==> c.status == Pending
    ensures r.Ok? ==> r.value.status == Active && r.value.updatedAt == now
    ensures r.Ok? ==> r.value.(status := c.status, updatedAt := c.updatedAt) == c
    ensures r.Err? ==> r.error == "Can only activate pending connections"
  {
    if c.status == Pending then Ok(Saved(c, c.(status := Active), now))
    else Err("Can only activate pending connections")
  }

  /** `updateLastAccessed`: `lastAccessedAt` becomes the current time; the
      save stamps `updatedAt` unless `lastAccessedAt` already held that time. */
  function UpdateLastAccessed(c: Connection, now: int): (r: Connection)
    ensures r.lastAccessedAt == Some(now)
    ensures r.updatedAt == (if c.lastAccessedAt == Some(now) then c.updatedAt else now)
    ensures r.(lastAccessedAt := c.lastAccessedAt, updatedAt := c.updatedAt) == c
  {
    Saved(c, c.(lastAccessedAt := Some(now)), now)
  }

  /** Two increments raise the version by two, leave `updatedAt` at the
      second save's time and change nothing else. */
  lemma IncrementTwice(c: Connection, first: int, second: int)
    ensures IncrementVersion(IncrementVersion(c, first), second).connectionVersion == c.connectionVersion + 2
    ensures IncrementVersion(IncrementVersion(c, first), second).updatedAt == second
    ensures IncrementVersion(IncrementVersion(c, first), second).(connectionVersion := c.connectionVersion,
                                                                   updatedAt := c.updatedAt) == c
  {
  }

  /** Revoking a second time, at any later moment, changes nothing: not even
      `updatedAt`. Neither revocation touches the version or the revocation
      timestamp. */
  lemma RevokeIdempotent(c: Connection, first: int, second: int)
    ensures Revoke(Revoke(c, first), second) == Revoke(c, first)
    ensures Revoke(c, first).connectionVersion == c.connectionVersion
    ensures Revoke(c, first).revokedAt == c.revokedAt
  {
  }

  /** A connection can be activated at most once: activating an activated
      connection fails. */
  lemma ActivateOnce(c: Connection, first: int, second: int)
    requires Activate(c, first).Ok?
    ensures Activate(Activate(c, first).value, second).Err?
  {
  }
}

=== FILE: connection_token.dfy ===
/** The connection-token service (src/services/connection-token-service.js):
    short-lived tokens naming one active connection. Signing and verification
    are abstracted: a token is represented by the claims it carries, the
    clock and the `jti` (a random UUID) are parameters, and `jwt.verify`'s
    outcome is given as an input. */
module ConnectionTokenService {
  import opened Wrappers
  import opened Js
  import opened ConnectionModel
  import opened ConnectionStore

  type Claims = map<string, JsValue>

  /** The default lifetime '15m', in seconds. */
  const DEFAULT_TTL_SECONDS: nat := 900
  const TOKEN_TYPE: string := "connection_token"
  const ISSUER: string := "connections-service"
  const AUDIENCE: string := "provider-access"

  /** The claims the service and the signer set on every token. */
  const RESERVED: set<string> := {"iat", "type", "jti", "exp", "iss", "aud"}

  /** What `generateConnectionToken` returns, with the token as its claims. */
  datatype Issued = Issued(claims: Claims, expiresIn: int)

  /** `generateConnectionToken`: the caller's payload spread first, then
      `iat`, `type` and `jti`, which therefore cannot be overridden by the
      payload; the signer adds `exp = iat + ttl`, the issuer and the audience.
      `expiresIn` is `exp - now`. */
  function GenerateConnectionToken(payload: Claims, ttlSeconds: nat, now: int, jti: string): (r: Issued)
    ensures r.expiresIn == ttlSeconds
    ensures r.claims.Keys == payload.Keys + RESERVED
    ensures forall k :: k in payload && k !in RESERVED ==> r.claims[k] == payload[k]
    ensures Get(r.claims, "type") == Str(TOKEN_TYPE) && Get(r.claims, "jti") == Str(jti)
    ensures Get(r.claims, "iat") == Num(now) && Get(r.claims, "exp") == Num(now + ttlSeconds)
    ensures Get(r.claims, "iss") == Str(ISSUER) && Get(r.claims, "aud") == Str(AUDIENCE)
  {
    var signed := payload["iat" := Num(now)]["type" := Str(TOKEN_TYPE)]["jti" := Str(jti)];
    var claims := signed["exp" := Num(now + ttlSeconds)]["iss" := Str(ISSUER)]["aud" := Str(AUDIENCE)];
    Issued(claims, (now + ttlSeconds) - now)
  }

  /** How `jwt.verify` can fail, by error name. */
  datatype VerifyFailure = TokenExpiredError | JsonWebTokenError | OtherError(message: string)

  /** `verifyConnectionToken` over the verifier's outcome: a verified token of
      another type is refused; the verifier's own failures are renamed. */
  function VerifyConnectionToken(verified: Result<Claims, VerifyFailure>): (r: Result<Claims, string>)
    ensures r.Ok? <==> verified.Ok? && Get(verified.value, "type") == Str(TOKEN_TYPE)
    ensures r.Ok? ==> r.value == verified.value
    ensures verified.Ok? && r.Err? ==> r.error == "Invalid token type"
    ensures verified == Err(TokenExpiredError) ==> r == Err("Connection token has expired")
    ensures verified == Err(JsonWebTokenError) ==> r == Err("Invalid connection token")
    ensures verified.Err? && verified.error.OtherError? ==> r == Err(verified.error.message)
  {
    match verified
    case Ok(payload) =>
      if Get(payload, "type") != Str(TOKEN_TYPE) then Err("Invalid token type") else Ok(payload)
    case Err(TokenExpiredError) => Err("Connection token has expired")
    case Err(JsonWebTokenError) => Err("Invalid connection token")
    case Err(OtherError(m)) => Err(m)
  }

  /** Every generated token passes the type check, whatever `type` the
      caller's payload carried. */
  lemma GeneratedTokensVerify(payload: Claims, ttlSeconds: nat, now: int, jti: string)
    ensures var issued := GenerateConnectionToken(payload, ttlSeconds, now, jti);
            VerifyConnectionToken(Ok(issued.claims)) == Ok(issued.claims)
  {
  }

  /** `validateConnection`: not found, then foreign tenant, then not active;
      the row comes back only when all three pass. */
  function ValidateConnection(store: Store, connectionId: string, tenantId: string): (r: Result<Connection, string>)
    ensures r.Ok? <==> GetConnectionById(store, connectionId).Some? &&
                       GetConnectionById(store, connectionId).value.tenantId == tenantId &&
                       GetConnectionById(store, connectionId).value.status == Active
    ensures r.Ok? ==> r.value in store && r.value.id == connectionId
    ensures (forall j :: 0 <= j < |store| ==> store[j].id != connectionId) ==> r == Err("Connection not found")
    ensures r.Err? && (exists c :: c in store && c.id == connectionId) ==>
              r.error == (if GetConnectionById(store, connectionId).value.tenantId != tenantId
                          then "Connection does not belong to tenant" else "Connection is not active")
  {
    match GetConnectionById(store, connectionId)
    case None => Err("Connection not found")
    case Some(c) =>
      if c.tenantId != tenantId then Err("Connection does not belong to tenant")
      else if c.status != Active then Err("Connection is not active")
      else Ok(c)
  }

  /** A validated connection belongs to the tenant and is active. */
  lemma ValidatedIsActiveInTenant(store: Store, connectionId: string, tenantId: string)
    requires ValidateConnection(store, connectionId, tenantId).Ok?
    ensures var c := ValidateConnection(store, connectionId, tenantId).value;
            c.tenantId == tenantId && c.status == Active && c in store
  {
  }

  /** A stored scope list as a JSON array of strings. */
  function ScopeArray(scopes: seq<string>): (r: seq<JsValue>)
    ensures |r| == |scopes| && forall i :: 0 <= i < |r| ==> r[i] == Str(scopes[i])
  {
    seq(|scopes|, i requires 0 <= i < |scopes| => Str(scopes[i]))
  }

  /** The payload `createTokenForConnection` signs: five fields naming the
      row, none of them a claim the signer reserves, with an empty scope list
      when the row stores none. */
  function ConnectionPayload(c: Connection): (p: Claims)
    ensures p.Keys == {"connectionId", "tenantId", "sub", "provider", "scopes"}
    ensures p.Keys !! RESERVED
    ensures c.authorizedScopes.None? ==> p["scopes"] == Arr([])
    ensures p["connectionId"] == Str(c.id) && p["tenantId"] == Str(c.tenantId)
  {
    map["connectionId" := Str(c.id), "tenantId" := Str(c.tenantId), "sub" := Str(c.sub),
        "provider" := Str(c.provider), "scopes" := Arr(ScopeArray(c.authorizedScopes.GetOr([])))]
  }

  /** `createTokenForConnection`: not found, then not active (no tenant check);
      the token names the row, its tenant, user and provider, and its scopes
      (an empty list when none are stored). */
  function CreateTokenForConnection(store: Store, connectionId: string, ttlSeconds: nat, now: int, jti: string): (r: Result<Issued, string>)
    ensures r.Ok? <==> GetConnectionById(store, connectionId).Some? &&
                       GetConnectionById(store, connectionId).value.status == Active
    ensures (forall j :: 0 <= j < |store| ==> store[j].id != connectionId) ==> r == Err("Connection not found")
    ensures r.Err? && (exists c :: c in store && c.id == connectionId) ==> r == Err("Connection is not active")
    ensures r.Ok? ==>
              var c := GetConnectionById(store, connectionId).value;
              && r.value.expiresIn == ttlSeconds
              && Get(r.value.claims, "connectionId") == Str(connectionId)
              && Get(r.value.claims, "tenantId") == Str(c.tenantId)
              && Get(r.value.claims, "sub") == Str(c.sub)
              && Get(r.value.claims, "provider") == Str(c.provider)
              && Get(r.value.claims, "scopes") == Arr(ScopeArray(c.authorizedScopes.GetOr([])))
              && Get(r.value.claims, "type") == Str(TOKEN_TYPE)
  {
    match GetConnectionById(store, connectionId)
    case None => Err("Connection not found")
    case Some(c) =>
      if c.status != Active then Err("Connection is not active")
      else
        PayloadSurvivesSigning(c, ttlSeconds, now, jti);
        Ok(GenerateConnectionToken(ConnectionPayload(c), ttlSeconds, now, jti))
  }

  /** None of the payload's keys is reserved, so signing keeps all five. */
  lemma PayloadSurvivesSigning(c: Connection, ttlSeconds: nat, now: int, jti: string)
    ensures var claims := GenerateConnectionToken(ConnectionPayload(c), ttlSeconds, now, jti).claims;
            && Get(claims, "connectionId") == Str(c.id)
            && Get(claims, "tenantId") == Str(c.tenantId)
            && Get(claims, "sub") == Str(c.sub)
            && Get(claims, "provider") == Str(c.provider)
            && Get(claims, "scopes") == Arr(ScopeArray(c.authorizedScopes.GetOr([])))
  {
    var p := ConnectionPayload(c);
    assert "connectionId" in p && "connectionId" !in RESERVED;
    assert "tenantId" in p && "tenantId" !in RESERVED;
    assert "sub" in p && "sub" !in RESERVED;
    assert "provider" in p && "provider" !in RESERVED;
    assert "scopes" in p && "scopes" !in RESERVED;
  }

  /** Token creation skips the tenant check: it succeeds exactly when the row
      would validate for its own tenant, whichever tenant asks. */
  lemma CreateTokenIgnoresTenant(store: Store, connectionId: string, tenantId: string,
                                 ttlSeconds: nat, now: int, jti: string)
    requires GetConnectionById(store, connectionId).Some?
    requires GetConnectionById(store, connectionId).value.tenantId != tenantId
    ensures ValidateConnection(store, connectionId, tenantId) == Err("Connection does not belong to tenant")
    ensures CreateTokenForConnection(store, connectionId, ttlSeconds, now, jti).Ok? <==>
              ValidateConnection(store, connectionId, GetConnectionById(store, connectionId).value.tenantId).Ok?
  {
  }

  /** A token created for a connection verifies, and its claims name that
      connection. */
  lemma CreatedTokenVerifies(store: Store, connectionId: string, ttlSeconds: nat, now: int, jti: string)
    requires CreateTokenForConnection(store, connectionId, ttlSeconds, now, jti).Ok?
    ensures var claims := CreateTokenForConnection(store, connectionId, ttlSeconds, now, jti).value.claims;
            VerifyConnectionToken(Ok(claims)) == Ok(claims) && Get(claims, "connectionId") == Str(connectionId)
  {
  }
}

=== FILE: connections_controller.dfy ===
/** The decisions of the connection endpoints (src/controllers/connections.js)
    over the in-memory store. Each handler returns the store it leaves behind
    (when it can write) and the response it sends; the Nango session and
    deletion calls are given as their outcomes, and the authorization URL
    built from a session token is represented by the token itself. */
module ConnectionsController {
  import opened Wrappers
  import opened Js
  import opened ConnectionModel
  import opened ConnectionStore
  import opened ConnectionUtils
  import Nango

  /** The public view of a stored row. */
  function Project(c: Connection): PublicConnection {
    FilterConnectionData(Some(c)).value
  }

  // ---------------------------------------------------------------------
  // getConnections

  datatype ListResponse =
    | ConnectionList(connections: seq<PublicConnection>, count: nat)
    | ListRejected(status: int, error: string)

  /** The rows `getConnections` reads: the user's rows within the tenant when
      a (truthy) `user` query parameter is given, else all of the tenant's rows;
      newest first either way. */
  function ListedRows(store: Store, tenantId: string, user: Option<string>): (rows: Store)
    ensures forall c :: multiset(rows)[c] ==
              if c.tenantId == tenantId && (Present(user) ==> c.sub == user.value)
              then multiset(store)[c] else 0
    ensures NewestFirst(rows)
  {
    if Present(user) then GetConnectionsByUser(store, user.value, Where(None, Some(tenantId), None, None))
    else GetConnectionsByTenant(store, tenantId, Where(None, None, None, None))
  }

  /** `getConnections`: 400 without a tenant; otherwise the public view of
      every listed row, in order, with `count` its length. */
  function GetConnections(store: Store, tenantId: string, user: Option<string>): (r: ListResponse)
    ensures r.ListRejected? <==> tenantId == ""
    ensures r.ListRejected? ==> r == ListRejected(400, "Tenant ID is required")
    ensures r.ConnectionList? ==>
              var rows := ListedRows(store, tenantId, user);
              r.count == |r.connections| == |rows| &&
              forall i :: 0 <= i < |rows| ==> FilterConnectionData(Some(rows[i])) == Some(r.connections[i])
  {
    if tenantId == "" then ListRejected(400, "Tenant ID is required")
    else
      var rows := ListedRows(store, tenantId, user);
      var views := seq(|rows|, i requires 0 <= i < |rows| => Project(rows[i]));
      ConnectionList(views, |views|)
  }

  /** A listed row belongs to the tenant (and to the user when one is named),
      and every such stored row is listed. */
  lemma ListedExactly(store: Store, tenantId: string, user: Option<string>, c: Connection)
    ensures c in ListedRows(store, tenantId, user) <==>
              c in store && c.tenantId == tenantId && (Present(user) ==> c.sub == user.value)
  {
    var rows := ListedRows(store, tenantId, user);
    assert c in rows <==> multiset(rows)[c] > 0;
    assert c in store <==> multiset(store)[c] > 0;
  }

  // ---------------------------------------------------------------------
  // getConnection

  datatype ItemResponse =
    | ConnectionFound(connection: PublicConnection)
    | ItemRejected(status: int, error: string, connectionId: Option<string>)

  /** `getConnection`: 400 without an id, 404 (echoing the id) when no row has
      it, otherwise the public view of that row. */
  function GetConnection(store: Store, connectionId: string): (r: ItemResponse)
    ensures connectionId == "" ==> r == ItemRejected(400, "Connection ID is required", None)
    ensures r.ConnectionFound? <==> connectionId != "" && exists c :: c in store && c.id == connectionId
    ensures connectionId != "" && r.ItemRejected? ==>
              r == ItemRejected(404, "Connection not found", Some(connectionId))
    ensures r.ConnectionFound? ==>
              exists c :: c in store && c.id == connectionId && FilterConnectionData(Some(c)) == Some(r.connection)
  {
    if connectionId == "" then ItemRejected(400, "Connection ID is required", None)
    else
      match GetConnectionById(store, connectionId)
      case None => ItemRejected(404, "Connection not found", Some(connectionId))
      case Some(c) => ConnectionFound(Project(c))
  }

  // ---------------------------------------------------------------------
  // createConnection

  datatype CreateResponse =
    | Created(connectionId: string, sessionToken: string)
    | CreateRejected(status: int, error: string)

  // Two literals: proofs index into this text, and the solver cannot index a
  // string literal longer than about 43 characters.
  const DUPLICATE: string := "User already has " + "a connection with this provider"
  const CREATE_FAILED: string := "Failed to create connection"

  /** The query the duplicate check runs: the user's rows for this tenant and
      provider, newest first. */
  function UserRows(store: Store, tenantId: string, sub: string, provider: string): Store {
    GetConnectionsByUser(store, sub, Where(None, Some(tenantId), None, Some(provider)))
  }

  predicate SameKey(c: Connection, tenantId: string, sub: string, provider: string) {
    c.tenantId == tenantId && c.sub == sub && c.provider == provider
  }

  /** The head of a newest-first query result is a stored row with the key,
      at least as new as every stored row with the key; the result is empty
      exactly when no stored row has the key. */
  lemma UserRowsHead(store: Store, tenantId: string, sub: string, provider: string)
    ensures var rows := UserRows(store, tenantId, sub, provider);
            && (|rows| == 0 <==> forall d :: d in store ==> !SameKey(d, tenantId, sub, provider))
            && (|rows| > 0 ==>
                  && rows[0] in store && SameKey(rows[0], tenantId, sub, provider)
                  && forall d :: d in store && SameKey(d, tenantId, sub, provider) ==>
                                   d.createdAt <= rows[0].createdAt)
  {
    var w := Merge(Where(None, None, Some(sub), None), Where(None, Some(tenantId), None, Some(provider)));
    var rows := FindAllNewestFirst(store, w);
    assert rows == UserRows(store, tenantId, sub, provider);
    forall d
      ensures d in rows <==> d in store && SameKey(d, tenantId, sub, provider)
    {
      FoundExactly(store, w, d);
    }
    if |rows| > 0 {
      assert rows[0] in rows;
      forall d | d in store && SameKey(d, tenantId, sub, provider)
        ensures d.createdAt <= rows[0].createdAt
      {
        HeadIsNewest(store, w, d);
      }
    }
  }

  /** `createConnection`. When the newest row for (sub, tenant, provider) is
      active the request is refused with 400. Otherwise that row is reused as it
      stands, or, when there is none, one pending row is staged with the
      lower-cased scopes and auth mode `oauth`. The staged row is kept only when
      the connect session is created; a failed session rolls it back and
      answers 500. */
  function CreateConnection(store: Store, tenantId: string, sub: string, provider: string,
                            scopes: seq<string>, newId: string, now: int,
                            session: Result<string, string>): (r: (Store, CreateResponse))
    ensures r.0 == store ||
            r.0 == store + [NewConnection(newId, tenantId, sub, provider, Some("oauth"), Some(NormalizeScopes(scopes)), now)]
    ensures r.1.CreateRejected? ==> r.0 == store
    ensures r.1.CreateRejected? ==> r.1 == CreateRejected(400, DUPLICATE) || r.1 == CreateRejected(500, CREATE_FAILED)
    ensures session.Err? ==> r.1.CreateRejected?
    ensures r.1.Created? ==> session == Ok(r.1.sessionToken)
  {
    var rows := UserRows(store, tenantId, sub, provider);
    if |rows| > 0 && rows[0].status == Active then (store, CreateRejected(400, DUPLICATE))
    else
      var staged := if |rows| > 0 then (store, rows[0])
                    else ConnectionStore.CreateConnection(store, newId, tenantId, sub, provider, Some("oauth"), Some(NormalizeScopes(scopes)), now);
      match session
      case Err(_) => (store, CreateRejected(500, CREATE_FAILED))
      case Ok(token) => (staged.0, Created(staged.1.id, token))
  }

  /** The duplicate check sees only the newest row: a refusal with 400
      happens exactly when the head of the newest-first query is active, and
      then some active row with the key is at least as new as every other. */
  lemma DuplicateMeansNewestActive(store: Store, tenantId: string, sub: string, provider: string,
                                   scopes: seq<string>, newId: string, now: int, session: Result<string, string>)
    ensures var rows := UserRows(store, tenantId, sub, provider);
            CreateConnection(store, tenantId, sub, provider, scopes, newId, now, session).1 == CreateRejected(400, DUPLICATE) <==>
              |rows| > 0 && rows[0].status == Active
    ensures CreateConnection(store, tenantId, sub, provider, scopes, newId, now, session).1 == CreateRejected(400, DUPLICATE) ==>
              exists c :: c in store && SameKey(c, tenantId, sub, provider) && c.status == Active &&
                          forall d :: d in store && SameKey(d, tenantId, sub, provider) ==> d.createdAt <= c.createdAt
  {
    UserRowsHead(store, tenantId, sub, provider);
    assert DUPLICATE != CREATE_FAILED by {
      assert DUPLICATE[0] != CREATE_FAILED[0];
    }
  }

  /** When the newest row for the key exists and is not active, it is reused
      as it stands: the store is unchanged and the answer names that row. */
  lemma ReuseNewestInactive(store: Store, tenantId: string, sub: string, provider: string,
                            scopes: seq<string>, newId: string, now: int, token: string)
    requires |UserRows(store, tenantId, sub, provider)| > 0
    requires UserRows(store, tenantId, sub, provider)[0].status != Active
    ensures var r := CreateConnection(store, tenantId, sub, provider, scopes, newId, now, Ok(token));
            && r.0 == store
            && exists c :: c in store && SameKey(c, tenantId, sub, provider) && c.status != Active &&
                           r.1 == Created(c.id, token) &&
                           forall d :: d in store && SameKey(d, tenantId, sub, provider) ==> d.createdAt <= c.createdAt
  {
    UserRowsHead(store, tenantId, sub, provider);
  }

  /** An active row that is strictly newer than every other row with the key
      makes creation fail with 400. */
  lemma StrictlyNewestActiveRefused(store: Store, tenantId: string, sub: string, provider: string,
                                    scopes: seq<string>, newId: string, now: int,
                                    session: Result<string, string>, c: Connection)
    requires c in store && SameKey(c, tenantId, sub, provider) && c.status == Active
    requires forall d :: d in store && SameKey(d, tenantId, sub, provider) && d != c ==> d.createdAt < c.createdAt
    ensures CreateConnection(store, tenantId, sub, provider, scopes, newId, now, session) ==
              (store, CreateRejected(400, DUPLICATE))
  {
    UserRowsHead(store, tenantId, sub, provider);
  }

  /** An older active row hidden behind a newer pending one is not detected:
      the pending row is reused and the session goes ahead. */
  lemma OlderActiveUndetected(older: Connection, newer: Connection)
    requires older.tenantId == "t1" && older.sub == "u1" && older.provider == "github"
    requires newer.tenantId == "t1" && newer.sub == "u1" && newer.provider == "github"
    requires older.status == Active && newer.status == Pending
    requires older.createdAt < newer.createdAt
    ensures CreateConnection([older, newer], "t1", "u1", "github", [], "c3", 0, Ok("tok")) ==
              ([older, newer], Created(newer.id, "tok"))
  {
    var store := [older, newer];
    UserRowsHead(store, "t1", "u1", "github");
    var rows := UserRows(store, "t1", "u1", "github");
    assert newer in store && SameKey(newer, "t1", "u1", "github");
    assert rows[0] == newer;
    assert rows[0].status != Active;
  }

  /** With no row for the key and a session, exactly one row is added: pending,
      version 1, with the lower-cased scopes; the response names it. */
  lemma FreshUserGetsOnePendingRow(store: Store, tenantId: string, sub: string, provider: string,
                                   scopes: seq<string>, newId: string, now: int, token: string)
    requires forall d :: d in store ==> !SameKey(d, tenantId, sub, provider)
    ensures var r := CreateConnection(store, tenantId, sub, provider, scopes, newId, now, Ok(token));
            && r.1 == Created(newId, token)
            && |r.0| == |store| + 1
            && r.0[|store|].status == Pending && r.0[|store|].connectionVersion == 1
            && r.0[|store|].authorizedScopes == Some(NormalizeScopes(scopes))
  {
    UserRowsHead(store, tenantId, sub, provider);
  }

  // ---------------------------------------------------------------------
  // The connect session as written

  /** What the session wrapper throws as written: building the request
      evaluates an undeclared `integrationKey`, the resulting ReferenceError is
      classified, and its category's message is rethrown. */
  const SESSION_PREFIX: string := "Failed to create connect session: "
  const REFERENCE_ERROR: string := "integrationKey is not defined"

  /** The session wrapper as written: the SDK is never reached, whatever it
      would have answered. */
  function CreateConnectSessionAsWritten(sdk: Result<string, string>): (r: Result<string, string>)
    ensures r.Err? && r.error == SESSION_PREFIX + "An unexpected error occurred"
  {
    ReferenceErrorUnclassified(REFERENCE_ERROR);
    Err(Nango.Rethrown(SESSION_PREFIX, REFERENCE_ERROR))
  }

  /** The reference error names no status code. */
  lemma ReferenceErrorUnclassified(m: string)
    requires m == REFERENCE_ERROR
    ensures Nango.Classify(m) == Nango.UnknownError
  {
    assert '4' !in m && '5' !in m;
    LacksChar(m, "404", 0);
    LacksChar(m, "401", 0);
    LacksChar(m, "403", 0);
    LacksChar(m, "400", 0);
    LacksChar(m, "429", 0);
    LacksChar(m, "500", 0);
  }

  /** The session wrapper as intended, with the provider as the integration
      key: the SDK's token, or its classified failure. */
  function CreateConnectSession(sdk: Result<string, string>): (r: Result<string, string>)
    ensures sdk.Ok? ==> r == sdk
    ensures sdk.Err? ==> r == Err(Nango.Rethrown(SESSION_PREFIX, sdk.error))
  {
    match sdk
    case Ok(token) => Ok(token)
    case Err(m) => Err(Nango.Rethrown(SESSION_PREFIX, m))
  }

  /** As written, creation never keeps a row and never answers 200. */
  lemma CreateNeverSucceedsAsWritten(store: Store, tenantId: string, sub: string, provider: string,
                                     scopes: seq<string>, newId: string, now: int, sdk: Result<string, string>)
    ensures var r := CreateConnection(store, tenantId, sub, provider, scopes, newId, now,
                                      CreateConnectSessionAsWritten(sdk));
            r.0 == store && r.1.CreateRejected?
  {
  }

  /** With the intended session wrapper, a fresh user whose session is created
      gets a row and an answer naming it. */
  lemma CreateSucceedsAsIntended(store: Store, tenantId: string, sub: string, provider: string,
                                 scopes: seq<string>, newId: string, now: int, token: string)
    requires forall d :: d in store ==> !SameKey(d, tenantId, sub, provider)
    ensures var r := CreateConnection(store, tenantId, sub, provider, scopes, newId, now,
                                      CreateConnectSession(Ok(token)));
            r.1 == Created(newId, token) && |r.0| == |store| + 1
  {
    FreshUserGetsOnePendingRow(store, tenantId, sub, provider, scopes, newId, now, token);
  }

  // ---------------------------------------------------------------------
  // updateConnection

  datatype UpdateResponse =
    | Reconnect(sessionToken: string)
    | UpdateRejected(status: int, error: string)

  /** `updateConnection` (reconnect): 404 when no row has the id, otherwise the
      reconnect session's token, or 500 when the session fails. The handler has
      no store result: it never writes a row. The path tenant is passed on to
      the vault but never compared with the row's. */
  function UpdateConnection(store: Store, connectionId: string, reconnect: Result<string, string>): (r: UpdateResponse)
    ensures r == UpdateRejected(404, "Connection not found") <==>
              forall j :: 0 <= j < |store| ==> store[j].id != connectionId
    ensures r.Reconnect? <==> (exists c :: c in store && c.id == connectionId) && reconnect.Ok?
    ensures r.Reconnect? ==> reconnect == Ok(r.sessionToken)
    ensures r.UpdateRejected? ==> r.status in {404, 500}
  {
    match GetConnectionById(store, connectionId)
    case None => UpdateRejected(404, "Connection not found")
    case Some(_) =>
      match reconnect
      case Ok(token) => Reconnect(token)
      case Err(_) => UpdateRejected(500, "Failed to reconnect connection")
  }

  // ---------------------------------------------------------------------
  // deleteConnection

  datatype DeleteResponse =
    | Deleted
    | DeleteRejected(status: int, error: string)

  const DELETE_FAILED: string := "Failed to delete connection"

  /** `deleteConnection`: 404 when no row has the id; otherwise the vault is
      asked to delete, a failure answers 500 and a refusal 400, both leaving the
      store alone; only a confirmed deletion revokes the row. */
  function DeleteConnection(store: Store, id: string, vault: Result<int, string>, now: int): (r: (Store, DeleteResponse))
    ensures r.1 == DeleteRejected(404, "Connection not found") <==>
              forall j :: 0 <= j < |store| ==> store[j].id != id
    ensures r.1 == Deleted <==> (exists c :: c in store && c.id == id) && vault == Ok(200)
    ensures r.1.DeleteRejected? ==> r.0 == store
    ensures r.1.DeleteRejected? && r.1.status != 404 ==>
              (r.1 == DeleteRejected(400, DELETE_FAILED) <==> vault.Ok?) &&
              (r.1 == DeleteRejected(500, DELETE_FAILED) <==> vault.Err?)
    ensures r.1 == Deleted ==>
              exists i :: 0 <= i < |store| && store[i].id == id
                && (forall j :: 0 <= j < i ==> store[j].id != id)
                && r.0 == store[i := Revoke(store[i], now)]
  {
    match GetConnectionById(store, id)
    case None => (store, DeleteRejected(404, "Connection not found"))
    case Some(c) =>
      match Nango.DeleteConnection(vault)
      case Err(_) => (store, DeleteRejected(500, DELETE_FAILED))
      case Ok(deleted) =>
        if !deleted then (store, DeleteRejected(400, DELETE_FAILED))
        else (UpdateConnectionStatus(store, id, Revoked, now).0, Deleted)
  }

  /** Deletion never stamps `revokedAt` and never touches the version: only the
      status of the deleted row moves, with `updatedAt` stamped when the status
      changed. */
  lemma DeleteKeepsRevokedAt(store: Store, id: string, vault: Result<int, string>, now: int)
    ensures var after := DeleteConnection(store, id, vault, now).0;
            |after| == |store| &&
            forall j :: 0 <= j < |store| ==>
              after[j].revokedAt == store[j].revokedAt &&
              after[j].connectionVersion == store[j].connectionVersion &&
              after[j].(status := store[j].status, updatedAt := store[j].updatedAt) == store[j] &&
              (after[j].updatedAt == store[j].updatedAt || after[j].updatedAt == now)
  {
    var r := DeleteConnection(store, id, vault, now);
    if r.1 == Deleted {
      var i :| 0 <= i < |store| && store[i].id == id && r.0 == store[i := Revoke(store[i], now)];
      forall j | 0 <= j < |store|
        ensures r.0[j].(status := store[j].status, updatedAt := store[j].updatedAt) == store[j]
      {
        if j == i {
          assert r.0[j] == Revoke(store[j], now);
        } else {
          assert r.0[j] == store[j];
        }
      }
    }
  }
}

=== FILE: delegation.dfy ===
/** Delegation-token validation and scope authorization
    (src/services/delegation-token-service.js). The JWT decoder and the clock
    are inputs: `decoded` is what `jwt.decode` produced for the token (None
    for an undecodable token) and `now` is the current time in whole seconds.
    The signature is not verified by the source and is not modelled. */
module DelegationToken {
  import opened Wrappers
  import opened Js

  /** A decoded JWT payload: a plain JSON object. */
  type Payload = map<string, JsValue>

  /** The claims checked for presence, in the order they are checked. */
  const REQUIRED_CLAIMS: seq<string> := ["aud", "azp", "iss", "exp", "jti", "tid", "cid", "sub", "scp"]

  const AUDIENCE: string := "connections-service"
  const AUTHORIZED_PARTY: string := "taoflow-backend"
  const ISSUER: string := "wuwei-backend"

  /** Every way validation can throw; `Message` gives the thrown text. */
  datatype TokenFailure =
    | TokenRequired
    | InvalidFormat
    | TokenExpired
    | MissingClaim(claim: string)
    | InvalidAudience
    | InvalidAuthorizedParty
    | InvalidIssuer
    | TenantMismatch(pathTenant: string, tokenTenant: JsValue)
    | ConnectionMismatch(pathConnection: string, tokenConnection: JsValue)
    | ScopesNotArray
    | ScopesNotAuthorized(scopes: seq<JsValue>)

  /** True when `m` contains none of the words the access-token endpoint sorts
      thrown messages by: `expired`, `Invalid`, `not found`, `not active` and
      `scopes`. */
  predicate KeywordFree(m: string) {
    !Includes(m, "expired") && !Includes(m, "Invalid") && !Includes(m, "not found") &&
    !Includes(m, "not active") && !Includes(m, "scopes")
  }

  /** The thrown error's message. The validator's outer catch rethrows these
      unchanged: they are plain `Error`s, so neither the `TokenExpiredError`
      nor the `JsonWebTokenError` rewrite applies. The contract says which
      keyword each text carries: `expired` for expiry, `Invalid` (and not
      `expired`) for a bad format, audience, party or issuer, `scopes` for a
      scope violation, and none for a missing token, a missing claim (every
      claim name has three letters) or a non-array `scp`. The mismatch texts
      embed the ids, so their keywords depend on the ids. */
  function Message(f: TokenFailure): (m: string)
    ensures f == TokenExpired ==> Includes(m, "expired")
    ensures f.InvalidFormat? || f.InvalidAudience? || f.InvalidAuthorizedParty? || f.InvalidIssuer? ==>
              Includes(m, "Invalid") && !Includes(m, "expired")
    ensures f == TokenRequired || f == ScopesNotArray ==> KeywordFree(m)
    ensures f.MissingClaim? ==> |m| >= |f.claim| && m[|m| - |f.claim|..] == f.claim
    ensures f.MissingClaim? && |f.claim| <= 3 ==> KeywordFree(m)
    ensures f.TenantMismatch? ==> Includes(m, f.pathTenant)
    ensures f.ConnectionMismatch? ==> Includes(m, f.pathConnection)
    ensures f.ScopesNotAuthorized? ==> Includes(m, "scopes")
  {
    match f
    case TokenRequired => RequiredText()
    case InvalidFormat => FormatText()
    case TokenExpired => ExpiredText()
    case MissingClaim(c) => ClaimText(c)
    case InvalidAudience => AudienceText()
    case InvalidAuthorizedParty => PartyText()
    case InvalidIssuer => IssuerText()
    case TenantMismatch(p, t) => MismatchText("Tenant ID mismatch: path=", p, ToStr(t))
    case ConnectionMismatch(p, t) => MismatchText("Connection ID mismatch: path=", p, ToStr(t))
    case ScopesNotArray => ArrayText()
    case ScopesNotAuthorized(s) => ViolationText(Join(s, ", "))
  }

  /** "Delegation token is required" lacks `x`, `I`, `f`, `v` and `p`, one
      letter of each keyword. */
  function RequiredText(): (m: string)
    ensures KeywordFree(m)
  {
    var m := "Delegation token is required";
    assert forall i | 0 <= i < |m| :: m[i] != 'x' && m[i] != 'I' && m[i] != 'f' && m[i] != 'v' && m[i] != 'p';
    LacksChar(m, "expired", 1); LacksChar(m, "Invalid", 0); LacksChar(m, "not found", 4);
    LacksChar(m, "not active", 8); LacksChar(m, "scopes", 3);
    m
  }

  function FormatText(): (m: string)
    ensures Includes(m, "Invalid") && !Includes(m, "expired")
  {
    var m := "Invalid token format";
    assert forall i | 0 <= i < |m| :: m[i] != 'x';
    InvalidText(m)
  }

  function ExpiredText(): (m: string)
    ensures Includes(m, "expired")
  {
    var m := "Token has expired";
    assert OccursAt(m, "expired", 10);
    m
  }

  /** "Missing required claim: " lacks `x`, `I` and `o`, so a claim name of at
      most three letters cannot complete a keyword. */
  function ClaimText(c: string): (m: string)
    ensures |m| >= |c| && m[|m| - |c|..] == c
    ensures |c| <= 3 ==> KeywordFree(m)
  {
    var a := "Missing required claim: ";
    ClaimTextKeywords(a, c);
    assert (a + c)[|a + c| - |c|..] == c;
    a + c
  }

  lemma ClaimTextKeywords(a: string, c: string)
    requires a == "Missing required claim: "
    ensures |c| <= 3 ==> KeywordFree(a + c)
  {
    assert forall i | 0 <= i < |a| :: a[i] != 'x' && a[i] != 'I' && a[i] != 'o';
    if |c| <= 3 {
      NotIncludes(a, c, "expired", 1); NotIncludes(a, c, "Invalid", 0); NotIncludes(a, c, "not found", 1);
      NotIncludes(a, c, "not active", 1); NotIncludes(a, c, "scopes", 2);
    }
  }

  /** One of the fixed `Invalid ...` texts: it opens with `Invalid` and,
      holding no `x`, cannot contain `expired`. */
  function InvalidText(m: string): (r: string)
    requires |m| >= 7 && m[..7] == "Invalid" && 'x' !in m
    ensures r == m && Includes(r, "Invalid") && !Includes(r, "expired")
  {
    assert OccursAt(m, "Invalid", 0);
    LacksChar(m, "expired", 1);
    m
  }

  /** A mismatch text: the fixed opening, the path's id, then the token's. */
  function MismatchText(a: string, p: string, t: string): (m: string)
    ensures Includes(m, p)
  {
    var m := a + p + ", token=" + t;
    assert m[|a|..|a| + |p|] == p;
    assert OccursAt(m, p, |a|);
    m
  }

  function AudienceText(): (m: string)
    ensures Includes(m, "Invalid") && !Includes(m, "expired")
  {
    var m := "Invalid audience: must be " + AUDIENCE;
    assert forall i | 0 <= i < |m| :: m[i] != 'x';
    InvalidText(m)
  }

  function PartyText(): (m: string)
    ensures Includes(m, "Invalid") && !Includes(m, "expired")
  {
    var m := "Invalid authorized party: must be " + AUTHORIZED_PARTY;
    assert forall i | 0 <= i < |m| :: m[i] != 'x';
    InvalidText(m)
  }

  function IssuerText(): (m: string)
    ensures Includes(m, "Invalid") && !Includes(m, "expired")
  {
    var m := "Invalid issuer: must be " + ISSUER;
    assert forall i | 0 <= i < |m| :: m[i] != 'x';
    InvalidText(m)
  }

  /** "Scopes must be an array": its only `c` follows a capital `S`, so the
      lower-case `scopes` does not occur. */
  function ArrayText(): (m: string)
    ensures KeywordFree(m)
  {
    var m := "Scopes must be an array";
    ArrayTextChars(m);
    LacksChar(m, "expired", 1); LacksChar(m, "Invalid", 0); LacksChar(m, "not found", 4);
    LacksChar(m, "not active", 8);
    NotIncludesAround("S", 'c', m[2..], "scopes", 1, 0);
    m
  }

  lemma ArrayTextChars(m: string)
    requires m == "Scopes must be an array"
    ensures 'x' !in m && 'I' !in m && 'f' !in m && 'v' !in m
    ensures m == "S" + ['c'] + m[2..] && 'c' !in m[2..]
  {
    assert forall i | 0 <= i < |m| :: m[i] != 'x' && m[i] != 'I' && m[i] != 'f' && m[i] != 'v';
    assert forall i | 0 <= i < |m[2..]| :: m[2..][i] != 'c';
  }

  function ViolationText(names: string): (m: string)
    ensures Includes(m, "scopes")
  {
    var a := ScopeViolationPrefix();
    PrefixNamesScopes();
    IncludesAppendRight(a, names, "scopes");
    a + names
  }

  /** `scopes` occurs in the violation prefix, at index 6. */
  lemma PrefixNamesScopes()
    ensures OccursAt(ScopeViolationPrefix(), "scopes", 6)
  {
  }

  /** The opening of a scope violation's message. The word `scopes` is kept
      as a literal of its own so that the solver sees where it occurs: it does
      not reliably index into long string literals. */
  function ScopeViolationPrefix(): string {
    "Token " + "scopes" + " not authorized for connection: "
  }

  /** `payload.exp && payload.exp < currentTime`. Only numeric `exp` values are
      compared; JavaScript's coercion of other types is not modelled. A zero
      `exp` is falsy and so never expires; once a token has expired it stays
      expired. */
  function IsExpired(exp: JsValue, now: int): (expired: bool)
    ensures expired ==> exp.Num? && exp.n < now
    ensures exp.Num? && exp.n != 0 ==> (expired <==> exp.n < now)
    ensures exp == Num(0) ==> !expired
  {
    Truthy(exp) && exp.Num? && exp.n < now
  }

  /** Expiry is monotone in time: a token expired now is expired at every
      later moment. */
  lemma ExpiryMonotone(exp: JsValue, now: int, later: int)
    requires IsExpired(exp, now) && now <= later
    ensures IsExpired(exp, later)
  {
  }

  /** Index of the first claim at or after `from` whose value is falsy. */
  function FirstFalsy(p: Payload, claims: seq<string>, from: nat): (r: Option<nat>)
    requires from <= |claims|
    ensures r.Some? ==> from <= r.value < |claims| && !Truthy(Get(p, claims[r.value]))
    ensures r.Some? ==> forall j :: from <= j < r.value ==> Truthy(Get(p, claims[j]))
    ensures r.None? ==> forall j :: from <= j < |claims| ==> Truthy(Get(p, claims[j]))
    decreases |claims| - from
  {
    if from == |claims| then None
    else if !Truthy(Get(p, claims[from])) then Some(from)
    else FirstFalsy(p, claims, from + 1)
  }

  /** `validateJWTClaims`: presence of every required claim in order, then the
      three fixed identities, then the binding to the path, then the scope array. */
  function ValidateJWTClaims(p: Payload, tenantId: string, connectionId: string): (r: Result<bool, TokenFailure>)
    ensures r.Ok? ==> WellFormedClaims(p, tenantId, connectionId) && r.value
  {
    match FirstFalsy(p, REQUIRED_CLAIMS, 0)
    case Some(k) => Err(MissingClaim(REQUIRED_CLAIMS[k]))
    case None =>
      if Get(p, "aud") != Str(AUDIENCE) then Err(InvalidAudience)
      else if Get(p, "azp") != Str(AUTHORIZED_PARTY) then Err(InvalidAuthorizedParty)
      else if Get(p, "iss") != Str(ISSUER) then Err(InvalidIssuer)
      else if Get(p, "tid") != Str(tenantId) then Err(TenantMismatch(tenantId, Get(p, "tid")))
      else if Get(p, "cid") != Str(connectionId) then Err(ConnectionMismatch(connectionId, Get(p, "cid")))
      else if !Get(p, "scp").Arr? then Err(ScopesNotArray)
      else Ok(true)
  }

  /** `verifyToken`: decoding, then expiry only. */
  function VerifyToken(decoded: Option<Payload>, now: int): (r: Result<Payload, TokenFailure>)
    ensures r.Ok? ==> decoded == Some(r.value) && !IsExpired(Get(r.value, "exp"), now)
    ensures r.Err? ==> r.error == (if decoded.None? then InvalidFormat else TokenExpired)
  {
    match decoded
    case None => Err(InvalidFormat)
    case Some(p) => if IsExpired(Get(p, "exp"), now) then Err(TokenExpired) else Ok(p)
  }

  /** `validateDelegationToken`: a falsy token fails before decoding; success
      returns the decoded payload unchanged. */
  function ValidateDelegationToken(token: JsValue, decoded: Option<Payload>, tenantId: string,
                                   connectionId: string, now: int): (r: Result<Payload, TokenFailure>)
    ensures !Truthy(token) ==> r == Err(TokenRequired)
    ensures r.Ok? ==> decoded == Some(r.value) && WellFormedClaims(r.value, tenantId, connectionId)
  {
    if !Truthy(token) then Err(TokenRequired)
    else
      var p :- VerifyToken(decoded, now);
      var _ :- ValidateJWTClaims(p, tenantId, connectionId);
      Ok(p)
  }

  /** `authorizedScopes.includes(scope)`: strict equality against stored strings. */
  predicate Authorized(scope: JsValue, authorized: seq<string>) {
    scope.Str? && scope.s in authorized
  }

  /** `tokenScopes.filter(scope => !authorizedScopes.includes(scope))`. */
  function Unauthorized(scopes: seq<JsValue>, authorized: seq<string>): (r: seq<JsValue>)
    ensures forall x :: x in r ==> x in scopes && !Authorized(x, authorized)
    ensures |r| == 0 <==> forall i :: 0 <= i < |scopes| ==> Authorized(scopes[i], authorized)
  {
    if |scopes| == 0 then []
    else (if Authorized(scopes[0], authorized) then [] else [scopes[0]]) + Unauthorized(scopes[1..], authorized)
  }

  /** `validateScopes`: fail naming the unauthorized scopes, or return the
      requested list (the second filter keeps every element once the first
      found none missing). */
  function ValidateScopes(scopes: seq<JsValue>, authorized: seq<string>): (r: Result<seq<JsValue>, TokenFailure>)
    ensures r.Ok? <==> forall i :: 0 <= i < |scopes| ==> Authorized(scopes[i], authorized)
    ensures r.Ok? ==> r.value == scopes
    ensures r.Err? ==> r.error == ScopesNotAuthorized(Unauthorized(scopes, authorized))
  {
    var missing := Unauthorized(scopes, authorized);
    if |missing| > 0 then Err(ScopesNotAuthorized(missing)) else Ok(scopes)
  }

  /** `checkJTI`: a stub that accepts every token id. */
  function CheckJTI(jti: JsValue): (r: bool)
    ensures r
  {
    true
  }

  // ---------------------------------------------------------------------
  // Properties

  /** The declarative reading of a valid claim set: every required claim is
      truthy, the fixed identities match, the token is bound to the path and
      the scope claim is an array. */
  predicate WellFormedClaims(p: Payload, tenantId: string, connectionId: string) {
    && (forall k :: 0 <= k < |REQUIRED_CLAIMS| ==> Truthy(Get(p, REQUIRED_CLAIMS[k])))
    && Get(p, "aud") == Str(AUDIENCE)
    && Get(p, "azp") == Str(AUTHORIZED_PARTY)
    && Get(p, "iss") == Str(ISSUER)
    && Get(p, "tid") == Str(tenantId)
    && Get(p, "cid") == Str(connectionId)
    && Get(p, "scp").Arr?
  }

  /** The claim check accepts exactly the well-formed claim sets. */
  lemma ClaimsAcceptExactlyWellFormed(p: Payload, tenantId: string, connectionId: string)
    ensures ValidateJWTClaims(p, tenantId, connectionId).Ok? <==> WellFormedClaims(p, tenantId, connectionId)
  {
    var first := FirstFalsy(p, REQUIRED_CLAIMS, 0);
    if first.Some? {
      assert !Truthy(Get(p, REQUIRED_CLAIMS[first.value]));
    }
  }

  /** Presence is checked in the fixed order before any value: the check fails
      with "Missing required claim: X" exactly when X is the first falsy claim. */
  lemma PresenceOrder(p: Payload, tenantId: string, connectionId: string, k: nat)
    requires k < |REQUIRED_CLAIMS|
    ensures ValidateJWTClaims(p, tenantId, connectionId) == Err(MissingClaim(REQUIRED_CLAIMS[k])) <==>
              && !Truthy(Get(p, REQUIRED_CLAIMS[k]))
              && forall j :: 0 <= j < k ==> Truthy(Get(p, REQUIRED_CLAIMS[j]))
  {
    var first := FirstFalsy(p, REQUIRED_CLAIMS, 0);
    if !Truthy(Get(p, REQUIRED_CLAIMS[k])) && forall j :: 0 <= j < k ==> Truthy(Get(p, REQUIRED_CLAIMS[j])) {
      assert first.Some? && first.value == k;
    }
    if ValidateJWTClaims(p, tenantId, connectionId) == Err(MissingClaim(REQUIRED_CLAIMS[k])) {
      assert first.Some?;
      RequiredClaimsDistinct();
      assert first.value == k;
    }
  }

  lemma RequiredClaimsDistinct()
    ensures forall i, j :: 0 <= i < j < |REQUIRED_CLAIMS| ==> REQUIRED_CLAIMS[i] != REQUIRED_CLAIMS[j]
  {
  }

  /** A falsy claim always wins over a wrong value: whatever else is wrong,
      some "Missing required claim" is reported. An empty scope array is
      present, so it never counts as missing. */
  lemma PresenceBeforeValues(p: Payload, tenantId: string, connectionId: string)
    ensures (exists k :: 0 <= k < |REQUIRED_CLAIMS| && !Truthy(Get(p, REQUIRED_CLAIMS[k]))) <==>
              ValidateJWTClaims(p, tenantId, connectionId).Err? && ValidateJWTClaims(p, tenantId, connectionId).error.MissingClaim?
    ensures Get(p, "scp") == Arr([]) ==> ValidateJWTClaims(p, tenantId, connectionId) != Err(MissingClaim("scp"))
  {
    var first := FirstFalsy(p, REQUIRED_CLAIMS, 0);
    if first.Some? {
      assert !Truthy(Get(p, REQUIRED_CLAIMS[first.value]));
    }
    RequiredClaimsDistinct();
  }

  /** With every claim present, the three identities are checked in order,
      each with its own message. */
  lemma IdentityOrder(p: Payload, tenantId: string, connectionId: string)
    requires forall k :: 0 <= k < |REQUIRED_CLAIMS| ==> Truthy(Get(p, REQUIRED_CLAIMS[k]))
    ensures Get(p, "aud") != Str(AUDIENCE) ==> ValidateJWTClaims(p, tenantId, connectionId) == Err(InvalidAudience)
    ensures Get(p, "aud") == Str(AUDIENCE) && Get(p, "azp") != Str(AUTHORIZED_PARTY) ==>
              ValidateJWTClaims(p, tenantId, connectionId) == Err(InvalidAuthorizedParty)
    ensures Get(p, "aud") == Str(AUDIENCE) && Get(p, "azp") == Str(AUTHORIZED_PARTY) && Get(p, "iss") != Str(ISSUER) ==>
              ValidateJWTClaims(p, tenantId, connectionId) == Err(InvalidIssuer)
  {
  }

  /** The token is bound to the path: a tenant or connection mismatch fails even
      when every other claim is valid. */
  lemma PathBinding(p: Payload, tenantId: string, connectionId: string)
    requires forall k :: 0 <= k < |REQUIRED_CLAIMS| ==> Truthy(Get(p, REQUIRED_CLAIMS[k]))
    requires Get(p, "aud") == Str(AUDIENCE) && Get(p, "azp") == Str(AUTHORIZED_PARTY) && Get(p, "iss") == Str(ISSUER)
    ensures Get(p, "tid") != Str(tenantId) ==>
              ValidateJWTClaims(p, tenantId, connectionId) == Err(TenantMismatch(tenantId, Get(p, "tid")))
    ensures Get(p, "tid") == Str(tenantId) && Get(p, "cid") != Str(connectionId) ==>
              ValidateJWTClaims(p, tenantId, connectionId) == Err(ConnectionMismatch(connectionId, Get(p, "cid")))
    ensures Get(p, "tid") == Str(tenantId) && Get(p, "cid") == Str(connectionId) ==>
              (ValidateJWTClaims(p, tenantId, connectionId).Ok? <==> Get(p, "scp").Arr?)
    ensures Get(p, "tid") == Str(tenantId) && Get(p, "cid") == Str(connectionId) && !Get(p, "scp").Arr? ==>
              ValidateJWTClaims(p, tenantId, connectionId) == Err(ScopesNotArray)
  {
  }

  /** A token is rejected as expired exactly when `exp` is a non-zero number
      strictly below the current time; `exp == now` is accepted. */
  lemma ExpiryBoundary(p: Payload, now: int)
    ensures VerifyToken(Some(p), now) == Err(TokenExpired) <==>
              (Get(p, "exp").Num? && Get(p, "exp").n != 0 && Get(p, "exp").n < now)
    ensures Get(p, "exp") == Num(now) ==> VerifyToken(Some(p), now) == Ok(p)
  {
  }

  /** Full validation succeeds exactly for a truthy, decodable, unexpired token
      with well-formed claims bound to the path, and returns its payload. */
  lemma ValidationSucceedsExactly(token: JsValue, decoded: Option<Payload>, tenantId: string,
                                  connectionId: string, now: int)
    ensures ValidateDelegationToken(token, decoded, tenantId, connectionId, now).Ok? <==>
              && Truthy(token) && decoded.Some?
              && !IsExpired(Get(decoded.value, "exp"), now)
              && WellFormedClaims(decoded.value, tenantId, connectionId)
    ensures ValidateDelegationToken(token, decoded, tenantId, connectionId, now).Ok? ==>
              ValidateDelegationToken(token, decoded, tenantId, connectionId, now).value == decoded.value
  {
    if decoded.Some? {
      ClaimsAcceptExactlyWellFormed(decoded.value, tenantId, connectionId);
    }
  }

  /** Unauthorized scopes are listed in request order: the list for a
      concatenation is the concatenation of the lists. */
  lemma {:induction false} UnauthorizedInOrder(a: seq<JsValue>, b: seq<JsValue>, authorized: seq<string>)
    ensures Unauthorized(a + b, authorized) == Unauthorized(a, authorized) + Unauthorized(b, authorized)
    decreases |a|
  {
    if |a| == 0 {
      assert a + b == b;
    } else {
      assert (a + b)[1..] == a[1..] + b;
      UnauthorizedInOrder(a[1..], b, authorized);
    }
  }

  /** Every unauthorized request is listed as often as it was requested. */
  lemma {:induction false} UnauthorizedComplete(scopes: seq<JsValue>, authorized: seq<string>, x: JsValue)
    requires !Authorized(x, authorized)
    ensures multiset(Unauthorized(scopes, authorized))[x] == multiset(scopes)[x]
    decreases |scopes|
  {
    if |scopes| > 0 {
      assert scopes == [scopes[0]] + scopes[1..];
      UnauthorizedComplete(scopes[1..], authorized, x);
    }
  }

  /** Scope matching is exact string equality: a requested scope is granted
      exactly when the very same string is stored, so two spellings that differ
      in anything, case included, never authorize each other. */
  lemma ScopesAreCaseSensitive(requested: string, stored: seq<string>, variant: string)
    ensures ValidateScopes([Str(requested)], stored).Ok? <==> requested in stored
    ensures requested !in stored ==>
              ValidateScopes([Str(requested)], stored) == Err(ScopesNotAuthorized([Str(requested)]))
    ensures requested != variant ==> ValidateScopes([Str(requested)], [variant]).Err?
    ensures ValidateScopes([Str("Read")], ["read"]).Err?
  {
    assert [Str(requested)][1..] == [];
    assert Unauthorized([Str(requested)], stored) ==
             (if requested in stored then [] else [Str(requested)]);
    assert "Read" != "read" by {
      assert "Read"[0] != "read"[0];
    }
    assert [Str("Read")][1..] == [];
  }
}

=== FILE: errors.dfy ===
/** The service's error classes (src/utils/errors.js) as one datatype. Each
    class fixes an HTTP status and a machine-readable code; the generic
    `AppError` carries whatever status and code it was given. */
module Errors {
  import opened Wrappers
  import Js

  datatype AppError =
    | AppError(message: string, status: int := 500, code: Option<string> := None)
    | ValidationError(message: string, field: Option<string> := None)
    | NotFoundError(resource: string := "Resource")
    | UnauthorizedError(message: string := "Unauthorized")
    | ForbiddenError(message: string := "Forbidden")
    | ExternalServiceError(service: string, detail: string)
    | TimeoutError(service: string, timeoutMs: int)
    | WebhookError(message: string, webhookType: Option<string> := None, connectionId: Option<string> := None)

  /** `error.name`, the constructor's class name: every class name ends in
      `Error`, and only the base class is called `AppError`. */
  function Name(e: AppError): (n: string)
    ensures |n| > 5 && n[|n| - 5..] == "Error"
    ensures n == "AppError" <==> e.AppError?
  {
    match e
    case AppError(_, _, _) => "AppError"
    case ValidationError(_, _) => "ValidationError"
    case NotFoundError(_) => "NotFoundError"
    case UnauthorizedError(_) => "UnauthorizedError"
    case ForbiddenError(_) => "ForbiddenError"
    case ExternalServiceError(_, _) => "ExternalServiceError"
    case TimeoutError(_, _) => "TimeoutError"
    case WebhookError(_, _, _) => "WebhookError"
  }

  /** `error.status`. */
  function Status(e: AppError): (s: int)
    ensures !e.AppError? ==> 400 <= s <= 504
    ensures e.AppError? ==> s == e.status
  {
    match e
    case AppError(_, status, _) => status
    case ValidationError(_, _) => 400
    case NotFoundError(_) => 404
    case UnauthorizedError(_) => 401
    case ForbiddenError(_) => 403
    case ExternalServiceError(_, _) => 502
    case TimeoutError(_, _) => 504
    case WebhookError(_, _, _) => 400
  }

  /** `error.code`. */
  function Code(e: AppError): (c: Option<string>)
    ensures !e.AppError? ==> c.Some?
  {
    match e
    case AppError(_, _, code) => code
    case ValidationError(_, _) => Some("VALIDATION_ERROR")
    case NotFoundError(_) => Some("NOT_FOUND")
    case UnauthorizedError(_) => Some("UNAUTHORIZED")
    case ForbiddenError(_) => Some("FORBIDDEN")
    case ExternalServiceError(_, _) => Some("EXTERNAL_SERVICE_ERROR")
    case TimeoutError(_, _) => Some("TIMEOUT")
    case WebhookError(_, _, _) => Some("WEBHOOK_ERROR")
  }

  /** `error.message`: the classes that take a message keep it verbatim; the
      others compose it from the resource or service they name, which comes
      first. An external-service message ends with the upstream detail, a
      timeout message with `ms`. */
  function Message(e: AppError): (m: string)
    ensures e.AppError? || e.ValidationError? || e.UnauthorizedError? || e.ForbiddenError? || e.WebhookError? ==>
              m == e.message
    ensures e.NotFoundError? ==> |m| > |e.resource| && m[..|e.resource|] == e.resource
    ensures e.ExternalServiceError? || e.TimeoutError? ==> |m| > |e.service| && m[..|e.service|] == e.service
    ensures e.ExternalServiceError? ==> |m| >= |e.detail| && m[|m| - |e.detail|..] == e.detail
    ensures e.TimeoutError? ==> |m| >= 2 && m[|m| - 2..] == "ms"
  {
    match e
    case AppError(m, _, _) => m
    case ValidationError(m, _) => m
    case NotFoundError(r) => r + " not found"
    case UnauthorizedError(m) => m
    case ForbiddenError(m) => m
    case ExternalServiceError(svc, m) => svc + " service error: " + m
    case TimeoutError(svc, t) => svc + " request timed out after " + Js.IntToString(t) + "ms"
    case WebhookError(m, _, _) => m
  }

  /** Two errors of the same class, other than the base class, agree on
      status and code: the class name fixes both. */
  lemma NameDeterminesStatus(a: AppError, b: AppError)
    requires Name(a) == Name(b) && !a.AppError?
    ensures Status(a) == Status(b) && Code(a) == Code(b)
  {
    assert !b.AppError?;
    assert |Name(a)| == |Name(b)| && Name(a)[0] == Name(b)[0];
  }

  /** The status each error code stands for, written as a table independent of
      the classes: the contract every subclass constructor must honour. */
  function StatusOfCode(code: string): Option<int> {
    if code == "VALIDATION_ERROR" then Some(400)
    else if code == "NOT_FOUND" then Some(404)
    else if code == "UNAUTHORIZED" then Some(401)
    else if code == "FORBIDDEN" then Some(403)
    else if code == "EXTERNAL_SERVICE_ERROR" then Some(502)
    else if code == "TIMEOUT" then Some(504)
    else if code == "WEBHOOK_ERROR" then Some(400)
    else None
  }

  /** Every subclass's status agrees with the table entry for its code. */
  lemma CodeDeterminesStatus(e: AppError)
    requires !e.AppError?
    ensures Code(e).Some? && StatusOfCode(Code(e).value) == Some(Status(e))
  {
  }

  /** The subclasses split into client errors (4xx) and upstream errors (5xx):
      only the external-service and timeout classes report a server status. */
  lemma ClientOrUpstream(e: AppError)
    requires !e.AppError?
    ensures Status(e) >= 500 <==> (e.ExternalServiceError? || e.TimeoutError?)
    ensures Status(e) < 500 ==> 400 <= Status(e) <= 404
  {
  }

  /** The default constructor arguments. */
  lemma Defaults()
    ensures Status(AppError("m")) == 500 && Code(AppError("m")) == None
    ensures Message(NotFoundError()) == "Resource not found"
    ensures Message(UnauthorizedError()) == "Unauthorized" && Status(UnauthorizedError()) == 401
    ensures Message(ForbiddenError()) == "Forbidden" && Status(ForbiddenError()) == 403
    ensures WebhookError("m").webhookType == None && WebhookError("m").connectionId == None
  {
  }

  /** A not-found error's message names the resource and contains "not found",
      whatever the resource is. */
  lemma NotFoundMessage(resource: string)
    ensures Message(NotFoundError(resource))[..|resource|] == resource
    ensures Js.Includes(Message(NotFoundError(resource)), "not found")
  {
    assert Js.OccursAt(" not found", "not found", 1);
    Js.IncludesPrependLeft(resource, " not found", "not found");
  }

  /** An external-service error names its service first and keeps the upstream
      detail verbatim at the end of the message. */
  lemma ExternalServiceMessage(service: string, detail: string)
    ensures var m := Message(ExternalServiceError(service, detail));
      |m| == |service| + 16 + |detail| && m[..|service|] == service && m[|m| - |detail|..] == detail
  {
  }
}

=== FILE: issuance.dfy ===
/** The access-issuance pipeline (`createAccessToken`,
    src/controllers/connection-token.js): an ordered, short-circuiting run of
    checks followed by the lifetime arithmetic and the vendor block. `Decide`
    names the step that decided the request; `Respond` turns that into the
    HTTP status and body, including the catch block's substring-based
    classification of thrown messages. The store, the decoded token, the
    vault's answer and the clock (whole seconds) are inputs. */
module AccessIssuance {
  import opened Wrappers
  import opened Js
  import opened ConnectionModel
  import ConnectionStore
  import D = DelegationToken
  import Nango

  /** What the vault's `getToken` resolved to: the token and, when the vault
      reports one, its expiry as epoch milliseconds (`Date.getTime()`). */
  datatype VaultToken = VaultToken(accessToken: JsValue, expiresAtMs: Option<int>)

  /** The step that decided the request. */
  datatype Outcome =
    | ConnectionNotFound                      // no row, or the row's tenant is not the path's
    | TokenRejected(failure: D.TokenFailure)  // thrown by the validator
    | SubjectMismatch
    | TenantMismatch
    | NotActive(status: Status)
    | VersionMismatch
    | ScopesRejected(failure: D.TokenFailure) // thrown by the scope check
    | VaultFailed(message: string)            // thrown by the vault client
    | TokenUnavailable
    | Granted(connection: Connection, token: VaultToken, scopes: seq<JsValue>)

  /** The HTTP answer: the success body, or a status with the `error` text
      and, for an inactive connection only, its status. */
  datatype Response =
    | Issued(accessToken: JsValue, expiresIn: int, scopes: seq<JsValue>, vendor: map<string, JsValue>)
    | Rejected(status: int, error: string, connectionStatus: Option<Status>)

  const DEFAULT_MIN_TTL_SECONDS: int := 300
  const DEFAULT_LIFETIME_SECONDS: int := 3600

  /** The request's scopes, `payload.scp` (an array once the claims passed). */
  function RequestedScopes(p: D.Payload): seq<JsValue> {
    match Get(p, "scp")
    case Arr(items) => items
    case _ => []
  }

  /** `cver && cver !== connection.connectionVersion`: strict equality, so only
      the number itself matches. A falsy `cver` (absent, null, 0, "") is no
      snapshot and never conflicts; any non-empty string conflicts, even one
      spelling the current version. */
  function VersionConflict(cver: JsValue, version: int): (conflict: bool)
    ensures !Truthy(cver) ==> !conflict
    ensures cver.Num? && cver.n != 0 ==> (conflict <==> cver.n != version)
    ensures cver.Str? && cver.s != "" ==> conflict
    ensures cver.Bool? || cver.Arr? || cver.Obj? ==> (conflict <==> Truthy(cver))
  {
    Truthy(cver) && cver != Num(version)
  }

  /** Steps 1 to 8 of the pipeline, each short-circuiting the rest. */
  function Decide(store: ConnectionStore.Store, connectionId: string, tenantId: string,
                  token: JsValue, decoded: Option<D.Payload>,
                  vault: Result<Option<VaultToken>, string>, now: int): (o: Outcome)
    ensures o.Granted? ==> o.connection in store && o.connection.id == connectionId
    ensures o.Granted? ==> o.connection.tenantId == tenantId && o.connection.status == Active
  {
    match ConnectionStore.GetConnectionById(store, connectionId)
    case None => ConnectionNotFound
    case Some(c) =>
      if c.tenantId != tenantId then ConnectionNotFound
      else match D.ValidateDelegationToken(token, decoded, tenantId, connectionId, now)
      case Err(f) => TokenRejected(f)
      case Ok(p) =>
        if Get(p, "sub") != Str(c.sub) then SubjectMismatch
        else if Get(p, "tid") != Str(c.tenantId) then TenantMismatch
        else if c.status != Active then NotActive(c.status)
        else if VersionConflict(Get(p, "cver"), c.connectionVersion) then VersionMismatch
        else match D.ValidateScopes(RequestedScopes(p), c.authorizedScopes.GetOr([]))
        case Err(f) => ScopesRejected(f)
        case Ok(scopes) =>
          assert D.CheckJTI(Get(p, "jti"));
          match Nango.GetAccessToken<Option<VaultToken>>(vault)
          case Err(m) => VaultFailed(m)
          case Ok(None) => TokenUnavailable
          case Ok(Some(t)) => Granted(c, t, scopes)
  }

  /** `expires_in`: the default lifetime without a vault expiry; otherwise the
      whole seconds left, never negative. */
  function ExpiresIn(expiresAtMs: Option<int>, now: int): (r: int)
    ensures r >= 0
    ensures expiresAtMs.None? ==> r == DEFAULT_LIFETIME_SECONDS
    ensures expiresAtMs.Some? && expiresAtMs.value <= now * 1000 ==> r == 0
    ensures expiresAtMs.Some? && expiresAtMs.value > now * 1000 ==>
              r * 1000 <= expiresAtMs.value - now * 1000 < (r + 1) * 1000
  {
    match expiresAtMs
    case None => DEFAULT_LIFETIME_SECONDS
    case Some(ms) => if ms <= now * 1000 then 0 else (ms - now * 1000) / 1000
  }

  /** The `vendor` block: `accountId` and `displayName` from the stored
      account (null when falsy or absent), then every stored field on top. */
  function Vendor(account: Option<map<string, JsValue>>): (v: map<string, JsValue>)
    ensures "accountId" in v && "displayName" in v
    ensures account.Some? ==> forall k :: k in account.value ==> k in v && v[k] == account.value[k]
    ensures account.None? ==> v == map["accountId" := Null, "displayName" := Null]
    ensures account.Some? ==> v.Keys == account.value.Keys + {"accountId", "displayName"}
    ensures account.Some? && "accountId" !in account.value ==>
              v["accountId"] == (if Truthy(Get(account.value, "account_id")) then account.value["account_id"] else Null)
  {
    match account
    case None => map["accountId" := Null, "displayName" := Null]
    case Some(a) =>
      var id := if Truthy(Get(a, "account_id")) then Get(a, "account_id") else Null;
      var name := if Truthy(Get(a, "display_name")) then Get(a, "display_name") else Null;
      map["accountId" := id, "displayName" := name] + a
  }

  /** An answer of the catch block: a fixed status and text, or a status
      that echoes the thrown message. */
  datatype Answer = Fixed(status: int, text: string) | Echo(status: int)

  /** The catch block as a table, in the order it is consulted: the keyword
      groups and the answer each selects, then the answer when none occurs. */
  const CATCH_KEYWORDS: seq<seq<string>> := [["expired"], ["Invalid"], ["not found"], ["not active"], ["scopes"]]
  const CATCH_ANSWERS: seq<Answer> :=
    [Fixed(401, "Delegation token has expired"), Echo(401), Fixed(404, "Connection not found"),
     Fixed(400, "Connection is not active"), Echo(403)]
  const CATCH_DEFAULT: Answer := Fixed(500, "Failed to get access token")

  function Answered(a: Answer, message: string): (int, string) {
    match a
    case Fixed(status, text) => (status, text)
    case Echo(status) => (status, message)
  }

  /** The catch block: the first keyword found in the thrown message decides
      the status; two of the rules echo the message. Each rule applies exactly
      when its keyword occurs and no earlier one does. */
  function Classify(message: string): (r: (int, string))
    ensures r.0 == 401 || r.0 == 404 || r.0 == 400 || r.0 == 403 || r.0 == 500
    ensures Includes(message, "expired") ==> r == (401, "Delegation token has expired")
    ensures !Includes(message, "expired") && Includes(message, "Invalid") ==> r == (401, message)
    ensures !Includes(message, "expired") && !Includes(message, "Invalid") && Includes(message, "not found") ==>
              r == (404, "Connection not found")
    ensures (!Includes(message, "expired") && !Includes(message, "Invalid") && !Includes(message, "not found") &&
             Includes(message, "not active")) ==> r == (400, "Connection is not active")
    ensures r == (403, message) <==>
              !Includes(message, "expired") && !Includes(message, "Invalid") && !Includes(message, "not found") &&
              !Includes(message, "not active") && Includes(message, "scopes")
    ensures r.0 == 500 <==>
              !Includes(message, "expired") && !Includes(message, "Invalid") && !Includes(message, "not found") &&
              !Includes(message, "not active") && !Includes(message, "scopes")
    ensures r.0 == 500 ==> r.1 == "Failed to get access token"
    ensures r.0 == 403 ==> r.1 == message && Includes(message, "scopes")
  {
    if Includes(message, "expired") then (401, "Delegation token has expired")
    else if Includes(message, "Invalid") then (401, message)
    else if Includes(message, "not found") then (404, "Connection not found")
    else if Includes(message, "not active") then (400, "Connection is not active")
    else if Includes(message, "scopes") then (403, message)
    else (500, "Failed to get access token")
  }

  /** The catch block agrees with its table on every message: the answer is
      the one of the first keyword group that occurs, or the default. */
  lemma ClassifyByTable(message: string)
    ensures var i := FirstHit(message, CATCH_KEYWORDS, 0);
            Classify(message) == Answered(if i < |CATCH_ANSWERS| then CATCH_ANSWERS[i] else CATCH_DEFAULT, message)
  {
    var g := CATCH_KEYWORDS;
    assert g[0] == ["expired"] && g[1] == ["Invalid"] && g[2] == ["not found"];
    assert g[3] == ["not active"] && g[4] == ["scopes"];
    OccursOne(message, "expired");
    OccursOne(message, "Invalid");
    OccursOne(message, "not found");
    OccursOne(message, "not active");
    OccursOne(message, "scopes");
  }

  function Thrown(message: string): Response {
    var (status, error) := Classify(message);
    Rejected(status, error, None)
  }

  /** The status and body of each deciding step. */
  function Respond(o: Outcome, now: int): (r: Response)
    ensures r.Issued? <==> o.Granted?
    ensures r.Issued? ==> r.expiresIn >= 0 && r.scopes == o.scopes && r.accessToken == o.token.accessToken
    ensures r.Issued? ==> r.vendor == Vendor(o.connection.providerAccount)
    ensures r.Rejected? && r.connectionStatus.Some? ==> o == NotActive(r.connectionStatus.value) && r.status == 400
    ensures o == ConnectionNotFound || o == TokenUnavailable ==> r.Rejected? && r.status == 404
    ensures o == SubjectMismatch || o == TenantMismatch ==> r.Rejected? && r.status == 403
    ensures o.NotActive? || o == VersionMismatch ==> r.Rejected? && r.status == 400
  {
    match o
    case ConnectionNotFound => Rejected(404, "Connection not found", None)
    case TokenRejected(f) => Thrown(D.Message(f))
    case SubjectMismatch => Rejected(403, "Connection does not belong to authenticated user", None)
    case TenantMismatch => Rejected(403, "Connection does not belong to tenant", None)
    case NotActive(s) => Rejected(400, "Connection is not active", Some(s))
    case VersionMismatch => Rejected(400, "Connection version mismatch", None)
    case ScopesRejected(f) => Thrown(D.Message(f))
    case VaultFailed(m) => Thrown(m)
    case TokenUnavailable => Rejected(404, "Access token not available", None)
    case Granted(c, t, scopes) =>
      Issued(t.accessToken, ExpiresIn(t.expiresAtMs, now), scopes, Vendor(c.providerAccount))
  }

  /** `createAccessToken`. `minTtlSeconds` (300 when absent) only selects a log
      line. The `lastAccessedAt` write goes through a transaction that is
      never committed, so the store is not an output. */
  function CreateAccessToken(store: ConnectionStore.Store, connectionId: string, tenantId: string,
                             token: JsValue, decoded: Option<D.Payload>, minTtlSeconds: int,
                             vault: Result<Option<VaultToken>, string>, now: int): (r: Response)
    ensures r.Issued? ==> exists c :: c in store && c.id == connectionId && c.tenantId == tenantId &&
                                      c.status == Active && r.vendor == Vendor(c.providerAccount)
  {
    var o := Decide(store, connectionId, tenantId, token, decoded, vault, now);
    assert o.Granted? ==> o.connection in store && o.connection.id == connectionId;
    Respond(o, now)
  }

  // ---------------------------------------------------------------------
  // Properties

  /** Issuance succeeds exactly when every check passes: the row exists in the
      path's tenant, the token is valid and bound to the path, its subject owns
      the row, the row is active, the version snapshot (if any) is current,
      every requested scope is authorized and the vault holds a token. The
      granted scopes are the requested ones. */
  lemma GrantedExactly(store: ConnectionStore.Store, connectionId: string, tenantId: string,
                       token: JsValue, decoded: Option<D.Payload>,
                       vault: Result<Option<VaultToken>, string>, now: int)
    ensures Decide(store, connectionId, tenantId, token, decoded, vault, now).Granted? <==>
      && ConnectionStore.GetConnectionById(store, connectionId).Some?
      && var c := ConnectionStore.GetConnectionById(store, connectionId).value;
      && c.tenantId == tenantId
      && D.ValidateDelegationToken(token, decoded, tenantId, connectionId, now).Ok?
      && var p := decoded.value;
      && Get(p, "sub") == Str(c.sub)
      && c.status == Active
      && !VersionConflict(Get(p, "cver"), c.connectionVersion)
      && (forall i :: 0 <= i < |RequestedScopes(p)| ==> D.Authorized(RequestedScopes(p)[i], c.authorizedScopes.GetOr([])))
      && vault.Ok? && vault.value.Some?
    ensures Decide(store, connectionId, tenantId, token, decoded, vault, now).Granted? ==>
      Decide(store, connectionId, tenantId, token, decoded, vault, now).scopes == RequestedScopes(decoded.value)
  {
  }

  /** The second tenant check (token `tid` against the row) can never decide a
      request: the lookup already pinned the row to the path tenant and the
      validator pinned `tid` to the path tenant. */
  lemma TenantRecheckUnreachable(store: ConnectionStore.Store, connectionId: string, tenantId: string,
                                 token: JsValue, decoded: Option<D.Payload>,
                                 vault: Result<Option<VaultToken>, string>, now: int)
    ensures Decide(store, connectionId, tenantId, token, decoded, vault, now) != TenantMismatch
  {
  }

  /** The version check applies only to a truthy `cver`: an absent or zero
      snapshot never yields a version mismatch, and a present one that differs
      from the row's version does, even when every other check would pass. */
  lemma VersionSnapshot(store: ConnectionStore.Store, connectionId: string, tenantId: string,
                        token: JsValue, p: D.Payload,
                        vault: Result<Option<VaultToken>, string>, now: int)
    ensures (Get(p, "cver") == Undefined || Get(p, "cver") == Num(0)) ==>
              Decide(store, connectionId, tenantId, token, Some(p), vault, now) != VersionMismatch
    ensures var c := ConnectionStore.GetConnectionById(store, connectionId);
            c.Some? && c.value.tenantId == tenantId && c.value.status == Active &&
            D.ValidateDelegationToken(token, Some(p), tenantId, connectionId, now).Ok? &&
            Get(p, "sub") == Str(c.value.sub) &&
            Get(p, "cver").Num? && Get(p, "cver").n != 0 && Get(p, "cver").n != c.value.connectionVersion ==>
              Decide(store, connectionId, tenantId, token, Some(p), vault, now) == VersionMismatch
  {
    AbsentSnapshotPasses(store, connectionId, tenantId, token, p, vault, now);
    StaleSnapshotRefused(store, connectionId, tenantId, token, p, vault, now);
  }

  lemma AbsentSnapshotPasses(store: ConnectionStore.Store, connectionId: string, tenantId: string,
                             token: JsValue, p: D.Payload,
                             vault: Result<Option<VaultToken>, string>, now: int)
    ensures (Get(p, "cver") == Undefined || Get(p, "cver") == Num(0)) ==>
              Decide(store, connectionId, tenantId, token, Some(p), vault, now) != VersionMismatch
  {
    if Get(p, "cver") == Undefined || Get(p, "cver") == Num(0) {
      assert !VersionConflict(Get(p, "cver"), 0);
      assert forall v :: !VersionConflict(Get(p, "cver"), v);
    }
  }

  lemma StaleSnapshotRefused(store: ConnectionStore.Store, connectionId: string, tenantId: string,
                             token: JsValue, p: D.Payload,
                             vault: Result<Option<VaultToken>, string>, now: int)
    ensures var c := ConnectionStore.GetConnectionById(store, connectionId);
            c.Some? && c.value.tenantId == tenantId && c.value.status == Active &&
            D.ValidateDelegationToken(token, Some(p), tenantId, connectionId, now).Ok? &&
            Get(p, "sub") == Str(c.value.sub) &&
            Get(p, "cver").Num? && Get(p, "cver").n != 0 && Get(p, "cver").n != c.value.connectionVersion ==>
              Decide(store, connectionId, tenantId, token, Some(p), vault, now) == VersionMismatch
  {
    var c := ConnectionStore.GetConnectionById(store, connectionId);
    if c.Some? && c.value.tenantId == tenantId && D.ValidateDelegationToken(token, Some(p), tenantId, connectionId, now).Ok? {
      TenantRecheckUnreachable(store, connectionId, tenantId, token, Some(p), vault, now);
      assert Get(p, "cver").Num? && Get(p, "cver").n != 0 && Get(p, "cver").n != c.value.connectionVersion ==>
        VersionConflict(Get(p, "cver"), c.value.connectionVersion);
    }
  }

  /** A revoked connection is never issued a token; once the lookup, the token
      and the subject pass, the answer is 400 carrying `revoked`. */
  lemma RevokedNeverIssued(store: ConnectionStore.Store, connectionId: string, tenantId: string,
                           token: JsValue, p: D.Payload, minTtl: int,
                           vault: Result<Option<VaultToken>, string>, now: int)
    requires var c := ConnectionStore.GetConnectionById(store, connectionId);
             c.Some? && c.value.tenantId == tenantId && c.value.status == Revoked
    ensures CreateAccessToken(store, connectionId, tenantId, token, Some(p), minTtl, vault, now).Rejected?
    ensures D.ValidateDelegationToken(token, Some(p), tenantId, connectionId, now).Ok? &&
            Get(p, "sub") == Str(ConnectionStore.GetConnectionById(store, connectionId).value.sub) ==>
              CreateAccessToken(store, connectionId, tenantId, token, Some(p), minTtl, vault, now) ==
                Rejected(400, "Connection is not active", Some(Revoked))
  {
  }

  /** The low-lifetime branch only logs: the answer does not depend on
      `minTtlSeconds`. */
  lemma MinTtlOnlyLogs(store: ConnectionStore.Store, connectionId: string, tenantId: string,
                       token: JsValue, decoded: Option<D.Payload>, ttlA: int, ttlB: int,
                       vault: Result<Option<VaultToken>, string>, now: int)
    ensures CreateAccessToken(store, connectionId, tenantId, token, decoded, ttlA, vault, now) ==
            CreateAccessToken(store, connectionId, tenantId, token, decoded, ttlB, vault, now)
  {
  }

  /** A missing claim is not one of the classified keywords, so it surfaces
      as a generic 500 rather than a 401. */
  lemma MissingClaimIsServerError(claim: string)
    requires |claim| == 3
    ensures Respond(TokenRejected(D.MissingClaim(claim)), 0) == Rejected(500, "Failed to get access token", None)
  {
    ThrownServerError(D.Message(D.MissingClaim(claim)));
  }

  /** The other texts without a keyword, a missing token and a non-array
      `scp`, surface as the same generic 500. */
  lemma UnkeyedFailuresServerError(f: D.TokenFailure)
    requires f == D.TokenRequired || f == D.ScopesNotArray || (f.MissingClaim? && f.claim in D.REQUIRED_CLAIMS)
    ensures Respond(TokenRejected(f), 0) == Rejected(500, "Failed to get access token", None)
    ensures Respond(ScopesRejected(f), 0) == Rejected(500, "Failed to get access token", None)
  {
    ThrownServerError(D.Message(f));
  }

  /** The expiry message contains "expired"; the format, audience, party and
      issuer messages contain "Invalid" and no "expired", and are echoed. */
  lemma TokenFailuresUnauthorized(f: D.TokenFailure)
    requires f.TokenExpired? || f.InvalidFormat? || f.InvalidAudience? || f.InvalidAuthorizedParty? || f.InvalidIssuer?
    ensures f.TokenExpired? ==> Respond(TokenRejected(f), 0) == Rejected(401, "Delegation token has expired", None)
    ensures !f.TokenExpired? ==> Respond(TokenRejected(f), 0) == Rejected(401, D.Message(f), None)
  {
  }

  /** A thrown message with none of the keywords is a generic 500. */
  lemma ThrownServerError(m: string)
    requires !Includes(m, "expired") && !Includes(m, "Invalid") && !Includes(m, "not found")
    requires !Includes(m, "not active") && !Includes(m, "scopes")
    ensures Thrown(m) == Rejected(500, "Failed to get access token", None)
  {
  }

  /** A thrown message whose first keyword is "scopes" is a 403 echoing it. */
  lemma ThrownForbidden(m: string)
    requires !Includes(m, "expired") && !Includes(m, "Invalid") && !Includes(m, "not found")
    requires !Includes(m, "not active") && Includes(m, "scopes")
    ensures Thrown(m) == Rejected(403, m, None)
  {
  }

  /** A scope violation is answered 403 with the message naming the scopes,
      as long as the listed names contain none of the four keywords the
      classification tries before `scopes`. */
  lemma ScopeViolationForbidden(scopes: seq<JsValue>)
    requires var j := Join(scopes, ", ");
             && !Includes(j, "expired") && !Includes(j, "Invalid")
             && !Includes(j, "not found") && !Includes(j, "not active")
    ensures Respond(ScopesRejected(D.ScopesNotAuthorized(scopes)), 0) ==
              Rejected(403, D.Message(D.ScopesNotAuthorized(scopes)), None)
  {
    var j := Join(scopes, ", ");
    var m := D.ScopeViolationPrefix() + j;
    assert D.Message(D.ScopesNotAuthorized(scopes)) == m;
    ScopeMessageKeywords(j, m);
    ThrownForbidden(m);
  }

  /** The service's default Google Drive scope, refused, is answered 403:
      its name holds no keyword, although it contains a `v` (in `drive`).
      The scope is written as two literals because the proof indexes into it,
      and the solver cannot index a string literal longer than about 43
      characters. */
  lemma DriveScopeViolationForbidden()
    ensures var g := "https://www.googleapis.com" + "/auth/drive.readonly";
            Respond(ScopesRejected(D.ScopesNotAuthorized([Str(g)])), 0) ==
              Rejected(403, D.Message(D.ScopesNotAuthorized([Str(g)])), None)
  {
    var g := "https://www.googleapis.com" + "/auth/drive.readonly";
    assert Join([Str(g)], ", ") == g;
    DriveScopeChars(g);
    LacksChar(g, "expired", 1);
    LacksChar(g, "Invalid", 0);
    LacksChar(g, "not found", 3);
    LacksChar(g, "not active", 3);
    ScopeViolationForbidden([Str(g)]);
  }

  lemma DriveScopeChars(g: string)
    requires g == "https://www.googleapis.com" + "/auth/drive.readonly"
    ensures 'x' !in g && 'I' !in g && ' ' !in g
  {
    assert forall i | 0 <= i < |g| :: g[i] != 'x' && g[i] != 'I' && g[i] != ' ';
  }

  /** The scope-violation message has `scopes` in its prefix, and no earlier
      keyword unless the listed names bring it: the prefix holds none, and its
      tail `on: ` cannot start one across the seam. */
  lemma ScopeMessageKeywords(j: string, m: string)
    requires !Includes(j, "expired") && !Includes(j, "Invalid")
    requires !Includes(j, "not found") && !Includes(j, "not active")
    requires m == D.ScopeViolationPrefix() + j
    ensures Includes(m, "scopes")
    ensures !Includes(m, "expired") && !Includes(m, "Invalid") && !Includes(m, "not found") && !Includes(m, "not active")
  {
    var p := D.ScopeViolationPrefix();
    PrefixKeywords();
    PrefixTail();
    IncludesAppendRight(p, j, "scopes");
    SeamFree(p, "expired");
    NotIncludesConcat(p, j, "expired");
    SeamFree(p, "Invalid");
    NotIncludesConcat(p, j, "Invalid");
    SeamFree(p, "not found");
    NotIncludesConcat(p, j, "not found");
    SeamFree(p, "not active");
    NotIncludesConcat(p, j, "not active");
  }

  /** The prefix alone names `scopes` and none of the other keywords. */
  lemma PrefixKeywords()
    ensures var p := D.ScopeViolationPrefix();
            && Includes(p, "scopes")
            && !Includes(p, "expired") && !Includes(p, "Invalid")
            && !Includes(p, "not found") && !Includes(p, "not active")
  {
    var a, b := ScopePrefixParts();
    var p := D.ScopeViolationPrefix();
    ScopePrefixChars(a, b);
    D.PrefixNamesScopes();
    LacksChar(p, "expired", 1);
    LacksChar(p, "Invalid", 0);
    LacksChar(p, "not active", 8);
    NotIncludesAround(a, 'f', b, "not found", 4, 0);
  }

  /** The prefix ends in `on: `. */
  lemma PrefixTail()
    ensures var p := D.ScopeViolationPrefix(); |p| >= 4 && p[|p| - 4..] == "on: "
  {
    var a, b := ScopePrefixParts();
    var p := D.ScopeViolationPrefix();
    assert p[|p| - 4..] == b[|b| - 4..];
  }

  /** A string ending in `on: ` ends in no proper prefix of a keyword whose
      only space, if any, is its fourth character after a leading `n`. */
  lemma SeamFree(p: string, t: string)
    requires |p| >= 4 && p[|p| - 4..] == "on: "
    requires forall q :: 0 <= q < |t| && t[q] == ' ' ==> q == 3 && t[0] == 'n'
    ensures forall n :: 0 < n < |t| && n <= |p| ==> p[|p| - n..] != t[..n]
  {
    assert p[|p| - 1] == ' ' && p[|p| - 4] == 'o';
    forall n | 0 < n < |t| && n <= |p|
      ensures p[|p| - n..] != t[..n]
    {
      if t[n - 1] != ' ' {
        assert p[|p| - n..][n - 1] == ' ';
      } else {
        assert p[|p| - n..][0] == 'o';
      }
    }
  }

  /** The scope-violation prefix splits around its only `f`, and holds none
      of the characters `x`, `I` and `v`. */
  lemma ScopePrefixParts() returns (a: string, b: string)
    ensures D.ScopeViolationPrefix() == a + ['f'] + b
    ensures a == "Token scopes not authorized " && b == "or connection: "
  {
    a, b := "Token scopes not authorized ", "or connection: ";
    assert "for connection: " == ['f'] + b;
  }

  lemma ScopePrefixChars(a: string, b: string)
    requires a == "Token scopes not authorized " && b == "or connection: "
    ensures 'x' !in a + ['f'] + b && 'I' !in a + ['f'] + b && 'v' !in a + ['f'] + b
    ensures 'f' !in a && 'f' !in b
  {
    assert forall i | 0 <= i < |a| :: a[i] != 'x' && a[i] != 'I' && a[i] != 'v' && a[i] != 'f';
    assert forall i | 0 <= i < |b| :: b[i] != 'x' && b[i] != 'I' && b[i] != 'v' && b[i] != 'f';
  }

  /** Classification is by substring of the whole message, scope names
      included: an unauthorized scope named `expired` is reported as an
      expired delegation token. */
  lemma ScopeNamedExpired()
    ensures Respond(ScopesRejected(D.ScopesNotAuthorized([Str("expired")])), 0) ==
              Rejected(401, "Delegation token has expired", None)
  {
    var m := D.Message(D.ScopesNotAuthorized([Str("expired")]));
    assert Join([Str("expired")], ", ") == "expired";
    assert OccursAt(m, "expired", |D.ScopeViolationPrefix()|);
  }

  const VAULT_PREFIX: string := "Failed to get access token: "

  /** The vault prefix holds none of the characters the keyword proofs rely
      on, and splits around its only `i`. */
  lemma VaultPrefixChars()
    ensures 'x' !in VAULT_PREFIX && 'p' !in VAULT_PREFIX && 'I' !in VAULT_PREFIX
    ensures 'f' !in VAULT_PREFIX && 'v' !in VAULT_PREFIX
  {
    assert forall i | 0 <= i < |VAULT_PREFIX| ::
      VAULT_PREFIX[i] != 'x' && VAULT_PREFIX[i] != 'p' && VAULT_PREFIX[i] != 'I' &&
      VAULT_PREFIX[i] != 'f' && VAULT_PREFIX[i] != 'v';
  }

  lemma VaultPrefixSplit(s: string)
    ensures VAULT_PREFIX + s == "Fa" + ['i'] + ("led to get access token: " + s)
  {
    assert VAULT_PREFIX == "Fa" + ['i'] + "led to get access token: ";
  }

  lemma VaultTailLacksI(s: string)
    requires s == "An unexpected error occurred"
    ensures 'i' !in "Fa" && 'i' !in "led to get access token: " + s
  {
    var t := "led to get access token: ";
    assert forall i | 0 <= i < |t| :: t[i] != 'i';
    assert forall i | 0 <= i < |s| :: s[i] != 'i';
  }

  /** Vault failures reach the caller through the same classification: a
      vault 404 reads as "Connection not found" and a vault 400 is echoed as
      a 401 ("Invalid request"). */
  lemma VaultClientErrors(sdkMessage: string)
    ensures var r := Respond(VaultFailed(Nango.Rethrown(VAULT_PREFIX, sdkMessage)), 0);
      && (Nango.Classify(sdkMessage) == Nango.NotFound ==> r == Rejected(404, "Connection not found", None))
      && (Nango.Classify(sdkMessage) == Nango.BadRequest ==> r == Rejected(401, VAULT_PREFIX + "Invalid request", None))
  {
    var m := Nango.Rethrown(VAULT_PREFIX, sdkMessage);
    if Nango.Classify(sdkMessage) == Nango.NotFound {
      VaultNotFoundMessage(m);
    } else if Nango.Classify(sdkMessage) == Nango.BadRequest {
      VaultBadRequestMessage(m);
    }
  }

  lemma VaultNotFoundMessage(m: string)
    requires m == VAULT_PREFIX + "Resource not found"
    ensures Thrown(m) == Rejected(404, "Connection not found", None)
  {
    VaultPrefixChars();
    LacksChar(m, "expired", 1);
    LacksChar(m, "Invalid", 0);
    assert OccursAt(m, "not found", |VAULT_PREFIX| + 9);
  }

  lemma VaultBadRequestMessage(m: string)
    requires m == VAULT_PREFIX + "Invalid request"
    ensures Thrown(m) == Rejected(401, m, None)
  {
    VaultPrefixChars();
    LacksChar(m, "expired", 1);
    assert OccursAt(m, "Invalid", |VAULT_PREFIX|);
  }

  /** The other vault failure categories are a generic 500. */
  lemma VaultOtherErrors(sdkMessage: string)
    requires Nango.Classify(sdkMessage) !in {Nango.NotFound, Nango.BadRequest}
    ensures Respond(VaultFailed(Nango.Rethrown(VAULT_PREFIX, sdkMessage)), 0) ==
              Rejected(500, "Failed to get access token", None)
  {
    var m := Nango.Rethrown(VAULT_PREFIX, sdkMessage);
    match Nango.Classify(sdkMessage)
    case AuthenticationError => AuthenticationFailedUnclassified(m);
    case RateLimited => RateLimitUnclassified(m);
    case ServerError => ServerErrorUnclassified(m);
    case UnknownError => UnexpectedErrorUnclassified(m);
  }

  lemma AuthenticationFailedUnclassified(m: string)
    requires m == VAULT_PREFIX + "Authentication failed"
    ensures Thrown(m) == Rejected(500, "Failed to get access token", None)
  {
    VaultPrefixChars();
    LacksChar(m, "expired", 1);
    LacksChar(m, "Invalid", 0);
    AuthenticationFailedLacksNotFound(m);
    LacksChar(m, "not active", 8);
    LacksChar(m, "scopes", 3);
    ThrownServerError(m);
  }

  lemma RateLimitUnclassified(m: string)
    requires m == VAULT_PREFIX + "Rate limit exceeded"
    ensures Thrown(m) == Rejected(500, "Failed to get access token", None)
  {
    VaultPrefixChars();
    LacksChar(m, "expired", 2);
    LacksChar(m, "Invalid", 0);
    LacksChar(m, "not found", 4);
    LacksChar(m, "not active", 8);
    LacksChar(m, "scopes", 3);
    ThrownServerError(m);
  }

  lemma ServerErrorUnclassified(m: string)
    requires m == VAULT_PREFIX + "Server error"
    ensures Thrown(m) == Rejected(500, "Failed to get access token", None)
  {
    VaultPrefixChars();
    LacksChar(m, "expired", 1);
    LacksChar(m, "Invalid", 0);
    LacksChar(m, "not found", 4);
    ServerErrorLacksNotActive(m);
    LacksChar(m, "scopes", 3);
    ThrownServerError(m);
  }

  lemma UnexpectedErrorUnclassified(m: string)
    requires m == VAULT_PREFIX + "An unexpected error occurred"
    ensures Thrown(m) == Rejected(500, "Failed to get access token", None)
  {
    VaultPrefixChars();
    UnexpectedErrorLacksExpired(m);
    LacksChar(m, "Invalid", 0);
    LacksChar(m, "not found", 4);
    LacksChar(m, "not active", 8);
    UnexpectedErrorLacksScopes(m);
    ThrownServerError(m);
  }

  lemma AuthenticationFailedLacksNotFound(m: string)
    requires m == VAULT_PREFIX + "Authentication failed"
    ensures !Includes(m, "not found")
  {
    VaultPrefixChars();
    var a := VAULT_PREFIX + "Authentication ";
    assert m == a + ['f'] + "ailed";
    NotIncludesAround(a, 'f', "ailed", "not found", 4, 0);
  }

  lemma ServerErrorLacksNotActive(m: string)
    requires m == VAULT_PREFIX + "Server error"
    ensures !Includes(m, "not active")
  {
    VaultPrefixChars();
    var a := VAULT_PREFIX + "Ser";
    assert "Server error" == "Ser" + ['v'] + "er error";
    assert m == a + ['v'] + "er error";
    NotIncludesAround(a, 'v', "er error", "not active", 8, 7);
  }

  lemma UnexpectedErrorLacksExpired(m: string)
    requires m == VAULT_PREFIX + "An unexpected error occurred"
    ensures !Includes(m, "expired")
  {
    var s := "An unexpected error occurred";
    VaultPrefixSplit(s);
    VaultTailLacksI(s);
    NotIncludesAround("Fa", 'i', "led to get access token: " + s, "expired", 3, 0);
  }

  lemma UnexpectedErrorSplit()
    ensures "An unexpected error occurred" == "An unex" + ['p'] + "ected error occurred"
  {
  }

  lemma UnexpectedErrorLacksScopes(m: string)
    requires m == VAULT_PREFIX + "An unexpected error occurred"
    ensures !Includes(m, "scopes")
  {
    VaultPrefixChars();
    var a := VAULT_PREFIX + "An unex";
    UnexpectedErrorSplit();
    assert m == a + ['p'] + "ected error occurred";
    NotIncludesAround(a, 'p', "ected error occurred", "scopes", 3, 0);
  }

  /** The end-to-end scenario: an active connection whose single authorized
      scope is requested, with a vault token ten minutes from expiry, is
      issued that token with 600 seconds left and the requested scopes. */
  lemma IssuanceScenario(c: Connection, p: D.Payload, token: JsValue, accessToken: JsValue, now: int)
    requires c.id == "C1" && c.tenantId == "T1" && c.sub == "U1" && c.provider == "github"
    requires c.status == Active && c.authorizedScopes == Some(["repo"])
    requires Truthy(token) && !VersionConflict(Get(p, "cver"), c.connectionVersion)
    requires D.WellFormedClaims(p, "T1", "C1") && !D.IsExpired(Get(p, "exp"), now)
    requires Get(p, "sub") == Str("U1") && Get(p, "scp") == Arr([Str("repo")])
    ensures CreateAccessToken([c], "C1", "T1", token, Some(p), DEFAULT_MIN_TTL_SECONDS,
                              Ok(Some(VaultToken(accessToken, Some((now + 600) * 1000)))), now)
            == Issued(accessToken, 600, [Str("repo")], Vendor(c.providerAccount))
  {
    var vt := VaultToken(accessToken, Some((now + 600) * 1000));
    ScenarioGranted(c, p, token, vt, now);
    GrantedResponse(c, vt, now);
    CreateFollowsDecide([c], "C1", "T1", token, Some(p), DEFAULT_MIN_TTL_SECONDS, Ok(Some(vt)), now);
  }

  /** The answer is the response to the deciding step. */
  lemma CreateFollowsDecide(store: ConnectionStore.Store, connectionId: string, tenantId: string,
                            token: JsValue, decoded: Option<D.Payload>, minTtlSeconds: int,
                            vault: Result<Option<VaultToken>, string>, now: int)
    ensures CreateAccessToken(store, connectionId, tenantId, token, decoded, minTtlSeconds, vault, now) ==
            Respond(Decide(store, connectionId, tenantId, token, decoded, vault, now), now)
  {
  }

  lemma GrantedResponse(c: Connection, vt: VaultToken, now: int)
    requires vt.expiresAtMs == Some((now + 600) * 1000)
    ensures Respond(Granted(c, vt, [Str("repo")]), now) == Issued(vt.accessToken, 600, [Str("repo")], Vendor(c.providerAccount))
  {
    TenMinutesLeft(now);
  }

  lemma TenMinutesLeft(now: int)
    ensures ExpiresIn(Some((now + 600) * 1000), now) == 600
  {
    assert (now + 600) * 1000 == now * 1000 + 600000;
  }

  lemma ScenarioGranted(c: Connection, p: D.Payload, token: JsValue, vt: VaultToken, now: int)
    requires c.id == "C1" && c.tenantId == "T1" && c.sub == "U1"
    requires c.status == Active && c.authorizedScopes == Some(["repo"])
    requires Truthy(token) && !VersionConflict(Get(p, "cver"), c.connectionVersion)
    requires D.WellFormedClaims(p, "T1", "C1") && !D.IsExpired(Get(p, "exp"), now)
    requires Get(p, "sub") == Str("U1") && Get(p, "scp") == Arr([Str("repo")])
    ensures Decide([c], "C1", "T1", token, Some(p), Ok(Some(vt)), now) == Granted(c, vt, [Str("repo")])
  {
    ValidTokenAccepted(p, token, now);
    SingletonLookup(c);
    assert D.ValidateScopes([Str("repo")], ["repo"]) == Ok([Str("repo")]) by {
      assert D.Authorized(Str("repo"), ["repo"]);
    }
    assert RequestedScopes(p) == [Str("repo")];
  }

  lemma ValidTokenAccepted(p: D.Payload, token: JsValue, now: int)
    requires Truthy(token) && D.WellFormedClaims(p, "T1", "C1") && !D.IsExpired(Get(p, "exp"), now)
    ensures D.ValidateDelegationToken(token, Some(p), "T1", "C1", now) == Ok(p)
  {
    D.ValidationSucceedsExactly(token, Some(p), "T1", "C1", now);
  }

  lemma SingletonLookup(c: Connection)
    ensures ConnectionStore.GetConnectionById([c], c.id) == Some(c)
  {
    assert ConnectionStore.Matches([c][0], ConnectionStore.ById(c.id));
  }

  /** The same connection authorized only for `repo:read` refuses a request
      for `repo` with 403, naming `repo`. */
  lemma ScopeViolationScenario(c: Connection, p: D.Payload, token: JsValue,
                               vault: Result<Option<VaultToken>, string>, now: int)
    requires c.id == "C1" && c.tenantId == "T1" && c.sub == "U1"
    requires c.status == Active && c.authorizedScopes == Some(["repo:read"])
    requires Truthy(token) && !VersionConflict(Get(p, "cver"), c.connectionVersion)
    requires D.WellFormedClaims(p, "T1", "C1") && !D.IsExpired(Get(p, "exp"), now)
    requires Get(p, "sub") == Str("U1") && Get(p, "scp") == Arr([Str("repo")])
    ensures CreateAccessToken([c], "C1", "T1", token, Some(p), DEFAULT_MIN_TTL_SECONDS, vault, now)
            == Rejected(403, D.ScopeViolationPrefix() + "repo", None)
  {
    ValidTokenAccepted(p, token, now);
    SingletonLookup(c);
    RepoNotAuthorized();
    assert RequestedScopes(p) == [Str("repo")];
    assert Decide([c], "C1", "T1", token, Some(p), vault, now) == ScopesRejected(D.ScopesNotAuthorized([Str("repo")]));
    CreateFollowsDecide([c], "C1", "T1", token, Some(p), DEFAULT_MIN_TTL_SECONDS, vault, now);
    ScopeViolationForbidden([Str("repo")]);
  }

  lemma RepoNotAuthorized()
    ensures D.ValidateScopes([Str("repo")], ["repo:read"]) == Err(D.ScopesNotAuthorized([Str("repo")]))
    ensures Join([Str("repo")], ", ") == "repo"
    ensures D.Message(D.ScopesNotAuthorized([Str("repo")])) == D.ScopeViolationPrefix() + "repo"
  {
    assert !D.Authorized(Str("repo"), ["repo:read"]) by {
      assert |"repo"| != |"repo:read"|;
    }
    assert [Str("repo")][1..] == [];
    assert D.Unauthorized([Str("repo")], ["repo:read"]) == [Str("repo")];
  }
}

=== FILE: js.dfy ===
/** The slice of JavaScript value semantics the service depends on:
    truthiness (`if (!x)`), property reads on plain objects, `String(v)`,
    `Array.prototype.join`, `String.prototype.includes` and an ASCII
    `toLowerCase`. Numbers are integers; NaN and fractions are not modelled. */
module Js {
  import opened Wrappers

  /** A JSON-like JavaScript value. */
  datatype JsValue =
    | Undefined
    | Null
    | Bool(b: bool)
    | Num(n: int)
    | Str(s: string)
    | Arr(items: seq<JsValue>)
    | Obj(fields: map<string, JsValue>)

  /** `!!v`: false exactly for undefined, null, false, 0 and "". */
  predicate Truthy(v: JsValue) {
    match v
    case Undefined => false
    case Null => false
    case Bool(b) => b
    case Num(n) => n != 0
    case Str(s) => s != ""
    case Arr(_) => true
    case Obj(_) => true
  }

  /** `o[key]` on a plain object: `undefined` when the key is absent. */
  function Get(o: map<string, JsValue>, key: string): JsValue {
    if key in o then o[key] else Undefined
  }

  /** Truthiness of an optional string field (`!!s`). */
  predicate Present(o: Option<string>) {
    o.Some? && o.value != ""
  }

  function DecimalDigit(d: nat): char
    requires d < 10
  {
    (('0' as int) + d) as char
  }

  /** Decimal rendering of a natural number, most significant digit first. */
  function NatToString(n: nat): (r: string)
    ensures |r| >= 1
    ensures forall i :: 0 <= i < |r| ==> '0' <= r[i] <= '9'
    decreases n
  {
    if n < 10 then [DecimalDigit(n)] else NatToString(n / 10) + [DecimalDigit(n % 10)]
  }

  function IntToString(n: int): string {
    if n < 0 then "-" + NatToString(-n) else NatToString(n)
  }

  /** `String(v)`, as used by template literals. Array elements that are
      null or undefined render as the empty string, as `join` does. */
  function ToStr(v: JsValue): string
    decreases v
  {
    match v
    case Undefined => "undefined"
    case Null => "null"
    case Bool(b) => if b then "true" else "false"
    case Num(n) => IntToString(n)
    case Str(s) => s
    case Arr(items) =>
      JoinStrings(seq(|items|, i requires 0 <= i < |items| =>
                        if items[i].Undefined? || items[i].Null? then "" else ToStr(items[i])), ",")
    case Obj(_) => "[object Object]"
  }

  /** `parts.join(sep)` on already-rendered parts. */
  function JoinStrings(parts: seq<string>, sep: string): string
    decreases |parts|
  {
    if |parts| == 0 then ""
    else if |parts| == 1 then parts[0]
    else JoinStrings(parts[..|parts| - 1], sep) + sep + parts[|parts| - 1]
  }

  /** `items.join(sep)` on an array of arbitrary values. */
  function Join(items: seq<JsValue>, sep: string): string {
    JoinStrings(seq(|items|, i requires 0 <= i < |items| =>
                      if items[i].Undefined? || items[i].Null? then "" else ToStr(items[i])), sep)
  }

  /** `t` occurs in `s` starting at index `i`. */
  predicate OccursAt(s: string, t: string, i: int) {
    0 <= i && i + |t| <= |s| && s[i..i + |t|] == t
  }

  /** `s.includes(t)`. */
  predicate Includes(s: string, t: string) {
    exists i :: 0 <= i <= |s| - |t| && OccursAt(s, t, i)
  }

  /** Some string of `group` occurs in `s`. */
  predicate AnyOccurs(s: string, group: seq<string>) {
    exists k :: 0 <= k < |group| && Includes(s, group[k])
  }

  lemma OccursOne(s: string, t: string)
    ensures AnyOccurs(s, [t]) <==> Includes(s, t)
  {
    if Includes(s, t) {
      assert [t][0] == t;
    }
  }

  lemma OccursTwo(s: string, t: string, u: string)
    ensures AnyOccurs(s, [t, u]) <==> Includes(s, t) || Includes(s, u)
  {
    if Includes(s, t) {
      assert [t, u][0] == t;
    } else if Includes(s, u) {
      assert [t, u][1] == u;
    }
  }

  /** The index of the first group, from `from` on, one of whose strings
      occurs in `s`, or `|groups|` when none does: the reference for a
      classifier that tries keyword groups in a fixed order and lets the first
      match win. */
  function FirstHit(s: string, groups: seq<seq<string>>, from: nat): (r: nat)
    requires from <= |groups|
    ensures from <= r <= |groups|
    ensures r < |groups| ==> AnyOccurs(s, groups[r])
    ensures forall j :: from <= j < r ==> !AnyOccurs(s, groups[j])
    decreases |groups| - from
  {
    if from == |groups| then from
    else if AnyOccurs(s, groups[from]) then from
    else FirstHit(s, groups, from + 1)
  }

  /** A prefix occurrence is an occurrence. */
  lemma IncludesPrefix(a: string, b: string)
    ensures Includes(a + b, a)
  {
    assert OccursAt(a + b, a, 0);
  }

  /** An occurrence inside the left part survives appending on the right. */
  lemma IncludesAppendRight(a: string, b: string, t: string)
    requires Includes(a, t)
    ensures Includes(a + b, t)
  {
    var i :| 0 <= i <= |a| - |t| && OccursAt(a, t, i);
    assert (a + b)[i..i + |t|] == a[i..i + |t|];
    assert OccursAt(a + b, t, i);
  }

  /** An occurrence inside the right part survives prepending on the left. */
  lemma IncludesPrependLeft(a: string, b: string, t: string)
    requires Includes(b, t)
    ensures Includes(a + b, t)
  {
    var i :| 0 <= i <= |b| - |t| && OccursAt(b, t, i);
    assert (a + b)[|a| + i..|a| + i + |t|] == b[i..i + |t|];
    assert OccursAt(a + b, t, |a| + i);
  }

  /** `t` cannot occur in `a + b` when one of its characters, `t[k]`, is absent
      from `a` and `b` is too short to hold the rest of `t` from that character on.
      With `b` empty this is plain character absence. */
  lemma NotIncludes(a: string, b: string, t: string, k: int)
    requires 0 <= k < |t|
    requires t[k] !in a
    requires |b| < |t| - k
    ensures !Includes(a + b, t)
  {
    forall i | 0 <= i <= |a + b| - |t|
      ensures !OccursAt(a + b, t, i)
    {
      assert i + k < |a|;
      assert (a + b)[i..i + |t|][k] == a[i + k];
    }
  }

  /** `t` cannot occur in `s` when one of its characters is absent from `s`. */
  lemma LacksChar(s: string, t: string, k: int)
    requires 0 <= k < |t| && t[k] !in s
    ensures !Includes(s, t)
  {
    assert s + "" == s;
    NotIncludes(s, "", t, k);
  }

  /** An occurrence of `t` in `a + b` lies inside `a`, inside `b`, or across
      the seam, where a proper suffix of `a` is a prefix of `t`; with all three
      excluded, `t` does not occur. */
  lemma NotIncludesConcat(a: string, b: string, t: string)
    requires !Includes(a, t) && !Includes(b, t)
    requires forall n :: 0 < n < |t| && n <= |a| ==> a[|a| - n..] != t[..n]
    ensures !Includes(a + b, t)
  {
    var s := a + b;
    forall i | 0 <= i <= |s| - |t|
      ensures !OccursAt(s, t, i)
    {
      if i + |t| <= |a| {
        assert s[i..i + |t|] == a[i..i + |t|];
        assert !OccursAt(a, t, i);
      } else if i >= |a| {
        assert s[i..i + |t|] == b[i - |a|..i - |a| + |t|];
        assert !OccursAt(b, t, i - |a|);
      } else {
        var n := |a| - i;
        assert 0 < n < |t| && n <= |a|;
        forall q | i <= q < |a|
          ensures s[q] == a[q]
        {
        }
        assert s[i..i + |t|][..n] == a[|a| - n..];
      }
    }
  }

  /** `t` cannot occur in `a + [c] + b` when `c` is the character `t[k]`, it
      occurs nowhere else, and the `k` characters before it differ from the
      `k` characters that precede `c` in `t` (at offset `d`). */
  lemma NotIncludesAround(a: string, c: char, b: string, t: string, k: int, d: int)
    requires 0 <= k < |t| && t[k] == c
    requires c !in a && c !in b
    requires k > |a| || (0 <= d < k && a[|a| - k + d] != t[d])
    ensures !Includes(a + [c] + b, t)
  {
    var s := a + [c] + b;
    forall i | 0 <= i <= |s| - |t|
      ensures !OccursAt(s, t, i)
    {
      if i + k == |a| {
        assert s[i..i + |t|][d] == a[|a| - k + d];
      } else {
        assert s[i..i + |t|][k] == s[i + k];
        assert i + k < |a| ==> s[i + k] == a[i + k];
        assert i + k > |a| ==> s[i + k] == b[i + k - |a| - 1];
      }
    }
  }

  /** ASCII `toLowerCase` of one character. */
  function LowerChar(c: char): char {
    if 'A' <= c <= 'Z' then ((c as int) + 32) as char else c
  }

  predicate IsLowerChar(c: char) {
    !('A' <= c <= 'Z')
  }

  /** ASCII `s.toLowerCase()`. */
  function ToLower(s: string): (r: string)
    ensures |r| == |s|
    ensures forall i :: 0 <= i < |s| ==> r[i] == LowerChar(s[i])
  {
    seq(|s|, i requires 0 <= i < |s| => LowerChar(s[i]))
  }
}

=== FILE: middleware.dfy ===
/** The request gates of src/middleware/auth.js: the mTLS client-certificate
    check in front of the service API and the signature check in front of the
    Nango webhook. The environment variables, the peer certificate and the
    SDK's signature verdict are inputs. */
module Middleware {
  import opened Wrappers
  import opened Js
  import Nango

  /** The two environment variables the gates read; `None` is unset. */
  datatype Env = Env(nodeEnv: Option<string>, skipWebhookVerification: Option<string>)

  predicate Development(env: Env) {
    env.nodeEnv == Some("development")
  }

  /** A peer certificate: its subject, if any, with the subject's common name. */
  datatype Subject = Subject(commonName: Option<string>)
  datatype Certificate = Certificate(subject: Option<Subject>)

  const EXPECTED_CN: string := "wuwei-api"

  /** What a gate does with the request: pass it on (for mTLS, with the
      certificate attached when one was inspected), or answer it. */
  datatype MtlsDecision = Admit(clientCert: Option<Certificate>) | Deny(status: int, error: string)

  /** `requireMTLSAuth`. `peer` is the outcome of reading the peer
      certificate: `Err` when reading it throws, `Ok(None)` when there is
      none. */
  function RequireMTLSAuth(env: Env, peer: Result<Option<Certificate>, string>): (d: MtlsDecision)
    ensures Development(env) ==> d == Admit(None)
    ensures !Development(env) ==>
              (d.Admit? <==> peer.Ok? && peer.value.Some? && peer.value.value.subject.Some? &&
                             peer.value.value.subject.value.commonName == Some(EXPECTED_CN))
    ensures !Development(env) && d.Admit? ==> d.clientCert == peer.value
    ensures d.Deny? ==> (d.status == 401 <==> peer.Ok?) && (d.status == 500 <==> peer.Err?)
    ensures d.Deny? && peer.Ok? ==>
              d.error == (if peer.value.None? || peer.value.value.subject.None? then "mTLS certificate required"
                          else "Invalid mTLS certificate")
  {
    if Development(env) then Admit(None)
    else
      match peer
      case Err(_) => Deny(500, "mTLS verification failed")
      case Ok(cert) =>
        if cert.None? || cert.value.subject.None? then Deny(401, "mTLS certificate required")
        else if cert.value.subject.value.commonName != Some(EXPECTED_CN) then Deny(401, "Invalid mTLS certificate")
        else Admit(cert)
  }

  datatype WebhookDecision = Verified | Reject(status: int, error: string)

  /** The development skip needs both variables. */
  predicate SkipVerification(env: Env) {
    Development(env) && env.skipWebhookVerification == Some("true")
  }

  /** `verifyNangoWebhook`. The signature header is required before anything
      else; the development skip then admits without asking the SDK; otherwise
      the SDK's verdict decides (`sdk` is what the SDK check returned or
      threw). */
  function VerifyNangoWebhook(env: Env, signature: Option<string>, sdk: Result<bool, string>): (d: WebhookDecision)
    ensures !Present(signature) ==> d == Reject(401, "Missing X-Nango-Signature header")
    ensures d == Verified <==> Present(signature) && (SkipVerification(env) || sdk == Ok(true))
    ensures d.Reject? && Present(signature) ==> d == Reject(401, "Invalid Nango webhook signature")
  {
    if !Present(signature) then Reject(401, "Missing X-Nango-Signature header")
    else if SkipVerification(env) then Verified
    else if !Nango.VerifyWebhookSignature(sdk) then Reject(401, "Invalid Nango webhook signature")
    else Verified
  }

  /** The skip never excuses a missing signature, and it needs both flags:
      development mode alone, or the flag outside development, still asks the
      SDK. */
  lemma SkipNeedsSignatureAndBothFlags(env: Env, signature: Option<string>, sdk: Result<bool, string>)
    ensures SkipVerification(env) && !Present(signature) ==> VerifyNangoWebhook(env, signature, sdk).Reject?
    ensures Present(signature) && !SkipVerification(env) ==>
              (VerifyNangoWebhook(env, signature, sdk) == Verified <==> sdk == Ok(true))
    ensures !SkipVerification(Env(Some("development"), None)) &&
            !SkipVerification(Env(Some("production"), Some("true")))
  {
  }

  /** The webhook gate never answers 500: the signature wrapper turns an SDK
      exception into an invalid signature, so every refusal is a 401. */
  lemma WebhookGateNeverServerError(env: Env, signature: Option<string>, sdk: Result<bool, string>)
    ensures VerifyNangoWebhook(env, signature, sdk).Reject? ==> VerifyNangoWebhook(env, signature, sdk).status == 401
    ensures sdk.Err? && !SkipVerification(env) ==> VerifyNangoWebhook(env, signature, sdk).Reject?
  {
  }
}

=== FILE: nango.dfy ===
/** The token-vault client's own decisions (src/services/nango-service.js).
    Each SDK call is replaced by its outcome, given as a parameter: `Ok` with
    what the SDK resolved to, or `Err` with the message of what it threw. */
module Nango {
  import opened Wrappers
  import opened Js

  /** The categories `handleNangoError` sorts SDK failures into. */
  datatype ErrorType = NotFound | AuthenticationError | BadRequest | RateLimited | ServerError | UnknownError

  /** `errorInfo.type`: an upper-case, underscore-separated name (distinct per
      category, see `UserMessagesDistinct`). */
  function TypeName(t: ErrorType): (n: string)
    ensures |n| > 0
    ensures forall i :: 0 <= i < |n| ==> 'A' <= n[i] <= 'Z' || n[i] == '_'
  {
    match t
    case NotFound => "NOT_FOUND"
    case AuthenticationError => "AUTHENTICATION_ERROR"
    case BadRequest => "BAD_REQUEST"
    case RateLimited => "RATE_LIMITED"
    case ServerError => "SERVER_ERROR"
    case UnknownError => "UNKNOWN_ERROR"
  }

  /** `errorInfo.userMessage`: the only part of an SDK failure that leaves the
      client. No message holds a digit, so none names a status code of its own. */
  function UserMessage(t: ErrorType): (m: string)
    ensures |m| > 0
    ensures forall i :: 0 <= i < |m| ==> !('0' <= m[i] <= '9')
  {
    match t
    case NotFound => "Resource not found"
    case AuthenticationError => "Authentication failed"
    case BadRequest => "Invalid request"
    case RateLimited => "Rate limit exceeded"
    case ServerError => "Server error"
    case UnknownError => "An unexpected error occurred"
  }

  /** `handleNangoError`: the first status code found in the message decides. */
  function Classify(message: string): (t: ErrorType)
    ensures t == NotFound <==> Includes(message, "404")
    ensures t == UnknownError <==>
              !Includes(message, "404") && !Includes(message, "401") && !Includes(message, "403") &&
              !Includes(message, "400") && !Includes(message, "429") && !Includes(message, "500")
    ensures t == AuthenticationError <==>
              !Includes(message, "404") && (Includes(message, "401") || Includes(message, "403"))
    ensures t == BadRequest <==>
              !Includes(message, "404") && !Includes(message, "401") && !Includes(message, "403") &&
              Includes(message, "400")
    ensures t == RateLimited <==>
              !Includes(message, "404") && !Includes(message, "401") && !Includes(message, "403") &&
              !Includes(message, "400") && Includes(message, "429")
    ensures t == ServerError <==>
              !Includes(message, "404") && !Includes(message, "401") && !Includes(message, "403") &&
              !Includes(message, "400") && !Includes(message, "429") && Includes(message, "500")
  {
    if Includes(message, "404") then NotFound
    else if Includes(message, "401") || Includes(message, "403") then AuthenticationError
    else if Includes(message, "400") then BadRequest
    else if Includes(message, "429") then RateLimited
    else if Includes(message, "500") then ServerError
    else UnknownError
  }

  /** `handleNangoError` as a table, in the order it is consulted: the
      status-code groups and the category each selects; UNKNOWN_ERROR when no
      code occurs. */
  const CODE_GROUPS: seq<seq<string>> := [["404"], ["401", "403"], ["400"], ["429"], ["500"]]
  const CODE_CATEGORIES: seq<ErrorType> := [NotFound, AuthenticationError, BadRequest, RateLimited, ServerError]

  /** The classifier agrees with its table on every message: the category is
      the one of the first code group that occurs, or UNKNOWN_ERROR. */
  lemma ClassifyByTable(message: string)
    ensures var i := FirstHit(message, CODE_GROUPS, 0);
            Classify(message) == (if i < |CODE_CATEGORIES| then CODE_CATEGORIES[i] else UnknownError)
  {
    var g := CODE_GROUPS;
    assert g[0] == ["404"] && g[1] == ["401", "403"] && g[2] == ["400"] && g[3] == ["429"] && g[4] == ["500"];
    OccursOne(message, "404");
    OccursTwo(message, "401", "403");
    OccursOne(message, "400");
    OccursOne(message, "429");
    OccursOne(message, "500");
  }

  /** The message a wrapper throws after classifying: the operation's prefix
      and the category's user message; the SDK's own text is dropped. */
  function Rethrown(prefix: string, sdkMessage: string): (r: string)
    ensures |r| > |prefix| && r[..|prefix|] == prefix
    ensures forall i :: |prefix| <= i < |r| ==> !('0' <= r[i] <= '9')
  {
    var u := UserMessage(Classify(sdkMessage));
    assert forall i :: |prefix| <= i < |prefix + u| ==> (prefix + u)[i] == u[i - |prefix|];
    prefix + u
  }

  /** `getConnection`: a NOT_FOUND failure reads as "no connection" (null);
      every other failure is rethrown. */
  function GetConnection<T>(sdk: Result<T, string>): (r: Result<Option<T>, string>)
    ensures sdk.Ok? ==> r == Ok(Some(sdk.value))
    ensures sdk.Err? ==> (r == Ok(None) <==> Classify(sdk.error) == NotFound)
    ensures r.Err? ==> sdk.Err? && Classify(sdk.error) != NotFound &&
                       r.error == Rethrown("Failed to get connection: ", sdk.error)
  {
    match sdk
    case Ok(c) => Ok(Some(c))
    case Err(m) =>
      if Classify(m) == NotFound then Ok(None)
      else Err(Rethrown("Failed to get connection: ", m))
  }

  /** `deleteConnection`: deleted exactly when the SDK response status is 200. */
  function DeleteConnection(sdk: Result<int, string>): (r: Result<bool, string>)
    ensures sdk.Ok? ==> r.Ok? && (r.value <==> sdk.value == 200)
    ensures sdk.Err? ==> r == Err(Rethrown("Failed to delete connection: ", sdk.error))
  {
    match sdk
    case Ok(status) => Ok(status == 200)
    case Err(m) => Err(Rethrown("Failed to delete connection: ", m))
  }

  /** `getAccessToken`: whatever the SDK resolved to, or a rethrown failure. */
  function GetAccessToken<T>(sdk: Result<T, string>): (r: Result<T, string>)
    ensures sdk.Ok? ==> r == sdk
    ensures sdk.Err? ==> r == Err(Rethrown("Failed to get access token: ", sdk.error))
  {
    match sdk
    case Ok(t) => Ok(t)
    case Err(m) => Err(Rethrown("Failed to get access token: ", m))
  }

  /** `verifyWebhookSignature`: a throwing SDK check counts as an invalid signature. */
  function VerifyWebhookSignature(sdk: Result<bool, string>): (valid: bool)
    ensures valid <==> sdk == Ok(true)
  {
    match sdk
    case Ok(v) => v
    case Err(_) => false
  }

  /** `typeof v === 'object'` (true for null and arrays too). */
  predicate IsObjectType(v: JsValue) {
    v.Null? || v.Arr? || v.Obj?
  }

  /** `v[key]` for any value: only plain objects carry the webhook's fields. */
  function Prop(v: JsValue, key: string): JsValue {
    if v.Obj? then Get(v.fields, key) else Undefined
  }

  /** `validateWebhookPayload`: an object with a type, and a connection id
      unless the type is `forward`. */
  function ValidateWebhookPayload(payload: JsValue): (r: Result<bool, string>)
    ensures r.Ok? <==> payload.Obj? && Truthy(Prop(payload, "type")) &&
                       (Prop(payload, "type") == Str("forward") || Truthy(Prop(payload, "connectionId")))
    ensures r.Ok? ==> r.value
  {
    if !Truthy(payload) || !IsObjectType(payload) then Err("Invalid webhook payload: must be an object")
    else if !Truthy(Prop(payload, "type")) then Err("Missing required webhook field: type")
    else if Prop(payload, "type") != Str("forward") && !Truthy(Prop(payload, "connectionId")) then
      Err("Missing required webhook field: connectionId")
    else Ok(true)
  }

  // ---------------------------------------------------------------------
  // Properties

  /** Each category has its own user message, so the message identifies it. */
  lemma UserMessagesDistinct(a: ErrorType, b: ErrorType)
    ensures UserMessage(a) == UserMessage(b) <==> a == b
    ensures TypeName(a) == TypeName(b) <==> a == b
  {
    if a != b {
      assert UserMessage(a)[0] != UserMessage(b)[0] || |UserMessage(a)| != |UserMessage(b)|;
      assert TypeName(a)[0] != TypeName(b)[0] || |TypeName(a)| != |TypeName(b)|;
    }
  }

  /** A rethrown message keeps no status code: with a digit-free prefix,
      classifying it again finds nothing and reads UNKNOWN_ERROR, whatever the
      SDK's failure was. */
  lemma RethrownForgetsCode(prefix: string, sdkMessage: string)
    requires forall i :: 0 <= i < |prefix| ==> !('0' <= prefix[i] <= '9')
    ensures Classify(Rethrown(prefix, sdkMessage)) == UnknownError
  {
    var r := Rethrown(prefix, sdkMessage);
    assert forall i :: 0 <= i < |prefix| ==> r[i] == r[..|prefix|][i];
    assert '4' !in r && '5' !in r;
    LacksChar(r, "404", 0); LacksChar(r, "401", 0); LacksChar(r, "403", 0);
    LacksChar(r, "400", 0); LacksChar(r, "429", 0); LacksChar(r, "500", 0);
  }

  /** Earlier codes win: a message naming both 404 and 500 is NOT_FOUND, and
      one naming 403 and 400 is an authentication failure. */
  lemma FirstCodeWins()
    ensures Classify("404 then 500") == NotFound
    ensures Classify("400 or 403") == AuthenticationError
    ensures Classify("timeout") == UnknownError
  {
    assert OccursAt("404 then 500", "404", 0);
    assert OccursAt("400 or 403", "403", 7);
    forall i | 0 <= i <= 7
      ensures !OccursAt("400 or 403", "404", i)
    {
      assert "400 or 403"[i] != '4' || "400 or 403"[i + 2] != '4';
      assert "400 or 403"[i..i + 3][0] == "400 or 403"[i];
    }
    NotIncludes("timeout", "", "404", 0);
    NotIncludes("timeout", "", "401", 0);
    NotIncludes("timeout", "", "403", 0);
    NotIncludes("timeout", "", "400", 0);
    NotIncludes("timeout", "", "429", 0);
    NotIncludes("timeout", "", "500", 0);
    assert "timeout" + "" == "timeout";
  }

  /** A `forward` payload needs no connection id; any other type does. */
  lemma ForwardNeedsNoConnectionId(fields: map<string, JsValue>)
    requires Get(fields, "type") == Str("forward")
    ensures ValidateWebhookPayload(Obj(fields)) == Ok(true)
    ensures ValidateWebhookPayload(Obj(fields["type" := Str("auth")] - {"connectionId"})).Err?
  {
    var g := fields["type" := Str("auth")] - {"connectionId"};
    assert Get(g, "connectionId") == Undefined;
    assert Get(g, "type") == Str("auth");
  }
}

=== FILE: store.dfy ===
/** The connection store (src/services/connections.js) over an in-memory
    sequence of rows in insertion order. A Sequelize `where` object is a
    conjunction of column equalities. `findOne` without an ordering may
    return any matching row; the model fixes the first matching row in store
    order, a choice that only matters when several rows match (never for a
    lookup by primary key, see `FirstMatchUniqueById`). `findAll` ordered by
    `createdAt DESC` returns the matching rows newest first; the database
    leaves the order of rows with equal `createdAt` open, and the model puts
    the earlier-stored row first. Transactions are not modelled. */
module ConnectionStore {
  import opened Wrappers
  import opened ConnectionModel

  type Store = seq<Connection>

  /** A `where` object over the columns the service filters on; an absent key
      does not constrain. */
  datatype Where = Where(id: Option<string>, tenantId: Option<string>,
                         sub: Option<string>, provider: Option<string>)

  function ById(id: string): Where {
    Where(Some(id), None, None, None)
  }

  predicate Matches(c: Connection, w: Where) {
    && (w.id.None? || c.id == w.id.value)
    && (w.tenantId.None? || c.tenantId == w.tenantId.value)
    && (w.sub.None? || c.sub == w.sub.value)
    && (w.provider.None? || c.provider == w.provider.value)
  }

  /** `{ ...base, ...filters }`: a key present in `filters` replaces the base's. */
  function Merge(base: Where, filters: Where): Where {
    Where(if filters.id.Some? then filters.id else base.id,
          if filters.tenantId.Some? then filters.tenantId else base.tenantId,
          if filters.sub.Some? then filters.sub else base.sub,
          if filters.provider.Some? then filters.provider else base.provider)
  }

  /** A filter key overrides the base key: the merged query matches exactly the
      rows that satisfy the filters and the base keys the filters leave open. */
  lemma MergeOverrides(c: Connection, base: Where, filters: Where)
    ensures Matches(c, Merge(base, filters)) <==>
      && Matches(c, filters)
      && Matches(c, Where(if filters.id.Some? then None else base.id,
                          if filters.tenantId.Some? then None else base.tenantId,
                          if filters.sub.Some? then None else base.sub,
                          if filters.provider.Some? then None else base.provider))
  {
  }

  /** The `updateData` object the service writes with. */
  datatype Patch = Patch(status: Option<Status>, connectionId: Option<string>)

  /** `instance.update(updateData)` at time `now`: the patched columns take
      their new values, and `updatedAt` is stamped exactly when one of them
      actually changed. */
  function ApplyPatch(c: Connection, p: Patch, now: int): (r: Connection)
    ensures r.status == p.status.GetOr(c.status)
    ensures r.connectionId == (if p.connectionId.Some? then p.connectionId else c.connectionId)
    ensures r.updatedAt == (if r.status == c.status && r.connectionId == c.connectionId then c.updatedAt else now)
    ensures r.(status := c.status, connectionId := c.connectionId, updatedAt := c.updatedAt) == c
  {
    Saved(c, c.(status := p.status.GetOr(c.status),
                connectionId := if p.connectionId.Some? then p.connectionId else c.connectionId), now)
  }

  /** Index of the first row at or after `from` that matches. */
  function FirstMatchFrom(s: Store, w: Where, from: nat): (r: Option<nat>)
    requires from <= |s|
    ensures r.Some? ==> from <= r.value < |s| && Matches(s[r.value], w)
    ensures r.Some? ==> forall j :: from <= j < r.value ==> !Matches(s[j], w)
    ensures r.None? ==> forall j :: from <= j < |s| ==> !Matches(s[j], w)
    decreases |s| - from
  {
    if from == |s| then None
    else if Matches(s[from], w) then Some(from)
    else FirstMatchFrom(s, w, from + 1)
  }

  function FirstMatch(s: Store, w: Where): (r: Option<nat>)
    ensures r.Some? ==> r.value < |s| && Matches(s[r.value], w)
    ensures r.Some? ==> forall j :: 0 <= j < r.value ==> !Matches(s[j], w)
    ensures r.None? ==> forall j :: 0 <= j < |s| ==> !Matches(s[j], w)
  {
    FirstMatchFrom(s, w, 0)
  }

  /** `createConnection`: exactly one row is appended, carrying the given
      columns and the defaults, and it is returned. */
  function CreateConnection(store: Store, id: string, tenantId: string, sub: string, provider: string,
                            authMode: Option<string>, authorizedScopes: Option<seq<string>>,
                            now: int): (r: (Store, Connection))
    ensures r.0 == store + [r.1]
    ensures r.1.id == id && r.1.tenantId == tenantId && r.1.sub == sub && r.1.provider == provider
    ensures r.1.authMode == authMode && r.1.authorizedScopes == authorizedScopes
    ensures r.1.status == Pending && r.1.connectionVersion == 1 && r.1.createdAt == now
  {
    var c := NewConnection(id, tenantId, sub, provider, authMode, authorizedScopes, now);
    (store + [c], c)
  }

  /** `updateConnection`: null and no change when nothing matches `where`;
      otherwise the first matching row receives the patch, every other row is
      untouched, and the updated row is returned. */
  function UpdateConnection(store: Store, w: Where, patch: Patch, now: int): (r: (Store, Option<Connection>))
    ensures |r.0| == |store|
    ensures r.1.None? <==> forall j :: 0 <= j < |store| ==> !Matches(store[j], w)
    ensures r.1.None? ==> r.0 == store
    ensures r.1.Some? ==>
      exists i :: 0 <= i < |store| && Matches(store[i], w)
        && (forall j :: 0 <= j < i ==> !Matches(store[j], w))
        && r.1.value == ApplyPatch(store[i], patch, now)
        && r.0 == store[i := r.1.value]
  {
    match FirstMatch(store, w)
    case None => (store, None)
    case Some(i) =>
      var updated := ApplyPatch(store[i], patch, now);
      (store[i := updated], Some(updated))
  }

  /** `getConnectionById`. */
  function GetConnectionById(store: Store, id: string): (r: Option<Connection>)
    ensures r.None? <==> forall j :: 0 <= j < |store| ==> store[j].id != id
    ensures r.Some? ==> r.value in store && r.value.id == id
  {
    match FirstMatch(store, ById(id))
    case None => None
    case Some(i) => Some(store[i])
  }

  /** `updateConnectionStatus`: the first row with that id gets the new status,
      stamped with `now` when the status changed, and nothing else changes; no
      row, no change. */
  function UpdateConnectionStatus(store: Store, id: string, status: Status, now: int): (r: (Store, Option<Connection>))
    ensures r.1.None? <==> forall j :: 0 <= j < |store| ==> store[j].id != id
    ensures r.1.None? ==> r.0 == store
    ensures r.1.Some? ==>
      exists i :: 0 <= i < |store| && store[i].id == id
        && (forall j :: 0 <= j < i ==> store[j].id != id)
        && r.1.value.status == status
        && r.1.value.updatedAt == (if store[i].status == status then store[i].updatedAt else now)
        && r.1.value.(status := store[i].status, updatedAt := store[i].updatedAt) == store[i]
        && r.0 == store[i := r.1.value]
  {
    UpdateConnection(store, ById(id), Patch(Some(status), None), now)
  }

  /** The rows matching `w`, in store order. */
  function Filter(s: Store, w: Where): (r: Store)
    ensures forall c :: multiset(r)[c] == if Matches(c, w) then multiset(s)[c] else 0
  {
    if |s| == 0 then []
    else
      assert s == [s[0]] + s[1..];
      (if Matches(s[0], w) then [s[0]] else []) + Filter(s[1..], w)
  }

  predicate NewestFirst(r: Store) {
    forall i, j :: 0 <= i < j < |r| ==> r[i].createdAt >= r[j].createdAt
  }

  /** Insert a row into a newest-first list. */
  function Insert(c: Connection, r: Store): (res: Store)
    requires NewestFirst(r)
    ensures multiset(res) == multiset(r) + multiset{c}
    ensures NewestFirst(res)
    ensures |res| > 0 && (res[0] == c || (|r| > 0 && res[0] == r[0]))
  {
    if |r| == 0 || c.createdAt >= r[0].createdAt then
      [c] + r
    else
      var rest := Insert(c, r[1..]);
      InsertBehindHead(c, r, rest);
      [r[0]] + rest
  }

  /** Putting the old head in front of the insertion into the tail keeps
      the list newest first. */
  lemma InsertBehindHead(c: Connection, r: Store, rest: Store)
    requires NewestFirst(r) && |r| > 0 && c.createdAt < r[0].createdAt
    requires NewestFirst(rest) && multiset(rest) == multiset(r[1..]) + multiset{c}
    ensures NewestFirst([r[0]] + rest)
    ensures multiset([r[0]] + rest) == multiset(r) + multiset{c}
  {
    assert r == [r[0]] + r[1..];
    var res := [r[0]] + rest;
    forall k | 0 <= k < |rest|
      ensures rest[k].createdAt <= r[0].createdAt
    {
      assert rest[k] in multiset(rest);
      if rest[k] != c {
        assert rest[k] in multiset(r[1..]);
        var m :| 0 <= m < |r[1..]| && r[1..][m] == rest[k];
        assert r[m + 1] == rest[k];
      }
    }
    forall i, j | 0 <= i < j < |res|
      ensures res[i].createdAt >= res[j].createdAt
    {
      if i > 0 {
        assert res[i] == rest[i - 1] && res[j] == rest[j - 1];
      } else {
        assert res[j] == rest[j - 1];
      }
    }
  }

  /** Order rows by `createdAt`, newest first. */
  function SortNewestFirst(s: Store): (r: Store)
    ensures multiset(r) == multiset(s)
    ensures NewestFirst(r)
  {
    if |s| == 0 then []
    else
      assert s == [s[0]] + s[1..];
      Insert(s[0], SortNewestFirst(s[1..]))
  }

  /** `findAll({ where: w, order: [['createdAt', 'DESC']] })`: exactly the
      matching rows, each as often as it is stored, newest first. */
  function FindAllNewestFirst(store: Store, w: Where): (r: Store)
    ensures forall c :: multiset(r)[c] == if Matches(c, w) then multiset(store)[c] else 0
    ensures NewestFirst(r)
  {
    SortNewestFirst(Filter(store, w))
  }

  /** A row is in a query's result exactly when it is stored and matches. */
  lemma FoundExactly(store: Store, w: Where, d: Connection)
    ensures d in FindAllNewestFirst(store, w) <==> d in store && Matches(d, w)
  {
    var rows := FindAllNewestFirst(store, w);
    assert d in rows <==> multiset(rows)[d] > 0;
    assert d in store <==> multiset(store)[d] > 0;
  }

  /** The head of a non-empty result is at least as new as every matching row. */
  lemma HeadIsNewest(store: Store, w: Where, d: Connection)
    requires |FindAllNewestFirst(store, w)| > 0
    requires d in store && Matches(d, w)
    ensures d.createdAt <= FindAllNewestFirst(store, w)[0].createdAt
  {
    var rows := FindAllNewestFirst(store, w);
    FoundExactly(store, w, d);
    var k :| 0 <= k < |rows| && rows[k] == d;
  }

  /** `getConnectionsByTenant`: `{ tenantId, ...filters }`. */
  function GetConnectionsByTenant(store: Store, tenantId: string, filters: Where): (r: Store)
    ensures forall c :: multiset(r)[c] ==
                        if Matches(c, Merge(Where(None, Some(tenantId), None, None), filters)) then multiset(store)[c] else 0
    ensures NewestFirst(r)
  {
    FindAllNewestFirst(store, Merge(Where(None, Some(tenantId), None, None), filters))
  }

  /** `getConnectionsByUser`: `{ sub, ...filters }`. */
  function GetConnectionsByUser(store: Store, sub: string, filters: Where): (r: Store)
    ensures forall c :: multiset(r)[c] ==
                        if Matches(c, Merge(Where(None, None, Some(sub), None), filters)) then multiset(store)[c] else 0
    ensures NewestFirst(r)
  {
    FindAllNewestFirst(store, Merge(Where(None, None, Some(sub), None), filters))
  }

  /** No two rows share an id (the primary key). */
  predicate UniqueIds(s: Store) {
    forall i, j :: 0 <= i < j < |s| ==> s[i].id != s[j].id
  }

  /** Creating with a fresh id and updating both keep ids unique. */
  lemma UniqueIdsPreserved(store: Store, id: string, tenantId: string, sub: string, provider: string,
                           authMode: Option<string>, scopes: Option<seq<string>>, now: int,
                           w: Where, patch: Patch, later: int)
    requires UniqueIds(store)
    requires forall j :: 0 <= j < |store| ==> store[j].id != id
    ensures UniqueIds(CreateConnection(store, id, tenantId, sub, provider, authMode, scopes, now).0)
    ensures UniqueIds(UpdateConnection(store, w, patch, later).0)
  {
    var after := UpdateConnection(store, w, patch, later);
    if after.1.Some? {
      var i :| 0 <= i < |store| && after.1.value == ApplyPatch(store[i], patch, later) && after.0 == store[i := after.1.value];
      assert forall j :: 0 <= j < |store| ==> after.0[j].id == store[j].id;
    }
  }

  /** With unique ids a lookup by id matches at most one row, so `findOne`'s
      freedom to pick among matches never shows there: the row found is the
      only row with that id. */
  lemma FirstMatchUniqueById(store: Store, id: string)
    requires UniqueIds(store)
    ensures FirstMatch(store, ById(id)).Some? ==>
              forall j :: 0 <= j < |store| && store[j].id == id ==> j == FirstMatch(store, ById(id)).value
  {
    var r := FirstMatch(store, ById(id));
    if r.Some? {
      assert store[r.value].id == id;
    }
  }
}

=== FILE: utils.dfy ===
/** The connection helpers of src/utils/connections.js: scope lower-casing,
    the public projection of a row, and connection-id generation over the
    Base58 encoder (which lives in module Base58). */
module ConnectionUtils {
  import opened Wrappers
  import opened Js
  import opened ConnectionModel
  import Base58
  import D = DelegationToken

  // ---------------------------------------------------------------------
  // normalizeScopes

  /** `scopes.map(scope => scope.toLowerCase())`, ASCII case only. */
  function NormalizeScopes(scopes: seq<string>): (r: seq<string>)
    ensures |r| == |scopes|
    ensures forall i :: 0 <= i < |r| ==> |r[i]| == |scopes[i]|
    ensures forall i, j :: 0 <= i < |r| && 0 <= j < |r[i]| ==>
              IsLowerChar(r[i][j]) && (IsLowerChar(scopes[i][j]) ==> r[i][j] == scopes[i][j])
  {
    seq(|scopes|, i requires 0 <= i < |scopes| => ToLower(scopes[i]))
  }

  /** Two scope names agree up to ASCII case. */
  predicate SameUpToCase(a: string, b: string) {
    |a| == |b| && forall j :: 0 <= j < |a| ==> LowerChar(a[j]) == LowerChar(b[j])
  }

  lemma LowerCharIdempotent(c: char)
    ensures LowerChar(LowerChar(c)) == LowerChar(c)
  {
  }

  /** Normalising twice is normalising once. */
  lemma NormalizeIdempotent(scopes: seq<string>)
    ensures NormalizeScopes(NormalizeScopes(scopes)) == NormalizeScopes(scopes)
  {
    var once := NormalizeScopes(scopes);
    var twice := NormalizeScopes(once);
    forall i | 0 <= i < |scopes|
      ensures twice[i] == once[i]
    {
      forall j | 0 <= j < |once[i]|
        ensures twice[i][j] == once[i][j]
      {
        LowerCharIdempotent(scopes[i][j]);
      }
    }
  }

  /** Two lists normalise to the same list exactly when they agree element
      by element up to case: order and multiplicity are kept. */
  lemma NormalizeEqualIffSameUpToCase(a: seq<string>, b: seq<string>)
    ensures NormalizeScopes(a) == NormalizeScopes(b) <==>
              |a| == |b| && forall i :: 0 <= i < |a| ==> SameUpToCase(a[i], b[i])
  {
    var na, nb := NormalizeScopes(a), NormalizeScopes(b);
    if na == nb {
      forall i | 0 <= i < |a|
        ensures SameUpToCase(a[i], b[i])
      {
        assert na[i] == nb[i];
        forall j | 0 <= j < |a[i]|
          ensures LowerChar(a[i][j]) == LowerChar(b[i][j])
        {
          assert na[i][j] == nb[i][j];
        }
      }
    }
    if |a| == |b| && forall i :: 0 <= i < |a| ==> SameUpToCase(a[i], b[i]) {
      forall i | 0 <= i < |a|
        ensures na[i] == nb[i]
      {
        assert SameUpToCase(a[i], b[i]);
      }
    }
  }

  /** Scopes are lower-cased when a connection is created, but the delegation
      check compares exactly: a requested scope with an upper-case letter is
      never authorized against scopes stored at creation. */
  lemma UppercaseNeverAuthorized(requested: string, stored: seq<string>, k: nat)
    requires k < |requested| && 'A' <= requested[k] <= 'Z'
    ensures !D.Authorized(Str(requested), NormalizeScopes(stored))
  {
    var n := NormalizeScopes(stored);
    forall i | 0 <= i < |n|
      ensures n[i] != requested
    {
      if |n[i]| == |requested| {
        assert IsLowerChar(n[i][k]) && n[i][k] != requested[k];
      }
    }
  }

  // ---------------------------------------------------------------------
  // filterConnectionData

  /** The non-confidential view of a row: ten fields, the stored scopes
      renamed to `scopes`. */
  datatype PublicConnection = PublicConnection(
    id: string,
    tenantId: string,
    sub: string,
    provider: string,
    status: Status,
    scopes: Option<seq<string>>,
    authMode: Option<string>,
    lastAccessedAt: Option<int>,
    createdAt: int,
    updatedAt: int)

  /** `filterConnectionData`: null for null, otherwise the public view. */
  function FilterConnectionData(connection: Option<Connection>): (r: Option<PublicConnection>)
    ensures r.None? <==> connection.None?
  {
    match connection
    case None => None
    case Some(c) =>
      Some(PublicConnection(c.id, c.tenantId, c.sub, c.provider, c.status, c.authorizedScopes,
                            c.authMode, c.lastAccessedAt, c.createdAt, c.updatedAt))
  }

  /** A public view together with the four confidential columns rebuilds a row. */
  function Restore(p: PublicConnection, connectionId: Option<string>,
                   providerAccount: Option<map<string, JsValue>>,
                   connectionVersion: int, revokedAt: Option<string>): Connection
  {
    Connection(p.id, connectionId, p.tenantId, p.sub, p.provider, providerAccount, p.status,
               connectionVersion, p.scopes, p.authMode, p.lastAccessedAt, revokedAt,
               p.createdAt, p.updatedAt)
  }

  /** The projection loses exactly the confidential columns: the public view
      plus `connectionId`, `providerAccount`, `connectionVersion` and
      `revokedAt` give the row back. */
  lemma FilterRestore(c: Connection)
    ensures Restore(FilterConnectionData(Some(c)).value, c.connectionId, c.providerAccount,
                    c.connectionVersion, c.revokedAt) == c
  {
  }

  /** Nothing confidential leaks: two rows have the same public view exactly
      when they differ at most in the four confidential columns. */
  lemma FilterHidesExactlyConfidential(a: Connection, b: Connection)
    ensures FilterConnectionData(Some(a)) == FilterConnectionData(Some(b)) <==>
              a == b.(connectionId := a.connectionId, providerAccount := a.providerAccount,
                      connectionVersion := a.connectionVersion, revokedAt := a.revokedAt)
  {
    if FilterConnectionData(Some(a)) == FilterConnectionData(Some(b)) {
      FilterRestore(a);
      FilterRestore(b);
    }
  }

  // ---------------------------------------------------------------------
  // generateConnectionId

  const ID_PREFIX: string := "conn_"

  /** The id format: the prefix followed by a Base58 encoding. */
  function ConnectionId(random: seq<Base58.byte>): string {
    ID_PREFIX + Base58.Encoding(random)
  }

  /** Read the random bytes back out of an id; None for anything not in the
      id format. */
  function ParseConnectionId(id: string): Option<seq<Base58.byte>> {
    if |id| >= |ID_PREFIX| && id[..|ID_PREFIX|] == ID_PREFIX then Base58.Decode(id[|ID_PREFIX|..])
    else None
  }

  /** Every id parses back to the bytes it was made from, so distinct random
      draws give distinct ids. */
  lemma ConnectionIdRoundTrip(random: seq<Base58.byte>)
    ensures ParseConnectionId(ConnectionId(random)) == Some(random)
  {
    var id := ConnectionId(random);
    assert id[..|ID_PREFIX|] == ID_PREFIX;
    assert id[|ID_PREFIX|..] == Base58.Encoding(random);
    Base58.DecodeEncode(random);
  }

  lemma ConnectionIdInjective(a: seq<Base58.byte>, b: seq<Base58.byte>)
    requires ConnectionId(a) == ConnectionId(b)
    ensures a == b
  {
    ConnectionIdRoundTrip(a);
    ConnectionIdRoundTrip(b);
  }

  /** A non-empty buffer never encodes to the empty string. */
  lemma EncodingNonEmpty(b: seq<Base58.byte>)
    requires |b| > 0
    ensures |Base58.Encoding(b)| > 0
  {
    if b[0] != 0 {
      Base58.ValuePositive(b);
      assert |Base58.Digits(Base58.Value(b))| > 0;
    }
  }

  /** `generateConnectionId`, with the twelve bytes `crypto.randomBytes(12)`
      would draw given as a parameter. */
  method GenerateConnectionId(random: seq<Base58.byte>) returns (id: string)
    requires |random| == 12
    ensures ParseConnectionId(id) == Some(random)
    ensures |id| > |ID_PREFIX| && id[..|ID_PREFIX|] == ID_PREFIX
    ensures forall i :: |ID_PREFIX| <= i < |id| ==> id[i] in Base58.ALPHABET
  {
    var encoded := Base58.EncodeBase58(random);
    id := ID_PREFIX + encoded;
    ConnectionIdRoundTrip(random);
    EncodingNonEmpty(random);
    assert id[|ID_PREFIX|..] == encoded;
  }
}

=== FILE: webhook_auth.dfy ===
/** Webhook-driven activation (src/services/webhook/auth.js): an `auth`
    notification of a completed authorization marks the matching connection
    active and records the provider-side connection id. The notification is a
    typed record; the constants of src/utils/nango.js, which is not part of
    this model, are taken to be `auth`, `forward` and `creation`. */
module WebhookAuth {
  import opened Wrappers
  import opened Js
  import opened ConnectionModel
  import opened ConnectionStore

  /** `AUTH_OPERATIONS.CREATION`. */
  const CREATION: string := "creation"
  /** `DEFAULT_RESPONSE_EVENT.auth.creation` (src/utils/constant.js). */
  const ACTIVATED: string := "connection.activated"

  /** `payload.endUser`: who authorized, in which organization (tenant), and
      the `connectId` tag the connect session was opened with, if any. */
  datatype EndUser = EndUser(endUserId: string, organizationId: string, connectId: Option<string>)

  /** A Nango notification; `None` stands for an absent field. */
  datatype Notification = Notification(
    notificationType: Option<string>,
    operation: Option<string>,
    connectionId: Option<string>,
    provider: string,
    endUser: Option<EndUser>)

  /** The event `process` builds for the (not yet wired) downstream call. */
  datatype ActivationEvent = ActivationEvent(
    eventType: string,
    eventId: string,
    connectionId: string,
    tenantId: string,
    userSub: string,
    provider: string,
    authorizedScopes: seq<string>)

  /** The row selector: the `connectId` tag when it is truthy, else the
      (user, provider, tenant) triple. */
  function Correlation(provider: string, u: EndUser): (w: Where)
    ensures Present(u.connectId) ==> w == ById(u.connectId.value)
    ensures !Present(u.connectId) ==>
              forall c :: Matches(c, w) <==>
                c.sub == u.endUserId && c.provider == provider && c.tenantId == u.organizationId
  {
    if Present(u.connectId) then ById(u.connectId.value)
    else Where(None, Some(u.organizationId), Some(u.endUserId), Some(provider))
  }

  /** The update `process` writes: status active, provider connection id. */
  function ActivationPatch(connectionId: Option<string>): Patch {
    Patch(Some(Active), connectionId)
  }

  /** `process`. Destructuring a missing `endUser` throws before anything else;
      an operation other than creation changes nothing and yields nothing;
      otherwise the first correlated row is set active whatever its status
      (stamped with `now` when that changes it), and a missing row throws when
      its id is read. */
  function Process(store: Store, n: Notification, eventId: string, now: int): (r: Result<(Store, Option<ActivationEvent>), string>)
    ensures n.endUser.None? ==> r.Err?
    ensures n.endUser.Some? && n.operation != Some(CREATION) ==> r == Ok((store, None))
    ensures n.endUser.Some? && n.operation == Some(CREATION) ==>
              (r.Err? <==> forall j :: 0 <= j < |store| ==> !Matches(store[j], Correlation(n.provider, n.endUser.value)))
    ensures r.Ok? && r.value.1.Some? ==>
              var u, e := n.endUser.value, r.value.1.value;
              && n.operation == Some(CREATION)
              && e.eventType == ACTIVATED && e.eventId == eventId
              && e.tenantId == u.organizationId && e.provider == n.provider
              && exists i :: 0 <= i < |store| && Matches(store[i], Correlation(n.provider, u))
                   && (forall j :: 0 <= j < i ==> !Matches(store[j], Correlation(n.provider, u)))
                   && r.value.0 == store[i := ApplyPatch(store[i], ActivationPatch(n.connectionId), now)]
                   && e.connectionId == store[i].id && e.userSub == store[i].sub
                   && e.authorizedScopes == store[i].authorizedScopes.GetOr([])
  {
    match n.endUser
    case None => Err("Cannot destructure property 'endUserId' of 'endUser' as it is undefined.")
    case Some(u) =>
      if n.operation != Some(CREATION) then Ok((store, None))
      else
        var updated := UpdateConnection(store, Correlation(n.provider, u), ActivationPatch(n.connectionId), now);
        match updated.1
        case None => Err("Cannot read properties of null (reading 'id')")
        case Some(c) =>
          Ok((updated.0, Some(ActivationEvent(ACTIVATED, eventId, c.id, u.organizationId, c.sub, n.provider,
                                              c.authorizedScopes.GetOr([])))))
  }

  /** Activation ignores the prior status: a revoked row named by the tag
      becomes active again, although the record's own `activate` refuses it. */
  lemma RevokedRowReactivated(c: Connection, providerConnectionId: string, eventId: string, now: int)
    requires c.status == Revoked && c.id != ""
    ensures var n := Notification(Some("auth"), Some(CREATION), Some(providerConnectionId), c.provider,
                                  Some(EndUser(c.sub, c.tenantId, Some(c.id))));
            && Activate(c, now).Err?
            && Process([c], n, eventId, now).Ok?
            && Process([c], n, eventId, now).value.0 == [c.(status := Active, connectionId := Some(providerConnectionId), updatedAt := now)]
  {
    var n := Notification(Some("auth"), Some(CREATION), Some(providerConnectionId), c.provider,
                          Some(EndUser(c.sub, c.tenantId, Some(c.id))));
    assert Matches(c, Correlation(n.provider, n.endUser.value));
  }

  /** The tag wins over the identity triple: a row named by the tag is the
      one activated even when it belongs to another user and tenant. */
  lemma TagOverridesIdentity(tagged: Connection, other: Connection, u: EndUser, provider: string,
                             providerConnectionId: string, eventId: string, now: int)
    requires u.connectId == Some(tagged.id) && tagged.id != "" && other.id != tagged.id
    requires other.sub == u.endUserId && other.tenantId == u.organizationId && other.provider == provider
    ensures var n := Notification(Some("auth"), Some(CREATION), Some(providerConnectionId), provider, Some(u));
            var r := Process([other, tagged], n, eventId, now);
            && r.Ok? && r.value.1.Some?
            && r.value.1.value.connectionId == tagged.id
            && r.value.0[0] == other
            && r.value.0[1].status == Active
  {
    var n := Notification(Some("auth"), Some(CREATION), Some(providerConnectionId), provider, Some(u));
    var store := [other, tagged];
    assert !Matches(store[0], Correlation(provider, u)) && Matches(store[1], Correlation(provider, u));
  }
}

=== FILE: webhook_controller.dfy ===
/** The Nango webhook endpoint (src/controllers/webhooks/index.js): how the
    service's outcome becomes a status and body. Failures other than
    WebhookErrors are acknowledged with 200 so that the sender does not retry. */
module WebhookController {
  import opened Wrappers
  import opened Js
  import opened ConnectionStore
  import opened WebhookAuth
  import opened WebhookService
  import Errors

  datatype Reply =
    | Received                                                        // 200 { received: true }
    | MissingType                                                     // 400, processed: false
    | Refused(error: string, webhookType: Option<string>, connectionId: Option<string>)  // 400, processed: false
    | Swallowed                                                       // 200, processed: false

  /** The reply's HTTP status: a refusal is 400, everything else 200, so an
      internal failure is acknowledged rather than retried. */
  function StatusOf(r: Reply): (status: int)
    ensures status == 200 || status == 400
    ensures status == 400 <==> r.MissingType? || r.Refused?
  {
    match r
    case Received => 200
    case MissingType => 400
    case Refused(_, _, _) => 400
    case Swallowed => 200
  }

  /** The `error` text of each body: only the success body has none, and a
      refusal echoes the WebhookError's message. */
  function ErrorText(r: Reply): (text: Option<string>)
    ensures text.None? <==> r.Received?
    ensures r.Refused? ==> text == Some(r.error)
  {
    match r
    case Received => None
    case MissingType => Some("Invalid payload - missing type field")
    case Refused(error, _, _) => Some(error)
    case Swallowed => Some("Internal server error processing webhook")
  }

  /** `handleNangoWebhook`; `None` is a missing body. */
  function HandleNangoWebhook(store: Store, body: Option<Notification>, eventId: string, now: int): (r: (Store, Reply))
    ensures body.None? || !Present(body.value.notificationType) ==> r == (store, MissingType)
    ensures r.1 == Received <==>
              body.Some? && Present(body.value.notificationType) && ProcessWebhook(store, body.value, eventId, now).Ok?
    ensures r.1 == Received ==> r.0 == ProcessWebhook(store, body.value, eventId, now).value.0
    ensures r.1 != Received ==> r.0 == store
    ensures r.1.Refused? ==>
              && body.Some?
              && ProcessWebhook(store, body.value, eventId, now) ==
                   Err(Raised(Errors.WebhookError(r.1.error, r.1.webhookType, r.1.connectionId)))
    ensures r.1 == Swallowed ==>
              body.Some? && ProcessWebhook(store, body.value, eventId, now).Err? &&
              !ProcessWebhook(store, body.value, eventId, now).error.Raised?
  {
    match body
    case None => (store, MissingType)
    case Some(n) =>
      if !Present(n.notificationType) then (store, MissingType)
      else
        match ProcessWebhook(store, n, eventId, now)
        case Ok(done) => (done.0, Received)
        case Err(Raised(e)) =>
          if e.WebhookError? then (store, Refused(e.message, e.webhookType, e.connectionId))
          else (store, Swallowed)
        case Err(Crash(_)) => (store, Swallowed)
  }

  /** Every reply's status: 200 acknowledges (processed or swallowed), 400
      refuses; and the body carries an `error` text exactly when the
      notification was not processed. */
  lemma StatusTable(store: Store, body: Option<Notification>, eventId: string, now: int)
    ensures var r := HandleNangoWebhook(store, body, eventId, now).1;
            (StatusOf(r) == 400 <==> r.MissingType? || r.Refused?) &&
            (StatusOf(r) == 200 <==> r.Received? || r.Swallowed?)
    ensures var r := HandleNangoWebhook(store, body, eventId, now).1;
            ErrorText(r).None? <==>
              body.Some? && Present(body.value.notificationType) && ProcessWebhook(store, body.value, eventId, now).Ok?
  {
  }

  /** The controller rejects a missing type itself, so the service's "Missing
      webhook type" error never reaches a reply: the only refusal is a
      non-forward notification without a connection id, echoing its type and
      id. */
  lemma RefusalIsMissingConnectionId(store: Store, body: Option<Notification>, eventId: string, now: int)
    ensures var r := HandleNangoWebhook(store, body, eventId, now).1;
            r.Refused? ==>
              && r.error == "Missing connectionId"
              && r.webhookType == body.value.notificationType
              && r.webhookType.Some? && r.webhookType != Some(FORWARD)
              && r.connectionId == body.value.connectionId && !Present(r.connectionId)
  {
  }

  /** A creation notification whose row is missing is acknowledged with 200
      and nothing changes, so the sender does not retry it. */
  lemma MissingRowSwallowed(store: Store, n: Notification, eventId: string, now: int)
    requires n.notificationType == Some(AUTH) && n.operation == Some(CREATION)
    requires Present(n.connectionId) && n.endUser.Some?
    requires forall j :: 0 <= j < |store| ==> !Matches(store[j], Correlation(n.provider, n.endUser.value))
    ensures HandleNangoWebhook(store, Some(n), eventId, now) == (store, Swallowed)
  {
  }
}

=== FILE: webhook_service.dfy ===
/** The webhook service (src/services/webhook/index.js): validate a
    notification, dispatch it by type, and report it processed. Nothing is
    forwarded downstream (the forwarding call is commented out). */
module WebhookService {
  import opened Wrappers
  import opened Js
  import opened ConnectionStore
  import opened WebhookAuth
  import Errors

  /** `WEBHOOK_TYPES.AUTH` and `WEBHOOK_TYPES.FORWARD`. */
  const AUTH: string := "auth"
  const FORWARD: string := "forward"

  /** What a handler can throw: one of the service's error classes, or a
      plain runtime error (a TypeError) with its message. */
  datatype Thrown = Raised(error: Errors.AppError) | Crash(message: string)

  /** The service's answer when a notification went through. */
  datatype Processed = Processed(processed: bool, connectionId: Option<string>, operation: Option<string>)

  /** `validateWebhookPayload`: a type is required, and a connection id unless
      the type is `forward`. */
  function ValidateWebhookPayload(n: Notification): (r: Result<bool, Errors.AppError>)
    ensures r.Ok? <==> Present(n.notificationType) &&
                       (n.notificationType == Some(FORWARD) || Present(n.connectionId))
    ensures r.Ok? ==> r.value
    ensures !Present(n.notificationType) ==> r == Err(Errors.WebhookError("Missing webhook type"))
    ensures Present(n.notificationType) && r.Err? ==>
              r == Err(Errors.WebhookError("Missing connectionId", n.notificationType, n.connectionId))
  {
    if !Present(n.notificationType) then Err(Errors.WebhookError("Missing webhook type"))
    else if !Present(n.connectionId) && n.notificationType != Some(FORWARD) then
      Err(Errors.WebhookError("Missing connectionId", n.notificationType, n.connectionId))
    else Ok(true)
  }

  /** `createPayload`: only `auth` notifications reach a handler; any other
      type yields null and changes nothing. */
  function CreatePayload(store: Store, n: Notification, eventId: string, now: int): (r: Result<(Store, Option<ActivationEvent>), Thrown>)
    ensures n.notificationType != Some(AUTH) ==> r == Ok((store, None))
    ensures n.notificationType == Some(AUTH) ==>
              (r.Ok? <==> Process(store, n, eventId, now).Ok?) &&
              (r.Ok? ==> r.value == Process(store, n, eventId, now).value) &&
              (r.Err? ==> r.error.Crash?)
  {
    if n.notificationType == Some(AUTH) then
      match Process(store, n, eventId, now)
      case Ok(v) => Ok(v)
      case Err(m) => Err(Crash(m))
    else Ok((store, None))
  }

  /** `processWebhook`: validation, then dispatch; success reports the
      notification's own connection id and operation. */
  function ProcessWebhook(store: Store, n: Notification, eventId: string, now: int): (r: Result<(Store, Processed), Thrown>)
    ensures r.Ok? <==> ValidateWebhookPayload(n).Ok? && CreatePayload(store, n, eventId, now).Ok?
    ensures r.Ok? ==> r.value.1 == Processed(true, n.connectionId, n.operation)
    ensures r.Ok? ==> r.value.0 == CreatePayload(store, n, eventId, now).value.0
    ensures ValidateWebhookPayload(n).Err? ==> r == Err(Raised(ValidateWebhookPayload(n).error))
  {
    match ValidateWebhookPayload(n)
    case Err(e) => Err(Raised(e))
    case Ok(_) =>
      match CreatePayload(store, n, eventId, now)
      case Err(t) => Err(t)
      case Ok(created) => Ok((created.0, Processed(true, n.connectionId, n.operation)))
  }

  /** A `forward` notification needs no connection id and touches no row. */
  lemma ForwardAcceptedUntouched(store: Store, n: Notification, eventId: string, now: int)
    requires n.notificationType == Some(FORWARD)
    ensures ProcessWebhook(store, n, eventId, now) == Ok((store, Processed(true, n.connectionId, n.operation)))
  {
  }

  /** The only WebhookErrors are the two validation failures; every failure
      of the activation handler is a plain runtime error. */
  lemma WebhookErrorsComeFromValidation(store: Store, n: Notification, eventId: string, now: int)
    ensures var r := ProcessWebhook(store, n, eventId, now);
            r.Err? && r.error.Raised? ==>
              r.error.error.WebhookError? && ValidateWebhookPayload(n).Err?
    ensures var r := ProcessWebhook(store, n, eventId, now);
            r.Err? && r.error.Crash? ==> n.notificationType == Some(AUTH) && Process(store, n, eventId, now).Err?
  {
  }

  /** An auth notification for an existing pending row, correlated by its
      tag, activates it and is reported processed. */
  lemma AuthNotificationActivates(store: Store, i: nat, n: Notification, eventId: string, now: int)
    requires i < |store| && n.notificationType == Some(AUTH) && n.operation == Some(CREATION)
    requires Present(n.connectionId) && n.endUser.Some?
    requires n.endUser.value.connectId == Some(store[i].id) && store[i].id != ""
    requires forall j :: 0 <= j < |store| && j != i ==> store[j].id != store[i].id
    ensures var r := ProcessWebhook(store, n, eventId, now);
            && r.Ok?
            && r.value.0 == store[i := ApplyPatch(store[i], ActivationPatch(n.connectionId), now)]
  {
    var w := Correlation(n.provider, n.endUser.value);
    assert Matches(store[i], w);
    var r := Process(store, n, eventId, now);
    var k :| 0 <= k < |store| && Matches(store[k], w)
             && (forall j :: 0 <= j < k ==> !Matches(store[j], w))
             && r.value.0 == store[k := ApplyPatch(store[k], ActivationPatch(n.connectionId), now)];
    assert k == i;
  }
}

=== FILE: wrappers.dfy ===
/** Failure-compatible wrappers shared by every module of the model.
    `Option` stands for a JavaScript value that may be `null`/`undefined`,
    `Result` for an operation that either returns or throws. */
module Wrappers {

  datatype Option<+T> = None | Some(value: T) {

    /** The value, or `default` when absent (the `x || default` idiom on objects). */
    function GetOr(default: T): T {
      match this
      case Some(v) => v
      case None => default
    }
  }

  datatype Result<+T, +E> = Ok(value: T) | Err(error: E) {

    predicate IsFailure() {
      Err?
    }

    function PropagateFailure<U>(): Result<U, E>
      requires Err?
    {
      Err(error)
    }

    function Extract(): T
      requires Ok?
    {
      value
    }
  }
}
